=== FILE: README.md ===
# A Dafny model of the chat gateway's core

This project models the deterministic core of an OpenAI-compatible chat gateway. The gateway has three parts:

- a FastAPI backend (`backend/app`);
- a LangChain gateway (`app/`);
- a Vue frontend with a small tool system (`frontend/src`).

The model covers the shape translation, stream framing, registries, small state machines and tool logic around the network and framework calls. Those calls become parameters of the model.

One module per source file:

| module | file | models |
|---|---|---|
| `Config` | `config.dfy` | the case-insensitive provider table of `Settings.get_active_model_config` |
| `Agent` | `agent.dfy` | the key check and Gemini base-URL rewrite of `setup_llm`, `get_model_info`, and the `format_input` / `save_to_memory` steps of the chain |
| `OpenAiApi` | `openai_api.dfy` | the `/v1/chat/completions` handler: schema cleaning, message flattening, response mapping, the token estimate, and the per-character re-chunking stream |
| `Passthrough` | `passthrough.dfy` | `DirectAgent`: the upstream request body, the `data: ` line filter over network reads, and status handling |
| `AppModels` | `app_models.dfy` | the `Role` enum and the request and response records with their defaults |
| `AppTools` | `app_tools.dfy` | `ToolManager` argument extraction, `get_tool_schemas`, and the calculator's input validator |
| `Chains` | `chains.dfy` | message conversion, the tool description, routing, the word re-chunking and direct streams, and `process_non_streaming` |
| `AppServer` | `app_server.dfy` | the error and route mapping of `chat_completions` and `execute_tool`, and the global exception handler |
| `ToolRegistry` | `registry.dfy` | the frontend `ToolRegistry` over an insertion-ordered map, and `executeToolCall` |
| `ToolManager` | `tool_manager.dfy` | `registerAllTools`, idempotent `init`, the singleton, and the tool-info queries |
| `ApiStore` | `api_store.dfy` | the `isConnected` / `isThinking` store, `streamChat`, `disconnect` and `updateApiConfig` |
| `StorageTool` | `storage_tool.dfy` | `localStorageTool` / `sessionStorageTool` over an ordered string map |
| `DatetimeTool` | `datetime_tool.dfy` | the time calculator's difference decomposition, unit dispatch and error paths, and the format fallback of the clock tool |
| `RandomTool` | `random_tool.dfy` | argument validation and result messages of the random-number and UUID tools, and the UUID v4 template |
| `TextTool` | `text_tool.dfy` | `textProcessorTool` for `word_count`, `trim`, the case conversions and the error paths |

Shared modules:

- `Wrappers`: `Option` and `Result`.
- `Strings`: split, strip, join, words and number rendering.
- `Json`: parsed JSON values and field lists with Python and JavaScript lookups, and the Python operators `[key]`, `[0]`, `len`, `in`, iteration and `.get` with their exceptions.
- `OrderedMap`: an insertion-ordered map, the JavaScript `Map` and the Python `dict`.
- `JsValues`: JavaScript truthiness.

What the model takes as parameters instead of computing:

- the agent's replies (`process_message`, `process_message_with_functions` and the LangChain executor);
- the clock, wherever it is read;
- `uuid4` hex strings, `Math.random` draws and `Date.now`;
- JSON validity and parsing (`json.loads`, `JSON.parse`);
- Python `str()` and JavaScript `String()` of values;
- the calendar setters and locale formatting of `Date`;
- Unicode case mapping;
- the probe and stream outcomes of the OpenAI SDK;
- the result of each tool's `execute`;
- Pydantic's lax parsing of a numeric string into an `int` (`strInt`).

Behaviours of the code worth knowing:

- **The pass-through stream ends silently.** When no `[DONE]` arrives it emits no error chunk and no closing `[DONE]` (`Passthrough.EndsSilently`).
- **Only `data: ` with the space is accepted.** A line starting with `data:` and no space is dropped (`Passthrough.LinePayload`).
- **Functions and tools stay apart.** Legacy `functions` and `tools` are translated into two separate lists and handed to the agent that way; they are never concatenated (`OpenAiApi.FunctionCallingArgs`).
- **Function calling is refused when streaming.** The re-chunking stream answers a request with functions or tools with one `data:`-framed `{"error": …}` event, with no chunk wrapper and no `[DONE]`. Its exception path emits one error chunk and no `[DONE]` either (`OpenAiApi.StreamChatCompletion`).
- **Timestamps and ids vary per chunk.** Each re-chunked chunk reads the clock again, so `created` is not fixed per stream. Each `app/` chunk draws a fresh id.
- **A missing user message is a 500 on the buffered path.** The 400 raised there is caught by the handler's own `except` and re-raised as a 500 carrying the 400's text (`OpenAiApi.CreateChatCompletion`).
- **No empty-`messages` check in the backend router.** Only `app/server.py` refuses an empty list.
- **Eight frontend tools lack a top-level `name`.** They keep it only under `definition`, so `tool.name` is `undefined`. They are:
  - `datetimeTool` and `timeCalculatorTool` (`frontend/src/tools/datetime.ts:6` and `:72`);
  - `localStorageTool` and `sessionStorageTool` (`storage.ts:6` and `:79`);
  - `textProcessorTool` (`text.ts:6`);
  - `browserInfoTool`, `clipboardTool` and `notificationTool` (`browser.ts:6`, `clipboard.ts:6` and `notification.ts:6`).

  Only the two datetime executors are registered. After `registerAllTools` they would share one key, and the registry would hold five tools, not six (`ToolManager.RegisterAllToolsFromEmpty`).
- **The datetime, storage and text tool files cannot load.** They import `createParameterSchema` from `frontend/src/utils/tools.ts` and call it at module top level (`frontend/src/tools/datetime.ts:2` and `:9`, and the same lines of `storage.ts` and `text.ts`). `utils/tools.ts` exports no such name. Under native ES modules this is a link error; under a bundler the call of `undefined` throws while the module is evaluated. Either way `frontend/src/tools/index.ts`, which imports `datetime.ts`, never loads, and neither does `frontend/src/stores/api.ts`, which imports it. As written, `registerAllTools` and these executors are unreachable. The model describes them as if `createParameterSchema` returned the schema it is given.
- **One error path cannot be reached.** `process_request`'s `processing_error` cannot occur on the streaming path of `app/chains.py`: both routes catch their own errors.
- **Two logging lines can crash.** Null content makes `DirectAgent`'s logging fail (see Findings).

## Model

| member | source | states |
|---|---|---|
| Json.Index | backend/app/openai_api.py:491-495 | `j[key]` succeeds exactly on a dict holding the key and yields its value. On a dict without it, it fails with the quoted key of a `KeyError`. |
| Json.PyIter | backend/app/passthrough_agent.py:194-196 | Iteration succeeds exactly on lists, strings and dicts: a list yields its items, a string its one-character strings, a dict its keys. |
| Json.PyLen | backend/app/passthrough_agent.py:189 | `len` succeeds exactly where iteration does and counts what iteration yields. |
| Json.PyIn | backend/app/passthrough_agent.py:185 | `key in j` succeeds exactly where iteration does. It is key membership for a dict, element membership for a list and substring search for a string. |
| Json.PyFirst | backend/app/openai_api.py:491 | `j[0]` succeeds exactly on a non-empty list or string and yields the first item iteration gives. A dict fails with `KeyError: 0`. |
| Json.PyGet | backend/app/passthrough_agent.py:188 | `.get(key, fallback)` succeeds exactly on a dict and yields the value or the fallback. |
| Config.Resolve | backend/app/config.py:41-71 | The provider is Gemini exactly when the lower-cased `MODEL_PROVIDER` is `gemini`, OpenAI exactly when it is `openai`, and DeepSeek for every other name, including unknown ones. |
| Config.ActiveModelConfig | backend/app/config.py:41-71 | The active configuration carries the key, URL and model of the selected provider, and its `provider` label is always one of the three names. |
| Config.CaseInsensitive | backend/app/config.py:43-57 | Two spellings with the same lower-case form select the same configuration. |
| Config.UnknownIsDeepSeek | backend/app/config.py:64-71 | An unrecognised provider name gives exactly the DeepSeek configuration. |
| Agent.LlmBaseUrl | backend/app/agent.py:32-39 | The client's base URL gains `/openai` exactly when the provider is `gemini` and the URL contains Google's Generative Language host. Otherwise it is the configured URL. |
| Agent.SetupLlm | backend/app/agent.py:27-48 | Set-up fails exactly when the API key is empty, with a message naming `<PROVIDER>_API_KEY`. Otherwise the client gets the key, the model, the possibly rewritten URL, temperature 0.7, 2000 max tokens and streaming on. |
| Agent.BaseUrlRewrite | backend/app/agent.py:36-39 | The rewrite only ever appends `/openai`, and only for Gemini. For Gemini the URL changes exactly when it contains `generativelanguage.googleapis.com`. |
| Agent.StockGeminiUrlRewritten | backend/app/config.py:21 | The default `GEMINI_BASE_URL` contains Google's host, so `setup_llm` extends it with `/openai`. |
| Agent.RewriteKeepsHost | backend/app/agent.py:36-39 | The rewritten URL contains the Gemini host exactly when the configured URL does. |
| Agent.GetModelInfo | backend/app/agent.py:143-151 | Model info reports the configured provider, model and URL, the tool count, and the tool names in order. |
| Agent.ModelInfoKeepsConfiguredUrl | backend/app/agent.py:36-151 | When the Gemini rewrite applies, the reported URL differs from the one the client uses. |
| Agent.FormatInput | backend/app/agent.py:107-121 | A dict contributes its `input`, or `""` when it has none. Any other value contributes its `str()`. The history is the memory and the scratchpad is empty. |
| Agent.SaveToMemory | backend/app/agent.py:123-132 | The result is returned unchanged. The memory gains a user/AI pair exactly when both `input` and `output` are truthy, and is otherwise untouched. |
| Agent.SaveToMemoryEven | backend/app/agent.py:123-132 | Saving keeps an even-length memory even, and grows it by at most two messages. |
| AppModels.ParseRole | app/models.py:7-12 | Validating a role string succeeds exactly for the five role values, and the role found has that string as its value. |
| AppModels.RoleRoundTrip | app/models.py:7-12 | Every role survives the trip to its string and back. |
| AppModels.RoleValueInjective | app/models.py:7-12 | Distinct roles have distinct string values. |
| AppModels.NewTool | app/models.py:22-24 | A tool built without `type` has type `function`. |
| AppModels.NewToolCall | app/models.py:26-29 | A tool call built without `type` has type `function` and keeps its id and function. |
| AppModels.NewMessage | app/models.py:31-36 | A message built from a role and content has no name, no tool calls and no tool-call id. |
| AppModels.NewRequest | app/models.py:38-52 | A request naming only model and messages takes the declared defaults: temperature 0.7, top_p 1.0, n 1, stream false, both penalties 0.0, and everything else absent. |
| AppModels.DefaultRequestIsPlain | app/models.py:45-51 | A default request is buffered and declares no tools. |
| AppModels.DefaultId | app/models.py:65-83 | A default id is `chatcmpl-` followed by 29 lower-case hex digits, 38 characters in all. |
| AppModels.DefaultIdInjective | app/models.py:65-83 | Two default ids agree exactly when their uuids agree on the first 29 hex digits. |
| AppModels.DefaultIdSuffix | app/models.py:65-83 | The uuid's leading 29 hex digits can be read back from the id. |
| AppModels.NewResponse | app/models.py:64-70 | A response gets object `chat.completion`, the clock's time, a default id, and the given model, choices and usage. |
| AppModels.NewStreamResponse | app/models.py:82-87 | A chunk gets object `chat.completion.chunk`, the clock's time, a default id, and the given model and choices. |
| AppTools.FindTool | app/tools.py:96-98 | The lookup finds a registered tool with exactly the given name, and finds nothing exactly when no tool has that name. |
| AppTools.GetToolSchemas | app/tools.py:104-126 | There is one schema per tool, in registration order. |
| AppTools.SchemaReadBack | app/tools.py:108-124 | Reading a schema back gives type `function` and the tool's name and description. Its parameters require only the string `query`. |
| AppTools.QueryParametersReadBack | app/tools.py:113-122 | The parameter schema is an object that requires `query`. |
| AppTools.DefaultSchemas | app/tools.py:88-126 | The default manager yields four schemas: `calculator`, `current_time`, `weather`, `web_search`, in that order. |
| AppTools.ExtractQuery | app/tools.py:136-143 | A string argument that parses to a dict gives its `query`, or else the raw string. An unparsable string is the query itself. A string that parses to a non-dict raises the missing-`get` error. A non-string argument becomes its `str()`. |
| AppTools.SyncAsyncAgree | app/tools.py:128-172 | `aexecute_tool` gives the same outcome as `execute_tool` for every input, given the same tool behaviour. |
| AppTools.UnknownToolNotRun | app/tools.py:130-132 | An unknown name answers `工具 '<name>' 不存在` without running any tool. |
| AppTools.KnownToolNeverRaises | app/tools.py:134-149 | A known tool always gives a string: the tool's result, or `工具执行错误: ` followed by the error. |
| AppTools.NonObjectArgumentsFail | app/tools.py:137-149 | Arguments that parse to a non-dict end in the execution-error message. |
| AppTools.Calculate | app/tools.py:14-29 | A query with an unsafe word, in any case, is refused first. A query with a character outside the whitelist is refused next. |
| AppTools.CalculatorGate | app/tools.py:17-27 | A query reaches `eval` exactly when every character is whitelisted. No unsafe word can be spelt with those characters. |
| AppTools.UnsafeWordFirst | app/tools.py:18-19 | Any expression containing any spelling of one of the refused words, in any letter case, is answered with the unsafe-expression message, whatever it would evaluate to. |
| AppTools.ExecuteTool | app/tools.py:128-149 | Only a list or dict tool name escapes, as `unhashable type`. Any other non-string name is simply not found. |
| AppTools.AExecuteTool | app/tools.py:151-172 | The async variant fails and falls back exactly as the synchronous one does. |
| Chains.ConvertMessages | app/chains.py:93-103 | The converted list has one LangChain message per system, user or assistant message, in order, with `None` content read as `""`. Other roles are dropped. |
| Chains.ConvertMessagesConcat | app/chains.py:93-103 | Converting a concatenation converts each part. |
| Chains.ConvertKeepsPlainConversation | app/chains.py:96-102 | A conversation without function or tool messages keeps every message and its text. |
| Chains.ConvertDropsToolMessages | app/chains.py:96-103 | Function and tool messages vanish entirely. |
| Chains.FormatToolsDescription | app/chains.py:105-114 | No tools gives `暂无可用工具`. |
| Chains.FormatToolsLines | app/chains.py:110-114 | For single-line names and descriptions, the text splits back into one `- name: description` line per tool, in order. |
| Chains.RouteConditions | app/chains.py:123-125 | The tool route is taken exactly when tools are enabled, the request has a non-empty tool list and the manager has tools. A default request never takes it. |
| Chains.DataYields | app/chains.py:169-183 | Each text becomes one content chunk carrying the request's model and the id and time drawn for its position. |
| Chains.FinishedYields | app/chains.py:186-200 | A finished stream is the content chunks, one empty chunk with `finish_reason` `stop`, then `[DONE]`. Its text is the texts concatenated. |
| Chains.FailedYields | app/chains.py:202-209 | A failed stream is the content chunks, then one bare error object and no `[DONE]`. |
| Chains.WordDeltas | app/chains.py:167-177 | Every word but the last gets one trailing space. The last word is sent as is. |
| Chains.ConcatWordDeltas | app/chains.py:167-177 | The deltas concatenate to the words joined by single spaces. |
| Chains.ToolRouteYields | app/chains.py:144-209 | An agent failure, or a non-string `output`, yields one `tool_error`. A result without `output` yields nothing. A string `output` yields one chunk per word, then the stop chunk and `[DONE]`. |
| Chains.ToolRouteText | app/chains.py:163-183 | The client reassembles the output with whitespace runs collapsed to single spaces, and splitting that text gives back the same words. |
| Chains.NonEmpty | app/chains.py:224-225 | Only non-empty chunks are forwarded, in order. |
| Chains.NonEmptyText | app/chains.py:224-225 | Dropping empty chunks loses no text. |
| Chains.DirectYields | app/chains.py:211-265 | The direct route forwards the non-empty chunks, then completes with the stop chunk and `[DONE]`, or ends with one `direct_error` carrying the prefixed message. |
| Chains.DirectText | app/chains.py:224-240 | Everything the stream delivered before it ended reaches the client in full. |
| Chains.ProcessRequest | app/chains.py:116-142 | On the tool route the stream is exactly what the tool route makes of the agent's result. Otherwise it is exactly what the direct route makes of the model's stream, and all its text reaches the client. Either way the stream completes or fails with exactly one error object: a `tool_error` or an empty stream only on the tool route, a `direct_error` only on the direct route. Every chunk carries the request's model. |
| Chains.NonStreamingSuccess | app/chains.py:292-312 | A successful buffered reply has no `error` key, all-zero usage, and the content in its single choice. |
| Chains.ResponseHeader | app/chains.py:292-296 | The reply's `id`, `created` and `model` read back as the values it was built with. |
| Chains.NonStreamingError | app/chains.py:267-320 | The buffered reply has an `error` key exactly when the content could not be produced, and its message then carries the `处理请求时发生错误: ` prefix. |
| Chains.NonStreamingContent | app/chains.py:280-290 | With tools enabled, tools requested and an agent, the content is the agent result's `output`, default `""`, and the agent's error or a non-dict result fails. Otherwise it is the plain chain's string. |
| Chains.ProcessNonStreaming | app/chains.py:267-320 | The reply is always a dict. On success it has no `error` key, and it carries the drawn id, the time, the request's model, all-zero usage and the content in its single choice. On failure it is the error object with the `处理请求时发生错误: ` prefix. |
| Chains.MissingOutputIsEmpty | app/chains.py:284-285 | On the buffered tool route, an agent dict without `output` gives empty content, not an error. |
| Chains.Render | app/chains.py:183-209 | Chunks and `[DONE]` are sent as `data: ...` frames ending in a blank line. Error objects are sent bare, as plain JSON. |
| AppServer.Reraise | app/server.py:145-153 | An `HTTPException` leaves unchanged. Any other exception becomes a 500 whose detail is the handler's prefix followed by the message. |
| AppServer.ChatCompletions | app/server.py:105-153 | Every exception leaving the handler is an `HTTPException`. |
| AppServer.ChatCompletionsOutcomes | app/server.py:108-143 | An empty conversation is a 400 `Messages are required`. A streaming request gets the events of `process_request` unchanged. A buffered request gets the completion dict, or a 500 whose detail is the `processing_error` message. |
| AppServer.DefaultRequestIsBuffered | app/server.py:120-143 | A default request with messages is never answered with a stream. |
| AppServer.ExecuteToolEndpoint | app/server.py:171-201 | A falsy `tool_name` is a 400 `tool_name is required`. For a truthy name, a failing tool call is a 500 `Tool execution failed: ` plus its message. A successful call is the reply holding the name, the arguments (default `""`), the result and the timestamp. |
| AppServer.ExecuteToolEchoes | app/server.py:185-192 | A successful call echoes the tool name and the arguments (default `""`) beside a string result. |
| AppServer.ExecuteToolNotFound | app/server.py:185-192 | An unknown tool name is not an HTTP error: the reply carries the not-found message. |
| AppServer.ExecuteToolUnhashable | app/server.py:185-201 | A list tool name escapes the lookup as a `TypeError` and ends as a 500 `Tool execution failed: unhashable type: 'list'`. |
| AppServer.GlobalExceptionHandler | app/server.py:220-234 | Unhandled exceptions are answered with status 500. |
| AppServer.GlobalEnvelope | app/server.py:226-234 | The body is exactly `{"error": {"message": "Internal server error: ...", "type": "internal_error"}}`. |
| OpenAiApi.AlphaWords | backend/app/openai_api.py:242-243 | The alphabetic words are drawn from the given words and are never more numerous than they. |
| OpenAiApi.AlphaWordsLength | backend/app/openai_api.py:242-243 | The alphabetic words together hold no more characters than all the words do. |
| OpenAiApi.EstimateTokensClosedForm | backend/app/openai_api.py:239-244 | The estimate is the CJK count plus the number of alphabetic words plus half, rounded down, of the characters outside alphabetic words. It is never negative and is 0 for the empty text. |
| OpenAiApi.EstimateTokens | backend/app/openai_api.py:239-244 | The estimate, truncated by `int()`, is never negative and is 0 for the empty text. |
| OpenAiApi.DropNulls | backend/app/openai_api.py:426 | The kept entries are exactly the entries whose value is not null. A dict without nulls is returned as it is. |
| OpenAiApi.DropNullsConcat | backend/app/openai_api.py:426 | Dropping nulls from two halves and joining them gives what dropping from the whole gives, so the kept entries stay in their order. |
| OpenAiApi.FixRequired | backend/app/openai_api.py:419-420 | A null `required` becomes `[]`. Every other key, and the key order, are unchanged. |
| OpenAiApi.CleanProperties | backend/app/openai_api.py:423-428 | Cleaning succeeds exactly when every property is a dict. It keeps the property names in order and replaces each property by its non-null entries. |
| OpenAiApi.CleanParams | backend/app/openai_api.py:416-430 | Cleaning a parameters dict fails only when some property is not a dict, and it keeps the dict's keys in order. |
| OpenAiApi.CleanParamsLookups | backend/app/openai_api.py:418-428 | After cleaning, `required` holds its fixed value and `properties` holds the cleaned properties. |
| OpenAiApi.CleanParamsOtherKeys | backend/app/openai_api.py:416-430 | Keys other than `required` and `properties` pass through cleaning unchanged. |
| OpenAiApi.CleanPropertiesClean | backend/app/openai_api.py:423-428 | Properties that are already null-free dicts are left exactly as they are. |
| OpenAiApi.CleanPropertiesResult | backend/app/openai_api.py:423-428 | Every cleaned property is a dict without null values. |
| OpenAiApi.CleanParamsIdempotent | backend/app/openai_api.py:418-428 | Cleaning a cleaned parameters dict gives it back unchanged. |
| OpenAiApi.DropNullsDumped | backend/app/openai_api.py:417-427 | A dumped property loses its `description` and `enum` keys exactly when they were `None`, and keeps `type`. |
| OpenAiApi.CleanDumpedProperties | backend/app/openai_api.py:417-428 | Dumping then cleaning typed properties never fails and yields the cleaned property of each, in order. |
| OpenAiApi.CleanDumpedParameters | backend/app/openai_api.py:416-430 | Dumping then cleaning a typed schema never fails. It keeps `type` and the `required` list, and holds the cleaned properties. |
| OpenAiApi.TranslateFunction | backend/app/openai_api.py:409-438 | A translated function has exactly the keys `name`, `description`, `parameters`, in that order. |
| OpenAiApi.TranslateFunctionFields | backend/app/openai_api.py:409-436 | The name is copied, and the description is copied even when null. A function without parameters gets `{type: object, properties: {}, required: []}`. Typed parameters are dumped and cleaned. |
| OpenAiApi.TranslateTool | backend/app/openai_api.py:444-476 | A translated tool has exactly `type` and `function`. It keeps its own type and holds the translated function. |
| OpenAiApi.TranslateFunctions | backend/app/openai_api.py:406-438 | Legacy functions are translated one to one, in declaration order. |
| OpenAiApi.TranslateTools | backend/app/openai_api.py:441-476 | Tools are translated one to one, in declaration order. |
| OpenAiApi.LegacyFunctions | backend/app/openai_api.py:406-408 | The legacy list is passed on exactly when `functions` is present and non-empty, and it keeps its length. |
| OpenAiApi.ModernTools | backend/app/openai_api.py:441-443 | The tool list is passed on exactly when `tools` is present and non-empty, and it keeps its length. |
| OpenAiApi.OptField | backend/app/openai_api.py:385-390 | An optional key is present exactly when its value is a non-empty string, and then it holds that string. |
| OpenAiApi.ConvertToolCalls | backend/app/openai_api.py:391-402 | Tool calls are converted one to one, in order. |
| OpenAiApi.ToolCallsField | backend/app/openai_api.py:391-402 | `tool_calls` is present exactly when the list is non-empty, and then it holds the converted calls. |
| OpenAiApi.ConvertMessage | backend/app/openai_api.py:384-403 | A converted message always starts with its `role`. |
| OpenAiApi.ConvertMessageFields | backend/app/openai_api.py:384-388 | `role` is always kept. `content` and `name` are present exactly when truthy, so empty content is dropped. |
| OpenAiApi.ConvertMessageToolFields | backend/app/openai_api.py:389-402 | `tool_call_id` is present exactly when truthy, and `tool_calls` exactly when non-empty, holding every call converted in order. |
| OpenAiApi.ConvertMessages | backend/app/openai_api.py:382-403 | Messages are converted one to one, in order. |
| OpenAiApi.ConvertToolCallVerbatim | backend/app/openai_api.py:392-402 | A converted tool call keeps id, type, name and arguments verbatim. |
| OpenAiApi.MapToolCall | backend/app/openai_api.py:502-510 | A mapped tool call carries exactly the upstream id, type, name and arguments strings. |
| OpenAiApi.MapToolCalls | backend/app/openai_api.py:500-511 | Upstream tool calls map one to one, in order. |
| OpenAiApi.MapChoice | backend/app/openai_api.py:491-520 | Fails unless `message` is a dict. The role is its `role` and the content its `content` (absent means `None`). The tool calls are absent without a `tool_calls` key and otherwise are the calls read from iterating it. `finish_reason` defaults to `stop`. A non-string role or content fails `ChatMessage` validation with the count of bad fields, and a non-string finish reason fails `ChatCompletionChoice`. |
| OpenAiApi.ToolCallsOf | backend/app/openai_api.py:500-511 | No `tool_calls` key gives no tool calls. A present value is iterated, so a list maps element-wise and a scalar fails with Python's iteration error. |
| OpenAiApi.EmptyToolCallsGiveEmptyList | backend/app/openai_api.py:500-511 | An empty list, dict or string under `tool_calls` gives an empty list of tool calls rather than none. |
| OpenAiApi.ScalarToolCallsFail | backend/app/openai_api.py:500-503 | A non-empty string or dict under `tool_calls` is iterated into strings and fails with `string indices must be integers, not 'str'`. |
| OpenAiApi.MapUsage | backend/app/openai_api.py:522-526 | The three counts are read from `result["usage"]` and coerced the way Pydantic's lax `int` does: ints, booleans, integral floats and numeric strings. The mapping succeeds exactly when all three keys are present and coercible. Otherwise `ChatCompletionUsage` validation fails, counting the bad fields. |
| OpenAiApi.AsInt | backend/app/openai_api.py:522-526 | Pydantic's lax `int`: an int as is, a boolean as 0 or 1, a float only when integral, a string through the numeric-string parser, and nothing else. |
| OpenAiApi.FirstChoice | backend/app/openai_api.py:491 | `result["choices"][0]` succeeds exactly when `choices` exists and is a non-empty list or string. For a non-empty list it is the head. A dict under `choices` fails with `KeyError: 0`. |
| OpenAiApi.MapResponse | backend/app/openai_api.py:491-527 | The mapping succeeds exactly when the first choice, its mapping and the usage mapping all succeed. A mapped response has one choice at index 0, built from the first upstream choice, and the copied usage. It carries the given id, time and model. |
| OpenAiApi.MapResponseReadsFirstChoiceOnly | backend/app/openai_api.py:491-527 | Two results that agree on `choices[0]` and `usage` map to the same completion, whatever their other choices are. |
| OpenAiApi.MapResponseDeterminedBy | backend/app/openai_api.py:491-527 | The completion depends only on the first choice and the usage block. |
| OpenAiApi.RechunkEvents | backend/app/openai_api.py:278-317 | The stream is a role chunk, one chunk per character with the completion id, then `[DONE]`. Only the last character chunk carries a finish reason. |
| OpenAiApi.ReChunk | backend/app/openai_api.py:275-317 | The generator loop emits the re-chunked stream. Its content deltas concatenate to the reply, and exactly one chunk says `stop`, none for an empty reply. |
| OpenAiApi.StreamChatCompletion | backend/app/openai_api.py:246-328 | With functions or tools, the stream is one `data:`-framed `{"error": …}` event, with no chunk wrapper and no `[DONE]`. `[DONE]` appears only as the last event. A missing user message gives one error chunk carrying the 400 text. Otherwise a successful agent reply is exactly its re-chunked stream, and a failing agent gives one error chunk with its message. |
| OpenAiApi.LastUserIndex | backend/app/openai_api.py:534-538 | The index found is the last message with role `user`. None is found exactly when there is no user message. |
| OpenAiApi.EstimateUsage | backend/app/openai_api.py:563-567 | The prompt count is the estimate of the message contents joined by spaces, the completion count the estimate of the reply, and the total their sum. All are non-negative, and an empty reply costs nothing. |
| OpenAiApi.FunctionCallingArgs | backend/app/openai_api.py:479-488 | The agent receives the converted messages, the legacy list and the tool list, kept as two separate lists. |
| OpenAiApi.CreateChatCompletion | backend/app/openai_api.py:364-590 | An uninitialised agent gives a 500. A missing user message gives a 500 carrying the 400 text. With functions, the reply is the mapped agent result or a 500 carrying its error. Streaming happens only without functions and with `stream` set, and is the re-chunked stream. A buffered reply is one assistant message with the agent's text, finish reason `stop` and the estimated usage, or a 500 carrying the agent's error. |
| OpenAiApi.CompletionId | backend/app/openai_api.py:370 | A completion id is `chatcmpl-` followed by the first 8 hex digits of the uuid, 17 characters in all. |
| Passthrough.CopyExtras | backend/app/passthrough_agent.py:44-47 | Every keyword argument except `temperature`, `max_tokens` and `tool_choice` overwrites the body's entry. Every other entry is kept, and no other key is added. |
| Passthrough.BaseBody | backend/app/passthrough_agent.py:29-35 | The body opens with `model`, `messages`, `stream`, `temperature` and `max_tokens`, in that order. It carries the configured model, and temperature and max tokens default to 0.7 and 2000. |
| Passthrough.WithTools | backend/app/passthrough_agent.py:38-40 | A non-empty tool list adds `tools` and then `tool_choice`, which defaults to `auto`. Otherwise the body is unchanged. |
| Passthrough.RequestBody | backend/app/passthrough_agent.py:29-47 | The body holds the five base keys and every non-reserved keyword argument's value. It holds no key other than the base keys, the keyword arguments and, when tools are given, `tools` and `tool_choice`. |
| Passthrough.RequestBodyValues | backend/app/passthrough_agent.py:129-147 | Keyword arguments override `model` and `stream`. `temperature` and `max_tokens` come from the keywords or the defaults 0.7 and 2000. `messages` is always the given list. |
| Passthrough.RequestBodyTools | backend/app/passthrough_agent.py:38-40 | `tools` and `tool_choice` (default `auto`) are sent exactly when the tool list is non-empty. |
| Passthrough.ChatRequest | backend/app/passthrough_agent.py:55-71 | The request goes to the base URL plus `/chat/completions`, with a JSON content type and `Authorization: Bearer <key>`. |
| Passthrough.PlainBody | backend/app/passthrough_agent.py:129-135 | Without keywords or tools the body is exactly the five base keys with the configured model and the stock values. |
| Passthrough.LinePayload | backend/app/passthrough_agent.py:91-94 | A line yields a payload exactly when, stripped, it starts with `data: ` with the space. |
| Passthrough.PayloadsConcat | backend/app/passthrough_agent.py:86-91 | Reads are processed independently: the payloads of two runs of reads are those of each in turn, so an event split across reads is never rejoined. |
| Passthrough.EmitConcat | backend/app/passthrough_agent.py:96-114 | Payloads before any `[DONE]` contribute their events independently. After a `[DONE]`, nothing more is emitted. |
| Passthrough.EmitReference | backend/app/passthrough_agent.py:96-114 | The output is the frames of the non-empty valid payloads before the first `[DONE]`, in order, then the `[DONE]` event only if one arrived. |
| Passthrough.FrameInjective | backend/app/passthrough_agent.py:109 | Distinct payloads give distinct frames. |
| Passthrough.EndsSilently | backend/app/passthrough_agent.py:86-114 | The `[DONE]` event appears exactly when a `[DONE]` payload arrived, and then it is the last event. A stream without it ends with no closing event. |
| Passthrough.StreamFrames | backend/app/passthrough_agent.py:86-114 | The read loop yields exactly the events of the reference filter over all payloads. |
| Passthrough.DoneEndsOutput | backend/app/passthrough_agent.py:96-99 | Once `[DONE]` has been met, the remaining reads add nothing to the output. |
| Passthrough.EmitStep | backend/app/passthrough_agent.py:93-114 | A `[DONE]` line appends the closing event. A non-empty valid payload appends its frame. Any other line appends nothing. |
| Passthrough.LineFrames | backend/app/passthrough_agent.py:91-114 | The line loop yields the events of its lines' payloads, and reports the end exactly when a `[DONE]` payload occurred. |
| Passthrough.StreamChat | backend/app/passthrough_agent.py:77-118 | A non-200 status fails before any event, with the status and body in the message. A 200 status yields the filtered events. |
| Passthrough.Chat | backend/app/passthrough_agent.py:177-198 | A non-200 status fails with the status and body. A 200 response is the parsed JSON, unchanged. |
| Passthrough.InspectToolCalls | backend/app/passthrough_agent.py:195-196 | The per-call logging succeeds exactly when every call is a dict whose `function`, if present, is a dict. |
| Passthrough.ChatAsWritten | backend/app/passthrough_agent.py:182-202 | As written, `chat` succeeds exactly when the corrected `chat` succeeds and its result survives the summary logging, and then returns the same value. A failure of the corrected `chat` is returned unchanged. |
| Passthrough.InspectAsWritten | backend/app/passthrough_agent.py:185-196 | The summary logging succeeds exactly on the results the tolerance predicate admits: no `choices`, an empty one, or a first choice whose content supports `len` and slicing and whose tool calls are dicts with dict `function`s. |
| Passthrough.InspectChoice | backend/app/passthrough_agent.py:187-196 | The logging of one choice succeeds exactly when the choice tolerance predicate holds. |
| Passthrough.InspectContent | backend/app/passthrough_agent.py:187-190 | Reading and measuring the content succeeds exactly when the choice is a dict with a dict `message` whose content, default `""`, is a string or a list. |
| Passthrough.InspectCalls | backend/app/passthrough_agent.py:192-196 | On a dict message, the tool-call logging succeeds exactly when the `tool_calls` value, if any, is tolerated. |
| Passthrough.ToolCallReplyFailsAsWritten | backend/app/passthrough_agent.py:188-189 | A 200 reply whose message content is null parses fine but, as written, ends in `object of type 'NoneType' has no len()`. |
| Passthrough.NullContentStopsSummary | backend/app/passthrough_agent.py:187-189 | A message with null content stops the summary at `len(None)`. |
| Passthrough.PreviewAsWritten | backend/app/passthrough_agent.py:50-52 | The preview succeeds exactly when there is no message, or the last message is a dict whose content, default `""`, is a string or a list. |
| Passthrough.StreamChatAsWritten | backend/app/passthrough_agent.py:20-118 | As written, `stream_chat` behaves as the corrected one when the preview succeeds, and otherwise fails with the preview's error. |
| Passthrough.NullLastContentFailsAsWritten | backend/app/passthrough_agent.py:50-52 | A conversation ending in an assistant message with null content fails with `'NoneType' object is not subscriptable`, where the corrected stream succeeds. |
| ToolRegistry.Register | frontend/src/utils/tools.ts:42-45 | Registering stores the executor under its name and leaves every other name alone. A known name keeps its place and the count, and a new name is appended, raising the count by one. |
| ToolRegistry.RegisterLastWins | frontend/src/utils/tools.ts:42-45 | Registering twice under one name is the same as registering only the later executor. |
| ToolRegistry.Unregister | frontend/src/utils/tools.ts:48-51 | Unregistering removes the name and keeps every other entry. An absent name changes nothing, and a present one lowers the count by one. |
| ToolRegistry.UnregisterUndoesRegister | frontend/src/utils/tools.ts:42-51 | Registering a new name and then unregistering it restores the registry exactly. |
| ToolRegistry.GetTool | frontend/src/utils/tools.ts:54-56 | `get` finds an executor exactly when the name is registered, and it is the registered one. |
| ToolRegistry.Spec | frontend/src/utils/tools.ts:65-71 | The wrapping has type `function` and copies the executor's name, description and parameters. |
| ToolRegistry.GetEnabledToolsExact | frontend/src/utils/tools.ts:59-77 | A tool is listed exactly when it wraps a registered executor that is enabled, meaning it has no `isEnabled` or `isEnabled` returns true. |
| ToolRegistry.EnabledAmongAppend | frontend/src/utils/tools.ts:62-74 | The listing follows insertion order: the tools for two runs of keys are those of each in turn. |
| ToolRegistry.RegisterNewTool | frontend/src/utils/tools.ts:42-77 | Registering a new enabled executor appends its wrapping to the end of the enabled list. A disabled one leaves the list as it was. |
| ToolRegistry.Execute | frontend/src/utils/tools.ts:80-95 | An unknown name throws `未找到工具: <name>`. A known tool's result, or its own error, is passed through unchanged. |
| ToolRegistry.ExecuteToolCall | frontend/src/utils/tools.ts:112-121 | Invalid JSON arguments, an unknown name or a failing tool give `工具执行错误: ` followed by the message. Otherwise the answer is the tool's result. |
| ToolRegistry.ExecuteToolCallFailure | frontend/src/utils/tools.ts:112-121 | A call that cannot be answered still returns a string, and it starts with `工具执行错误: `. |
| ToolRegistry.GetAllToolNames | frontend/src/utils/tools.ts:98-105 | The names are listed once each, as many as the tool count, and are exactly the registered ones. |
| ToolManager.RegisterAllToolsFromEmpty | frontend/src/tools/index.ts:11-24 | Registering the six executors into an empty registry gives five names, in order: `get_weather`, `calculate`, `undefined`, `generate_random`, `generate_uuid`. The shared `undefined` key holds the time calculator. |
| ToolManager.Init | frontend/src/tools/index.ts:41-50 | After `init` the manager is initialised. A second call changes nothing, and a first call registers the built-in tools. |
| ToolManager.InitIdempotent | frontend/src/tools/index.ts:41-50 | Calling `init` twice is the same as calling it once. |
| ToolManager.GetInstance | frontend/src/tools/index.ts:33-38 | The slot always ends up holding the returned instance, and an existing instance is returned as it is. |
| ToolManager.GetInstanceSame | frontend/src/tools/index.ts:33-38 | Every call after the first returns the first call's instance. |
| ToolManager.HasToolEnabled | frontend/src/tools/index.ts:70-73 | A name is enabled exactly when it is registered and its executor is enabled. |
| ToolManager.GetToolInfo | frontend/src/tools/index.ts:76-88 | The info is `null` exactly for an unregistered name. Otherwise it copies the executor's fields, and `enabled` agrees with `hasToolEnabled`. |
| ToolManager.GetAllToolsInfo | frontend/src/tools/index.ts:91-93 | There is one non-null entry per registered name, in registration order. |
| ToolManager.ManagerExecuteAgrees | frontend/src/tools/index.ts:58-67 | The manager's `executeToolCall` answers exactly as the registry's helper does. |
| ApiStore.Initial | frontend/src/stores/api.ts:11-19 | The store starts disconnected and not thinking, with the local base URL, the dummy key and `deepseek-chat`. |
| ApiStore.CheckConnection | frontend/src/stores/api.ts:34-55 | `isConnected` and the returned value are whether the probe succeeded. Nothing else changes. |
| ApiStore.Connect | frontend/src/stores/api.ts:58-65 | Connecting initialises the tool manager, then sets and returns the probe outcome. |
| ApiStore.Disconnect | frontend/src/stores/api.ts:125-128 | Both flags are cleared and the settings are kept. |
| ApiStore.UpdateApiConfig | frontend/src/stores/api.ts:131-134 | Each given field replaces the current one, each missing field keeps its value, and the flags are untouched. |
| ApiStore.UpdateApiConfigLaws | frontend/src/stores/api.ts:131-139 | An empty patch changes nothing, applying a patch twice equals applying it once, and a full patch replaces the settings outright. |
| ApiStore.StreamChat | frontend/src/stores/api.ts:78-123 | A call while thinking does nothing. Otherwise chunks go to `onChunk` in order up to and including the first `stop` or `tool_calls` chunk, then `onComplete` runs once and thinking ends. A stream without one leaves thinking on, and a failure calls `onError` once and ends thinking. |
| ApiStore.SendGate | frontend/src/stores/api.ts:31 | No message can be sent while thinking or after disconnecting. When not thinking, sending is possible after a probe exactly when the probe succeeded. |
| StorageTool.Execute | frontend/src/tools/storage.ts:26-72 | Only `set`, `remove` and `clear` change the store. `set` without a truthy key or with an undefined value is refused and leaves the store alone, and so does a failing `setItem`. `get` and `remove` without a key are refused. `clear` empties the store. |
| StorageTool.Params | frontend/src/tools/storage.ts:27 | The argument object built for one action reads back its action, key and value. |
| StorageTool.SetThenGet | frontend/src/tools/storage.ts:31-46 | After a successful `set`, a `get` of the same key reports the stored value. |
| StorageTool.RemoveThenGet | frontend/src/tools/storage.ts:39-53 | After `remove`, a `get` of that key reports it missing, and every other key keeps its value. |
| StorageTool.ClearThenList | frontend/src/tools/storage.ts:55-63 | After `clear`, `list` reports the empty store. |
| StorageTool.ListReportsKeys | frontend/src/tools/storage.ts:59-64 | `list` on a non-empty store reports the key count and the keys joined by `, `, in store order, and changes nothing. |
| StorageTool.UnknownAction | frontend/src/tools/storage.ts:66-67 | An unknown or missing action answers with the invalid-action error and leaves the store unchanged. |
| StorageTool.AreasAgree | frontend/src/tools/storage.ts:99-141 | The local and session tools leave their stores in the same state; only their wording differs. |
| TextTool.Statistics | frontend/src/tools/text.ts:93-97 | The character count is the length. Characters without spaces are the length minus the whitespace characters. Words are the non-empty whitespace-separated tokens, and lines are the newlines plus one. |
| TextTool.StatisticsBlank | frontend/src/tools/text.ts:94 | A text has no words exactly when it is blank. The empty text has no characters, no words and one line. |
| TextTool.Execute | frontend/src/tools/text.ts:22-107 | A falsy `text` other than `''` is refused whatever the action, and the empty string is accepted. `trim` answers the trimmed text in double quotes. An unknown action answers with the invalid-type error. |
| TextTool.TrimAnswerIsTrimmed | frontend/src/tools/text.ts:89-91 | The quoted part of a `trim` answer is the trimmed text, and trimming it again changes nothing. |
| DatetimeTool.Diff | frontend/src/tools/datetime.ts:140-143 | The difference splits into days, hours below 24 and minutes below 60. Together they account for the absolute difference in milliseconds, except the last partial minute. |
| DatetimeTool.DiffParts | frontend/src/tools/datetime.ts:141-143 | Floor division by a day, then the remainder by an hour and by a minute, leaves less than one minute unaccounted for. |
| DatetimeTool.DiffSymmetric | frontend/src/tools/datetime.ts:140 | The difference does not depend on which of the two dates comes first. |
| DatetimeTool.AddTime | frontend/src/tools/datetime.ts:159-186 | Exactly the six units are accepted, each moving the date by its own setter. Any other unit throws `不支持的时间单位`. |
| DatetimeTool.TimeCalculatorErrors | frontend/src/tools/datetime.ts:110-151 | An invalid base fails first. `diff` without a target or with an invalid one fails with its own message, and so do an unknown unit for `add` and `subtract` and an unknown operation. Each message is prefixed `时间计算失败：`. |
| DatetimeTool.TimeCalculator | frontend/src/tools/datetime.ts:110-151 | The tool never throws: a failed calculation is returned as `时间计算失败：` followed by its message. For a valid base and unit, `add` and `subtract` answer with the base and the date `shift` reaches with the amount, or with its negation. `diff` with a valid target answers with both dates and the days, hours and minutes of `Diff`. |
| DatetimeTool.TimeCalculation | frontend/src/tools/datetime.ts:111-146 | The calculation succeeds exactly for a valid base with `add` or `subtract` and one of the six units, or with `diff` and a valid target. Each success text is built from the shifted date or from the `Diff` span. |
| DatetimeTool.SubtractIsNegatedAdd | frontend/src/tools/datetime.ts:112-129 | For any valid base time, `subtract` reports the date that `add` with the amount negated reaches, in its own `-` wording. |
| DatetimeTool.ParseFormat | frontend/src/tools/datetime.ts:33-61 | Every format other than `date`, `time` and `timestamp` is treated as `datetime`. |
| DatetimeTool.CurrentTime | frontend/src/tools/datetime.ts:22-65 | The `timestamp` format answers with the current epoch milliseconds. |
| DatetimeTool.UnknownFormatFallsBack | frontend/src/tools/datetime.ts:49-60 | An unrecognised format is answered exactly as `datetime` is. |
| RandomTool.Runs | frontend/src/tools/random.ts:50 | The loop runs zero times for a count of at most zero. Otherwise it runs the least whole number of times that reaches the count. |
| RandomTool.Generate | frontend/src/tools/random.ts:48-58 | The loop produces one result per run, and the i-th result is the pick for the i-th draw. |
| RandomTool.RandomNumbers | frontend/src/tools/random.ts:37-64 | `min >= max` is refused before the count is looked at. A count outside [1, 100] is refused. Otherwise one result per run is reported, alone for a count of 1 and joined by `, ` after the count otherwise. |
| RandomTool.ScaledInRange | frontend/src/tools/random.ts:51 | A draw in [0, 1) scales into [min, max). |
| RandomTool.PickInRange | frontend/src/tools/random.ts:51-57 | An integer pick is whole and lies strictly between min - 1 and max. A float pick lies within half a hundredth of [min, max). |
| RandomTool.ResultsInRange | frontend/src/tools/random.ts:40-58 | Every result of an accepted call lies in the requested range as above, and a whole count yields exactly that many results. |
| RandomTool.Nibble | frontend/src/tools/random.ts:102 | A draw times 16, truncated, is a nibble from 0 to 15. |
| RandomTool.FillShape | frontend/src/tools/random.ts:101-105 | Filling a template keeps its length. Each `x` becomes a lower-case hex digit, each `y` one of `8`, `9`, `a`, `b`, and every other character is kept. |
| RandomTool.TemplateSlots | frontend/src/tools/random.ts:101 | The v4 template is 36 characters long, with hyphens at 8, 13, 18 and 23, `4` at 14, `y` at 19 and `x` in every other slot. |
| RandomTool.V4Shape | frontend/src/tools/random.ts:101-105 | A v4 UUID is 36 characters, with hyphens at 8, 13, 18 and 23, `4` at 14, one of `89ab` at 19 and lower-case hex elsewhere, whatever the draws. |
| RandomTool.GenerateUuids | frontend/src/tools/random.ts:96-113 | The loop produces one UUID per run, in order. |
| RandomTool.Uuids | frontend/src/tools/random.ts:89-119 | A count outside [1, 10] is refused. Otherwise one UUID is reported alone, and several are listed one per line after the count. |
| RandomTool.DefaultUuidsAreV4 | frontend/src/tools/random.ts:99-106 | With the v4 version, every UUID reported has the v4 shape. |
| JsValues.TruthinessDiffers | frontend/src/tools/text.ts:25 | JavaScript and Python truth values agree on every JSON value except the empty array and the empty object, which only JavaScript counts as true. |

## Left out

- **HTTP, SSE transport and FastAPI routing.** The following are outside the model: `httpx` clients and their timeouts, `aiter_text` chunking, `StreamingResponse` headers, CORS, and the `OPTIONS` handler. Network reads are a `seq<string>`, and status codes and bodies are inputs.
- **The dedicated stream endpoint.** `POST /v1/chat/completions/stream` (`backend/app/openai_api.py:341-362`) only forces `stream` and wraps the same generator, so it is not modelled separately.
- **Other backend endpoints.** `GET /v1/models`, `GET /v1/model/current`, `POST /v1/model/switch`, the root endpoint and the health endpoints only report or forward to agent methods that `backend/app/agent.py` does not define. `switch_model` and `get_memory_stats` are not part of this model.
- **LangChain internals.** The agent executor, prompt templates, `ChatOpenAI` and the window memory are left out; their outputs are oracle parameters. The memory window of 10 turns is not modelled: `Agent.SaveToMemory` appends without bound.
- **Pacing and timestamps.** The `asyncio.sleep` pacing of both re-chunking streams is left out, and the clock is a parameter.
- **Randomness.** The distributions of `uuid4`, `Math.random` and `Date.now` are not modelled; only the values drawn are used. The `simple` UUID form (`Date.now().toString(36)` and a random base-36 part) is a parameter.
- **Calculators.** The `eval` of `app/tools.py` and the frontend and backend calculator tools are left out; only the input validator of `CalculatorTool._run` is modelled.
- **Browser and canned tools.** The browser, clipboard and notification tools and the weather and web-search tools are left out. They are navigator and window I/O or fixed strings.
- **Presentation and entry points.** Markdown rendering, the router, `main.py` and `.env` loading are left out.
- **Floating point.** Reals are exact: there is no NaN, infinity or IEEE rounding. The Pydantic bounds on `temperature` and the other generation parameters are not modelled.
- **Non-number arguments.** `min`, `max`, `count` and `amount` are taken to be numbers. JavaScript's comparisons with `NaN` or strings are not followed.
- **Duplicate JSON keys.** A field list holds each key once; lookups return the first match. The length of a dict counts its fields on that basis.
- **Python error texts.** Error messages follow the wording of CPython 3.11. A `KeyError`'s text is the key in single quotes, which matches Python's `repr` only for keys without quotes or backslashes.
- **Pydantic details.** A `ValidationError` is reduced to its first line, `N validation error(s) for Model`. The parsing of a numeric string into an `int` is the parameter `strInt`, and the other lax coercions (bytes, `Decimal`) do not arise from JSON.
- OpenAiApi.AlphaWords: `str.isalpha` is modelled for ASCII, Latin-1 and CJK letters only, because the full Unicode letter table is outside the model. Words in other scripts count as non-alphabetic.
- TextTool.Execute: the JSON, Base64, URL and title-case actions answer `NotModelled`, because they wrap `JSON.stringify`, `btoa`/`atob` and `encodeURIComponent`. The paragraph count is the parameter `paragraphs`, because the regular expression `\n\s*\n` split is not modelled.
- TextTool.Statistics: lengths count characters, not UTF-16 code units, so text outside the Basic Multilingual Plane counts one where JavaScript counts two.
- DatetimeTool.AddTime: the six calendar setters are the parameter `shift`, so only the unit dispatch and the error are stated.
- DatetimeTool.CurrentTime: the date, time and datetime answers depend on the locale-formatting parameter, so only the timestamp answer is stated exactly.
- RandomTool.PickInRange: the float bound is stated over exact reals; IEEE-754 rounding of `Math.round(x * 100) / 100` is not modelled.
- StorageTool.ListReportsKeys: keys are listed in insertion order. The browser's `Object.keys(localStorage)` order is implementation-defined.
- ToolManager.RegisterAllToolsFromEmpty: models the registry as if `createParameterSchema` returned its argument. As written, `frontend/src/tools/datetime.ts` fails to load, so `registerAllTools` is never reached.
- DatetimeTool.CurrentTime: modelled as if `createParameterSchema` returned its argument. As written, `frontend/src/tools/datetime.ts:9` calls an undefined import while the module loads, so the tool never runs.
- DatetimeTool.TimeCalculator: modelled as if `createParameterSchema` returned its argument. It lives in the same module as the clock tool and is unreachable for the same reason, and so are the lemmas about it.
- StorageTool.Execute: modelled as if `createParameterSchema` returned its argument. As written, `frontend/src/tools/storage.ts:9` calls an undefined import while the module loads.
- TextTool.Execute: modelled as if `createParameterSchema` returned its argument. As written, `frontend/src/tools/text.ts:9` calls an undefined import while the module loads.
- ToolRegistry.ExecuteToolCall: the call is assumed to carry a `function` object. `frontend/src/utils/tools.ts:113` reads `toolCall.function` outside the `try`, so a call without it rejects with a `TypeError` instead of returning the `工具执行错误: ` text.
- ApiStore.StreamChat: a thrown error is taken after the chunks that arrived before it, and callbacks that throw are not modelled.
- ApiStore.UpdateApiConfig: a property passed explicitly as `undefined` is treated as absent, whereas the object spread would copy `undefined` over the setting.

## Findings

| source | as written | input that shows it | evidently intended | confidence | as-written member | corrected member |
|---|---|---|---|---|---|---|
| backend/app/passthrough_agent.py:185-189 | The response summary calls `len(content)` on `message.get("content", "")`, which is `None` when the upstream answers with tool calls and null content. The `TypeError` is caught and re-raised, so a successful reply becomes an exception. | A 200 response `{"choices":[{"message":{"role":"assistant","content":null}}]}` | `chat` returns the parsed JSON unchanged; the logging never fails | not executed | Passthrough.ChatAsWritten | Passthrough.Chat |
| backend/app/passthrough_agent.py:50-52 | The preview of the last message slices `last_message.get('content', '')[:100]`. It fails for null content, so a conversation ending in an assistant tool-call message is refused before any request is sent. The same line appears at 150-152 in `chat`. | `messages = [{"role":"assistant","content":null}]` with a 200 upstream | the preview treats null content as empty, and streaming proceeds | not executed | Passthrough.StreamChatAsWritten | Passthrough.StreamChat |

=== FILE: agent.dfy ===
/** `ChatAgent` of the backend: the LLM set-up (API key check and Gemini base
    URL rewrite), `get_model_info`, and the two plain steps of the chain built
    by `get_chain`. The LangChain objects themselves are not modelled: the
    set-up yields the parameters that would be handed to `ChatOpenAI`. */
module Agent {
  import opened Wrappers
  import opened Strings
  import opened Json
  import opened Config

  const GeminiHost := "generativelanguage.googleapis.com"

  /** The arguments of the `ChatOpenAI(...)` call. */
  datatype LlmParams = LlmParams(apiKey: string, apiBase: string, modelName: string,
                                 temperature: real, maxTokens: int, streaming: bool)

  /** The base URL handed to the LLM client. */
  function LlmBaseUrl(provider: string, baseUrl: string): (u: string)
    ensures provider == "gemini" && Contains(baseUrl, GeminiHost) ==> u == baseUrl + "/openai"
    ensures provider != "gemini" || !Contains(baseUrl, GeminiHost) ==> u == baseUrl
  {
    if provider == "gemini" && Contains(baseUrl, GeminiHost) then baseUrl + "/openai" else baseUrl
  }

  /** `setup_llm`: an empty key raises `ValueError` naming the provider's key variable. */
  function SetupLlm(c: ModelConfig): (r: Result<LlmParams, string>)
    ensures r.Err? <==> c.apiKey == ""
    ensures r.Err? ==> r.error == "请在.env文件中设置" + AsciiUpper(c.provider) + "_API_KEY"
    ensures r.Ok? ==> r.value.apiKey == c.apiKey && r.value.modelName == c.model
    ensures r.Ok? ==> r.value.apiBase == LlmBaseUrl(c.provider, c.baseUrl)
    ensures r.Ok? ==> r.value.temperature == 0.7 && r.value.maxTokens == 2000 && r.value.streaming
  {
    if c.apiKey == "" then Err("请在.env文件中设置" + AsciiUpper(c.provider) + "_API_KEY")
    else Ok(LlmParams(c.apiKey, LlmBaseUrl(c.provider, c.baseUrl), c.model, 0.7, 2000, true))
  }

  /** The rewrite only ever appends `/openai`, and for a Gemini config it
      does so exactly when the URL names Google's host. */
  lemma BaseUrlRewrite(provider: string, baseUrl: string)
    ensures LlmBaseUrl(provider, baseUrl) == baseUrl || LlmBaseUrl(provider, baseUrl) == baseUrl + "/openai"
    ensures LlmBaseUrl(provider, baseUrl) != baseUrl ==> provider == "gemini"
    ensures provider == "gemini" ==> (LlmBaseUrl(provider, baseUrl) != baseUrl <==> Contains(baseUrl, GeminiHost))
  {
    assert |baseUrl + "/openai"| != |baseUrl|;
  }

  /** The stock Gemini URL names Google's host, so it is extended. */
  lemma StockGeminiUrlRewritten()
    ensures LlmBaseUrl("gemini", DefaultSettings.geminiBaseUrl) == DefaultSettings.geminiBaseUrl + "/openai"
  {
    var u := DefaultSettings.geminiBaseUrl;
    assert |u| == 48;
    forall i | 0 <= i < |GeminiHost| ensures u[8 + i] == GeminiHost[i] { }
    assert u[8..8 + |GeminiHost|] == GeminiHost;
    ContainsAt(u, GeminiHost, 8);
  }

  /** The rewritten URL still names Google's host exactly when the configured
      one does: the rewrite never adds or removes the host. */
  lemma RewriteKeepsHost(provider: string, baseUrl: string)
    ensures Contains(LlmBaseUrl(provider, baseUrl), GeminiHost) <==> Contains(baseUrl, GeminiHost)
  {
    if Contains(baseUrl, GeminiHost) {
      ContainsAppend(baseUrl, "/openai", GeminiHost);
    }
  }

  /** The dict returned by `get_model_info`. */
  datatype ModelInfo = ModelInfo(provider: string, model: string, baseUrl: string, toolsCount: nat, tools: seq<string>)

  /** `get_model_info`: the configured (not the rewritten) base URL and the
      tool names in order. */
  function GetModelInfo(c: ModelConfig, toolNames: seq<string>): (info: ModelInfo)
    ensures info.baseUrl == c.baseUrl && info.provider == c.provider && info.model == c.model
    ensures info.toolsCount == |info.tools| == |toolNames|
    ensures forall i :: 0 <= i < |toolNames| ==> info.tools[i] == toolNames[i]
  {
    ModelInfo(c.provider, c.model, c.baseUrl, |toolNames|, toolNames)
  }

  /** The rewrite stays inside the LLM client: model info still reports the
      configured URL even when the client talks to `…/openai`. */
  lemma ModelInfoKeepsConfiguredUrl(c: ModelConfig, toolNames: seq<string>)
    requires SetupLlm(c).Ok?
    requires c.provider == "gemini" && Contains(c.baseUrl, GeminiHost)
    ensures GetModelInfo(c, toolNames).baseUrl != SetupLlm(c).value.apiBase
  {
    assert |c.baseUrl + "/openai"| > |c.baseUrl|;
  }

  // ---------------------------------------------------------------------------
  // The chain steps around the agent executor

  /** A message kept in the conversation memory. */
  datatype MemoryMessage = Human(text: Json) | Ai(text: Json)

  datatype FormattedInput = FormattedInput(input: Json, chatHistory: seq<MemoryMessage>, agentScratchpad: seq<Json>)

  /** `format_input`: a dict gives its `input` (default `""`); anything else is
      passed through `str()`, which is a parameter. */
  function FormatInput(x: Json, pyStr: Json -> string, history: seq<MemoryMessage>): (f: FormattedInput)
    ensures f.agentScratchpad == [] && f.chatHistory == history
    ensures x.JObj? && HasKey(x.fields, "input") ==> f.input == Lookup(x.fields, "input").value
    ensures x.JObj? && !HasKey(x.fields, "input") ==> f.input == JStr("")
    ensures !x.JObj? ==> f.input == JStr(pyStr(x))
  {
    var userInput := if x.JObj? then Lookup(x.fields, "input").GetOr(JStr("")) else JStr(pyStr(x));
    FormattedInput(userInput, history, [])
  }

  /** `save_to_memory`: the result is returned unchanged; the memory gains a
      user/AI pair only when both `input` and `output` are truthy. */
  function SaveToMemory(result: seq<(string, Json)>, memory: seq<MemoryMessage>): (r: (seq<(string, Json)>, seq<MemoryMessage>))
    ensures r.0 == result
    ensures var i := Lookup(result, "input").GetOr(JStr(""));
            var o := Lookup(result, "output").GetOr(JStr(""));
            && (Truthy(i) && Truthy(o) ==> r.1 == memory + [Human(i), Ai(o)])
            && (!(Truthy(i) && Truthy(o)) ==> r.1 == memory)
  {
    var inputMsg := Lookup(result, "input").GetOr(JStr(""));
    var outputMsg := Lookup(result, "output").GetOr(JStr(""));
    if Truthy(inputMsg) && Truthy(outputMsg) then (result, memory + [Human(inputMsg), Ai(outputMsg)])
    else (result, memory)
  }

  /** Each saved turn adds exactly two messages, so the memory length stays even. */
  lemma SaveToMemoryEven(result: seq<(string, Json)>, memory: seq<MemoryMessage>)
    requires |memory| % 2 == 0
    ensures |SaveToMemory(result, memory).1| % 2 == 0
    ensures |SaveToMemory(result, memory).1| <= |memory| + 2
  {
  }
}

=== FILE: api_store.dfy ===
/** The frontend API store (`frontend/src/stores/api.ts`): the `isConnected` /
    `isThinking` flags, the client settings, and the streaming chat call.
    The OpenAI client is not modelled: the connection probe is its outcome,
    and a chat stream is the list of the first choice's `finish_reason`
    values of its chunks, with the error the stream may throw once those
    are consumed. */
module ApiStore {
  import opened Wrappers
  import opened ToolRegistry
  import ToolManager

  datatype ApiConfig = ApiConfig(baseUrl: string, apiKey: string, model: string)

  datatype State = State(isConnected: bool, isThinking: bool, config: ApiConfig)

  const DefaultConfig := ApiConfig("http://localhost:8000/v1", "dummy-key", "deepseek-chat")

  /** The store as created: not connected, not thinking, default settings. */
  function Initial(): (s: State)
    ensures !s.isConnected && !s.isThinking
    ensures s.config.baseUrl == "http://localhost:8000/v1" && s.config.apiKey == "dummy-key"
    ensures s.config.model == "deepseek-chat"
  {
    State(false, false, DefaultConfig)
  }

  /** `canSendMessage`. */
  predicate CanSendMessage(s: State) {
    s.isConnected && !s.isThinking
  }

  /** `checkConnection`: the flag follows the outcome of the probe request. */
  function CheckConnection(s: State, probeOk: bool): (r: (State, bool))
    ensures r.0.isConnected == probeOk && r.1 == probeOk
    ensures r.0.isThinking == s.isThinking && r.0.config == s.config
  {
    (s.(isConnected := probeOk), probeOk)
  }

  /** `connect`: initialises the tool system, then probes. */
  function Connect(s: State, tools: ToolManager.Manager, probeOk: bool): (r: (State, ToolManager.Manager, bool))
    ensures r.1 == ToolManager.Init(tools)
    ensures r.0.isConnected == probeOk && r.2 == probeOk
    ensures r.0.isThinking == s.isThinking && r.0.config == s.config
  {
    var (s', ok) := CheckConnection(s, probeOk);
    (s', ToolManager.Init(tools), ok)
  }

  /** `disconnect`: both flags cleared, settings kept. */
  function Disconnect(s: State): (r: State)
    ensures !r.isConnected && !r.isThinking && r.config == s.config
  {
    State(false, false, s.config)
  }

  /** A `Partial<ApiConfig>`: `None` for a property that is not given. */
  datatype ConfigPatch = ConfigPatch(baseUrl: Option<string>, apiKey: Option<string>, model: Option<string>)

  /** `updateApiConfig`: `{ ...apiConfig, ...config }`. */
  function UpdateApiConfig(s: State, patch: ConfigPatch): (r: State)
    ensures r.isConnected == s.isConnected && r.isThinking == s.isThinking
    ensures r.config.baseUrl == patch.baseUrl.GetOr(s.config.baseUrl)
    ensures r.config.apiKey == patch.apiKey.GetOr(s.config.apiKey)
    ensures r.config.model == patch.model.GetOr(s.config.model)
  {
    s.(config := ApiConfig(patch.baseUrl.GetOr(s.config.baseUrl),
                           patch.apiKey.GetOr(s.config.apiKey),
                           patch.model.GetOr(s.config.model)))
  }

  /** `getApiConfig`: a copy of the current settings. */
  function GetApiConfig(s: State): ApiConfig {
    s.config
  }

  /** An empty patch changes nothing; applying a patch twice is applying it
      once; a full patch replaces the settings outright. */
  lemma UpdateApiConfigLaws(s: State, patch: ConfigPatch)
    ensures UpdateApiConfig(s, ConfigPatch(None, None, None)) == s
    ensures UpdateApiConfig(UpdateApiConfig(s, patch), patch) == UpdateApiConfig(s, patch)
    ensures patch.baseUrl.Some? && patch.apiKey.Some? && patch.model.Some? ==>
              GetApiConfig(UpdateApiConfig(s, patch)) == ApiConfig(patch.baseUrl.value, patch.apiKey.value, patch.model.value)
  {
  }

  /** A callback invocation, in the order the store makes them. */
  datatype Callback = OnChunk(index: nat) | OnComplete | OnError(message: string)

  /** The finish reasons that end the stream. */
  predicate Finishes(reason: Option<string>) {
    reason == Some("stop") || reason == Some("tool_calls")
  }

  /** The message handed to `onError`. */
  function StreamErrorText(e: Thrown): string {
    match e
    case ErrorObj(m) => m
    case NonError => "流式聊天失败"
  }

  /** `streamChat`. A call while thinking returns at once. Otherwise every
      chunk goes to `onChunk` in order up to and including the first that
      finishes the stream; then the flag is cleared and `onComplete` runs
      once. A stream that ends without such a chunk leaves the flag set and
      calls nothing more; one that throws clears the flag and calls
      `onError` once with the error's message. */
  method StreamChat(s: State, reasons: seq<Option<string>>, failure: Option<Thrown>)
    returns (r: State, calls: seq<Callback>)
    ensures s.isThinking ==> r == s && calls == []
    ensures r.isConnected == s.isConnected && r.config == s.config
    ensures !s.isThinking ==>
              exists n :: 0 <= n <= |reasons|
                && (forall i :: 0 <= i < n ==> !Finishes(reasons[i]))
                && |calls| >= n
                && (forall i :: 0 <= i < n ==> calls[i] == OnChunk(i))
                && (n < |reasons| ==> Finishes(reasons[n]) && calls == calls[..n] + [OnChunk(n), OnComplete] && !r.isThinking)
                && (n == |reasons| && failure.None? ==> |calls| == n && r.isThinking)
                && (n == |reasons| && failure.Some? ==>
                      calls == calls[..n] + [OnError(StreamErrorText(failure.value))] && !r.isThinking)
  {
    if s.isThinking {
      return s, [];
    }
    r := s.(isThinking := true);
    calls := [];
    var i := 0;
    while i < |reasons|
      invariant 0 <= i <= |reasons|
      invariant |calls| == i
      invariant forall j :: 0 <= j < i ==> calls[j] == OnChunk(j) && !Finishes(reasons[j])
      invariant r == s.(isThinking := true)
    {
      calls := calls + [OnChunk(i)];
      if Finishes(reasons[i]) {
        r := r.(isThinking := false);
        calls := calls + [OnComplete];
        assert calls[..i] + [OnChunk(i), OnComplete] == calls;
        return;
      }
      i := i + 1;
    }
    if failure.Some? {
      r := r.(isThinking := false);
      calls := calls + [OnError(StreamErrorText(failure.value))];
      assert calls == calls[..i] + [OnError(StreamErrorText(failure.value))];
    }
  }

  /** While a chat is streaming no message can be sent; after `disconnect`
      none can be sent until the store connects again. */
  lemma SendGate(s: State, probeOk: bool)
    ensures s.isThinking ==> !CanSendMessage(s)
    ensures !CanSendMessage(Disconnect(s))
    ensures !s.isThinking ==> (CanSendMessage(CheckConnection(s, probeOk).0) <==> probeOk)
  {
  }
}

=== FILE: app_models.dfy ===
/** The Pydantic models of the LangChain gateway (`app/models.py`): roles,
    messages, tool declarations, the chat request with its defaults, and the
    identifiers and `object` literals of responses and stream chunks. */
module AppModels {
  import opened Wrappers
  import opened Strings
  import opened Json

  datatype Role = User | Assistant | System | FunctionRole | ToolRole

  /** The string value of each `Role` member. */
  function RoleValue(r: Role): string {
    match r
    case User => "user"
    case Assistant => "assistant"
    case System => "system"
    case FunctionRole => "function"
    case ToolRole => "tool"
  }

  const RoleValues: seq<string> := ["user", "assistant", "system", "function", "tool"]

  /** `Role(s)`: validation of a role string; anything else is rejected. */
  function ParseRole(s: string): (r: Option<Role>)
    ensures r.Some? ==> RoleValue(r.value) == s
    ensures r.None? <==> s !in RoleValues
  {
    if s == "user" then Some(User)
    else if s == "assistant" then Some(Assistant)
    else if s == "system" then Some(System)
    else if s == "function" then Some(FunctionRole)
    else if s == "tool" then Some(ToolRole)
    else None
  }

  /** Every role survives the trip to its string and back, and the five
      values are exactly the listed strings, each used once. */
  lemma RoleRoundTrip(r: Role)
    ensures ParseRole(RoleValue(r)) == Some(r)
    ensures RoleValue(r) in RoleValues
  {
  }

  lemma RoleValueInjective(a: Role, b: Role)
    ensures RoleValue(a) == RoleValue(b) <==> a == b
  {
    RoleRoundTrip(a);
    RoleRoundTrip(b);
  }

  /** `ToolType` has the single member `function`. */
  datatype ToolType = FunctionType

  function ToolTypeValue(t: ToolType): string {
    "function"
  }

  datatype FunctionDefinition = FunctionDefinition(name: string, description: Option<string>, parameters: Option<Json>)

  datatype Tool = Tool(typ: ToolType, fn: FunctionDefinition)

  datatype ToolCall = ToolCall(id: string, typ: ToolType, fn: seq<(string, Json)>)

  datatype Message = Message(role: Role, content: Option<string>, name: Option<string>,
                             toolCalls: Option<seq<ToolCall>>, toolCallId: Option<string>)

  /** `Tool(function=...)` with `type` left out. */
  function NewTool(fn: FunctionDefinition): (t: Tool)
    ensures ToolTypeValue(t.typ) == "function" && t.fn == fn
  {
    Tool(FunctionType, fn)
  }

  /** `ToolCall(id=..., function=...)` with `type` left out. */
  function NewToolCall(id: string, fn: seq<(string, Json)>): (c: ToolCall)
    ensures ToolTypeValue(c.typ) == "function" && c.id == id && c.fn == fn
  {
    ToolCall(id, FunctionType, fn)
  }

  /** `Message(role=...)`: every optional field is `None`. */
  function NewMessage(role: Role, content: Option<string>): (m: Message)
    ensures m.role == role && m.content == content
    ensures m.name.None? && m.toolCalls.None? && m.toolCallId.None?
  {
    Message(role, content, None, None, None)
  }

  datatype Stop = StopWord(word: string) | StopWords(words: seq<string>)

  datatype ChatCompletionRequest = ChatCompletionRequest(
    model: string,
    messages: seq<Message>,
    maxTokens: Option<int>,
    temperature: Option<real>,
    topP: Option<real>,
    n: Option<int>,
    stream: Option<bool>,
    stop: Option<Stop>,
    presencePenalty: Option<real>,
    frequencyPenalty: Option<real>,
    logitBias: Option<seq<(string, int)>>,
    user: Option<string>,
    tools: Option<seq<Tool>>,
    toolChoice: Option<Json>)

  /** A request that names only the two required fields; every other field
      takes its declared default. */
  function NewRequest(model: string, messages: seq<Message>): (r: ChatCompletionRequest)
    ensures r.model == model && r.messages == messages
    ensures r.temperature == Some(0.7) && r.topP == Some(1.0) && r.n == Some(1)
    ensures r.stream == Some(false)
    ensures r.presencePenalty == Some(0.0) && r.frequencyPenalty == Some(0.0)
    ensures r.maxTokens.None? && r.stop.None? && r.logitBias.None? && r.user.None?
    ensures r.tools.None? && r.toolChoice.None?
  {
    ChatCompletionRequest(model, messages, None, Some(0.7), Some(1.0), Some(1), Some(false),
                          None, Some(0.0), Some(0.0), None, None, None, None)
  }

  /** Pydantic's truth value of `request.stream`: `None` and `False` both mean buffered. */
  predicate Streaming(r: ChatCompletionRequest) {
    r.stream == Some(true)
  }

  /** `request.tools` used as a condition: absent or empty is false. */
  predicate HasTools(r: ChatCompletionRequest) {
    r.tools.Some? && |r.tools.value| > 0
  }

  /** A request built from defaults is buffered and declares no tools. */
  lemma DefaultRequestIsPlain(model: string, messages: seq<Message>)
    ensures !Streaming(NewRequest(model, messages))
    ensures !HasTools(NewRequest(model, messages))
  {
  }

  const CompletionObject := "chat.completion"
  const ChunkObject := "chat.completion.chunk"

  predicate IsUuidHex(hex: string) {
    |hex| == 32 && forall i :: 0 <= i < |hex| ==> IsLowerHex(hex[i])
  }

  /** The default `id` of responses and chunks: `"chatcmpl-"` followed by the
      first 29 characters of a fresh `uuid4().hex`. */
  function DefaultId(hex: string): (id: string)
    requires IsUuidHex(hex)
    ensures |id| == 38 && StartsWith(id, "chatcmpl-")
    ensures forall i :: 9 <= i < |id| ==> IsLowerHex(id[i])
  {
    "chatcmpl-" + hex[..29]
  }

  /** Two ids agree exactly when the hex strings agree on their first 29
      characters: the last three hex digits of the uuid are thrown away. */
  lemma DefaultIdInjective(h1: string, h2: string)
    requires IsUuidHex(h1) && IsUuidHex(h2)
    ensures DefaultId(h1) == DefaultId(h2) <==> h1[..29] == h2[..29]
  {
    if DefaultId(h1) == DefaultId(h2) {
      assert h1[..29] == DefaultId(h1)[9..];
      assert h2[..29] == DefaultId(h2)[9..];
    }
  }

  /** The id keeps the uuid's leading hex digits, which can be read back. */
  lemma DefaultIdSuffix(hex: string)
    requires IsUuidHex(hex)
    ensures DefaultId(hex)[9..] == hex[..29]
  {
  }

  datatype Usage = Usage(promptTokens: int, completionTokens: int, totalTokens: int)

  datatype Choice = Choice(index: int, message: Message, finishReason: Option<string>)

  datatype ChatCompletionResponse = ChatCompletionResponse(
    id: string, obj: string, created: int, model: string, choices: seq<Choice>, usage: Usage)

  datatype Delta = Delta(role: Option<Role>, content: Option<string>, toolCalls: Option<seq<ToolCall>>)

  datatype StreamChoice = StreamChoice(index: int, delta: Delta, finishReason: Option<string>)

  datatype ChatCompletionStreamResponse = ChatCompletionStreamResponse(
    id: string, obj: string, created: int, model: string, choices: seq<StreamChoice>)

  /** `ChatCompletionResponse(model=..., choices=..., usage=...)`: the id comes
      from a fresh uuid and the creation time from the clock, both given. */
  function NewResponse(hex: string, now: int, model: string, choices: seq<Choice>, usage: Usage): (r: ChatCompletionResponse)
    requires IsUuidHex(hex)
    ensures r.obj == "chat.completion" && r.created == now
    ensures |r.id| == 38 && StartsWith(r.id, "chatcmpl-")
    ensures r.model == model && r.choices == choices && r.usage == usage
  {
    ChatCompletionResponse(DefaultId(hex), CompletionObject, now, model, choices, usage)
  }

  /** `ChatCompletionStreamResponse(model=..., choices=...)`. */
  function NewStreamResponse(hex: string, now: int, model: string, choices: seq<StreamChoice>): (r: ChatCompletionStreamResponse)
    requires IsUuidHex(hex)
    ensures r.obj == "chat.completion.chunk" && r.created == now
    ensures |r.id| == 38 && StartsWith(r.id, "chatcmpl-")
    ensures r.model == model && r.choices == choices
  {
    ChatCompletionStreamResponse(DefaultId(hex), ChunkObject, now, model, choices)
  }
}

=== FILE: app_server.dfy ===
/** The FastAPI facade of the LangChain gateway (`app/server.py`): the
    status and detail each handler turns its outcome into. Routing,
    serialisation and the response objects of FastAPI are not modelled;
    a handler's result is either its reply or the exception it raises. */
module AppServer {
  import opened Wrappers
  import opened Json
  import opened AppModels
  import opened AppTools
  import opened Chains

  /** An exception leaving a handler: FastAPI's `HTTPException`, or any other. */
  datatype Exc = HttpExc(status: int, detail: Json) | OtherExc(message: string)

  datatype Reply = StreamReply(events: seq<Yield>) | JsonReply(body: Json)

  /** The tail `except HTTPException: raise` / `except Exception as e:` that
      both handlers share: an `HTTPException` leaves unchanged, anything else
      becomes a 500 whose detail is the prefix and `str(e)`. */
  function Reraise(e: Exc, prefix: string): (r: Exc)
    ensures e.HttpExc? ==> r == e
    ensures e.OtherExc? ==> r == HttpExc(500, JStr(prefix + e.message))
    ensures r.HttpExc?
  {
    match e
    case HttpExc(_, _) => e
    case OtherExc(m) => HttpExc(500, JStr(prefix + m))
  }

  /** `response["error"]["message"]`; `indexError` is the text of the
      exception Python raises when the `error` value is not a dict. */
  function ErrorDetail(err: Json, indexError: Json -> string): Result<Json, Exc> {
    if !err.JObj? then Err(OtherExc(indexError(err)))
    else match Lookup(err.fields, "message")
      case Some(m) => Ok(m)
      case None => Err(OtherExc("'message'"))
  }

  /** The body of the `try` in `chat_completions`, before the `except` clauses. */
  function ChatCompletionsBody(enableTools: bool, tools: seq<ServerTool>, request: ChatCompletionRequest,
                               agent: ChainInput -> Result<Json, string>, llm: ChainInput -> LlmStream,
                               invoke: ChainInput -> Result<string, string>,
                               ids: nat -> string, clock: nat -> int, hex: string, now: int,
                               indexError: Json -> string): Result<Reply, Exc>
    requires IsUuidHex(hex)
  {
    if request.messages == [] then Err(HttpExc(400, JStr("Messages are required")))
    else if Streaming(request) then Ok(StreamReply(ProcessRequest(enableTools, tools, request, agent, llm, ids, clock)))
    else
      var response := ProcessNonStreaming(enableTools, tools, request, agent, invoke, hex, now);
      if response.JObj? && HasKey(response.fields, "error") then
        match ErrorDetail(Lookup(response.fields, "error").value, indexError)
        case Ok(detail) => Err(HttpExc(500, detail))
        case Err(e) => Err(e)
      else Ok(JsonReply(response))
  }

  /** `chat_completions`. */
  function ChatCompletions(enableTools: bool, tools: seq<ServerTool>, request: ChatCompletionRequest,
                           agent: ChainInput -> Result<Json, string>, llm: ChainInput -> LlmStream,
                           invoke: ChainInput -> Result<string, string>,
                           ids: nat -> string, clock: nat -> int, hex: string, now: int,
                           indexError: Json -> string): (r: Result<Reply, Exc>)
    requires IsUuidHex(hex)
    ensures r.Err? ==> r.error.HttpExc?
  {
    match ChatCompletionsBody(enableTools, tools, request, agent, llm, invoke, ids, clock, hex, now, indexError)
    case Ok(reply) => Ok(reply)
    case Err(e) => Err(Reraise(e, "Internal server error: "))
  }

  /** The outcomes of `chat_completions`: an empty conversation is a 400
      whatever else the request says; a streaming request gets the event
      sequence of `process_request` unchanged; a buffered request gets the
      completion dict, or a 500 whose detail is the `processing_error`
      message. */
  lemma ChatCompletionsOutcomes(enableTools: bool, tools: seq<ServerTool>, request: ChatCompletionRequest,
                                agent: ChainInput -> Result<Json, string>, llm: ChainInput -> LlmStream,
                                invoke: ChainInput -> Result<string, string>,
                                ids: nat -> string, clock: nat -> int, hex: string, now: int,
                                indexError: Json -> string)
    requires IsUuidHex(hex)
    ensures var r := ChatCompletions(enableTools, tools, request, agent, llm, invoke, ids, clock, hex, now, indexError);
            var c := NonStreamingContent(enableTools, tools, request, agent, invoke);
            && (request.messages == [] ==> r == Err(HttpExc(400, JStr("Messages are required"))))
            && (request.messages != [] && Streaming(request) ==>
                  r == Ok(StreamReply(ProcessRequest(enableTools, tools, request, agent, llm, ids, clock))))
            && (request.messages != [] && !Streaming(request) && c.Err? ==>
                  r == Err(HttpExc(500, JStr(ProcessingErrorPrefix + c.error))))
            && (request.messages != [] && !Streaming(request) && c.Ok? ==>
                  r == Ok(JsonReply(ProcessNonStreaming(enableTools, tools, request, agent, invoke, hex, now))))
  {
    if request.messages != [] && !Streaming(request) {
      NonStreamingError(enableTools, tools, request, agent, invoke, hex, now);
      var c := NonStreamingContent(enableTools, tools, request, agent, invoke);
      if c.Err? {
        var m := ProcessingErrorPrefix + c.error;
        var inner := [("message", JStr(m)), ("type", JStr("processing_error"))];
        assert Lookup(ErrorJson(m, "processing_error").fields, "error") == Some(JObj(inner));
        assert Lookup(inner, "message") == Some(JStr(m));
      }
    }
  }

  /** A request built from defaults with at least one message is answered
      in buffered form. */
  lemma DefaultRequestIsBuffered(enableTools: bool, tools: seq<ServerTool>, model: string, messages: seq<Message>,
                                 agent: ChainInput -> Result<Json, string>, llm: ChainInput -> LlmStream,
                                 invoke: ChainInput -> Result<string, string>,
                                 ids: nat -> string, clock: nat -> int, hex: string, now: int,
                                 indexError: Json -> string)
    requires IsUuidHex(hex) && messages != []
    ensures !ChatCompletions(enableTools, tools, NewRequest(model, messages), agent, llm, invoke, ids, clock, hex, now, indexError).Ok?
         || ChatCompletions(enableTools, tools, NewRequest(model, messages), agent, llm, invoke, ids, clock, hex, now, indexError).value.JsonReply?
  {
  }

  /** The dict `execute_tool` answers with. */
  function ToolReply(toolName: Json, arguments: Json, result: string, now: int): Json {
    JObj([("tool_name", toolName), ("arguments", arguments), ("result", JStr(result)), ("timestamp", JInt(now))])
  }

  /** `execute_tool`: `tool_name` is required (any falsy value is missing),
      `arguments` defaults to `""`. */
  function ExecuteToolEndpoint(tools: seq<ServerTool>, request: seq<(string, Json)>,
                               parse: string -> Option<Json>, pyStr: Json -> string,
                               arun: (ServerTool, Json) -> Result<string, string>, now: int): (r: Result<Json, Exc>)
    ensures !Truthy(Lookup(request, "tool_name").GetOr(JNull)) ==> r == Err(HttpExc(400, JStr("tool_name is required")))
    ensures r.Err? ==> r.error.HttpExc? && r.error.status in {400, 500}
    ensures var toolName := Lookup(request, "tool_name").GetOr(JNull);
            var arguments := Lookup(request, "arguments").GetOr(JStr(""));
            var result := AExecuteTool(tools, toolName, arguments, parse, pyStr, arun);
            Truthy(toolName) ==>
              && (result.Err? ==> r == Err(HttpExc(500, JStr("Tool execution failed: " + result.error))))
              && (result.Ok? ==> r == Ok(ToolReply(toolName, arguments, result.value, now)))
  {
    var toolName := Lookup(request, "tool_name").GetOr(JNull);
    var arguments := Lookup(request, "arguments").GetOr(JStr(""));
    var body: Result<Json, Exc> :=
      if !Truthy(toolName) then Err(HttpExc(400, JStr("tool_name is required")))
      else match AExecuteTool(tools, toolName, arguments, parse, pyStr, arun)
        case Err(e) => Err(OtherExc(e))
        case Ok(result) => Ok(ToolReply(toolName, arguments, result, now));
    match body
    case Ok(reply) => Ok(reply)
    case Err(e) => Err(Reraise(e, "Tool execution failed: "))
  }

  /** A successful call echoes the name and the arguments beside the result. */
  lemma ExecuteToolEchoes(tools: seq<ServerTool>, request: seq<(string, Json)>,
                          parse: string -> Option<Json>, pyStr: Json -> string,
                          arun: (ServerTool, Json) -> Result<string, string>, now: int)
    requires ExecuteToolEndpoint(tools, request, parse, pyStr, arun, now).Ok?
    ensures var r := ExecuteToolEndpoint(tools, request, parse, pyStr, arun, now).value;
            && r.JObj?
            && Lookup(r.fields, "tool_name") == Lookup(request, "tool_name")
            && Lookup(r.fields, "arguments") == Some(Lookup(request, "arguments").GetOr(JStr("")))
            && Lookup(r.fields, "result").Some? && Lookup(r.fields, "result").value.JStr?
  {
    var toolName := Lookup(request, "tool_name").GetOr(JNull);
    var arguments := Lookup(request, "arguments").GetOr(JStr(""));
    var result := AExecuteTool(tools, toolName, arguments, parse, pyStr, arun).value;
    var f := ToolReply(toolName, arguments, result, now).fields;
    LookupCons("tool_name", toolName, f[1..], "arguments");
    LookupCons("tool_name", toolName, f[1..], "result");
    LookupCons("arguments", arguments, f[2..], "result");
  }

  /** An unknown tool is not an HTTP error: the reply carries the
      not-found message. A list or dict name escapes the lookup and ends
      as a 500. */
  lemma ExecuteToolNotFound(tools: seq<ServerTool>, request: seq<(string, Json)>,
                            parse: string -> Option<Json>, pyStr: Json -> string,
                            arun: (ServerTool, Json) -> Result<string, string>, now: int, name: string)
    requires Lookup(request, "tool_name") == Some(JStr(name)) && name != ""
    requires forall i :: 0 <= i < |tools| ==> tools[i].name != name
    ensures ExecuteToolEndpoint(tools, request, parse, pyStr, arun, now)
         == Ok(ToolReply(JStr(name), Lookup(request, "arguments").GetOr(JStr("")), NotFoundText(name), now))
  {
  }

  lemma ExecuteToolUnhashable(tools: seq<ServerTool>, request: seq<(string, Json)>,
                              parse: string -> Option<Json>, pyStr: Json -> string,
                              arun: (ServerTool, Json) -> Result<string, string>, now: int, items: seq<Json>)
    requires Lookup(request, "tool_name") == Some(JArr(items)) && items != []
    ensures ExecuteToolEndpoint(tools, request, parse, pyStr, arun, now)
         == Err(HttpExc(500, JStr("Tool execution failed: " + ("unhashable type: '" + TypeName(JArr(items)) + "'"))))
  {
  }

  /** `global_exception_handler`: status 500 and the `internal_error` envelope. */
  function GlobalExceptionHandler(message: string): (r: (int, Json))
    ensures r.0 == 500
  {
    (500, ErrorJson("Internal server error: " + message, "internal_error"))
  }

  /** The envelope has the same shape as the gateway's own error objects,
      and reads back as the message and the type `internal_error`. */
  lemma GlobalEnvelope(message: string)
    ensures var body := GlobalExceptionHandler(message).1;
            && body.JObj? && |body.fields| == 1 && body.fields[0].0 == "error"
            && Lookup(body.fields, "error") == Some(JObj([("message", JStr("Internal server error: " + message)),
                                                          ("type", JStr("internal_error"))]))
  {
  }
}

=== FILE: app_tools.dfy ===
/** The server-side tool manager of the LangChain gateway (`app/tools.py`):
    the four registered tools, their schemas, the argument handling shared by
    `execute_tool` and `aexecute_tool`, and the calculator's input guard.
    Running a tool, `eval`, `json.loads` and Python's `str()` of a value are
    parameters. */
module AppTools {
  import opened Wrappers
  import opened Strings
  import opened Json

  datatype ServerTool = ServerTool(name: string, description: string)

  /** The `ToolManager.tools` dict in insertion order; each key equals the tool's `name`. */
  const DefaultTools: seq<ServerTool> := [
    ServerTool("calculator", "用于执行数学计算的工具。输入应该是有效的数学表达式。"),
    ServerTool("current_time", "获取当前的日期和时间"),
    ServerTool("weather", "查询指定城市的天气信息。输入应该是城市名称。"),
    ServerTool("web_search", "在互联网上搜索信息。输入应该是搜索关键词。")
  ]

  /** `self.tools.get(name)`. */
  function FindTool(tools: seq<ServerTool>, name: string): (r: Option<ServerTool>)
    ensures r.Some? ==> r.value in tools && r.value.name == name
    ensures r.None? <==> forall i :: 0 <= i < |tools| ==> tools[i].name != name
  {
    if tools == [] then None
    else if tools[0].name == name then Some(tools[0])
    else
      var r := FindTool(tools[1..], name);
      assert r.None? ==> forall i :: 1 <= i < |tools| ==> tools[i].name == tools[1..][i - 1].name;
      r
  }

  // ---------------------------------------------------------------------------
  // Schemas

  const QueryParameters: Json := JObj([
    ("type", JStr("object")),
    ("properties", JObj([("query", JObj([("type", JStr("string")), ("description", JStr("工具的输入参数"))]))])),
    ("required", JArr([JStr("query")]))
  ])

  function ToolSchema(t: ServerTool): Json {
    JObj([("type", JStr("function")),
          ("function", JObj([("name", JStr(t.name)), ("description", JStr(t.description)),
                             ("parameters", QueryParameters)]))])
  }

  /** `get_tool_schemas`: one schema per tool, in registration order. */
  function GetToolSchemas(tools: seq<ServerTool>): (schemas: seq<Json>)
    ensures |schemas| == |tools|
    ensures forall i :: 0 <= i < |tools| ==> schemas[i] == ToolSchema(tools[i])
  {
    if tools == [] then [] else [ToolSchema(tools[0])] + GetToolSchemas(tools[1..])
  }

  /** `schema["function"]`, read back from a schema dict. */
  function SchemaFunction(schema: Json): Option<seq<(string, Json)>> {
    if !schema.JObj? then None
    else match Lookup(schema.fields, "function")
      case Some(JObj(f)) => Some(f)
      case _ => None
  }

  /** Reading a schema back gives the tool's name and description, type
      `function`, and parameters that require only the string `query`. */
  lemma SchemaReadBack(t: ServerTool)
    ensures var s := ToolSchema(t);
            && Lookup(s.fields, "type") == Some(JStr("function"))
            && SchemaFunction(s).Some?
            && Lookup(SchemaFunction(s).value, "name") == Some(JStr(t.name))
            && Lookup(SchemaFunction(s).value, "description") == Some(JStr(t.description))
            && Lookup(SchemaFunction(s).value, "parameters") == Some(QueryParameters)
  {
    var f := [("name", JStr(t.name)), ("description", JStr(t.description)), ("parameters", QueryParameters)];
    var top := [("type", JStr("function")), ("function", JObj(f))];
    assert ToolSchema(t) == JObj(top);
    assert Lookup(top, "function") == Lookup(top[1..], "function");
    assert Lookup(top, "function") == Some(JObj(f));
    assert Lookup(f, "description") == Lookup(f[1..], "description");
    assert Lookup(f, "parameters") == Lookup(f[1..], "parameters");
    assert Lookup(f[1..], "parameters") == Lookup(f[2..], "parameters");
  }

  /** The parameters require the single property `query`, a string. */
  lemma QueryParametersReadBack()
    ensures Lookup(QueryParameters.fields, "required") == Some(JArr([JStr("query")]))
    ensures Lookup(QueryParameters.fields, "type") == Some(JStr("object"))
  {
    var p := QueryParameters.fields;
    assert Lookup(p, "required") == Lookup(p[1..], "required");
    assert Lookup(p[1..], "required") == Lookup(p[2..], "required");
  }

  /** The default registry yields four schemas, named in registration order. */
  lemma DefaultSchemas()
    ensures |GetToolSchemas(DefaultTools)| == 4
    ensures forall i :: 0 <= i < 4 ==>
              SchemaFunction(GetToolSchemas(DefaultTools)[i]).Some? &&
              Lookup(SchemaFunction(GetToolSchemas(DefaultTools)[i]).value, "name")
                == Some(JStr(["calculator", "current_time", "weather", "web_search"][i]))
  {
    forall i | 0 <= i < 4
      ensures SchemaFunction(GetToolSchemas(DefaultTools)[i]).Some? &&
              Lookup(SchemaFunction(GetToolSchemas(DefaultTools)[i]).value, "name")
                == Some(JStr(["calculator", "current_time", "weather", "web_search"][i]))
    {
      SchemaReadBack(DefaultTools[i]);
    }
  }

  // ---------------------------------------------------------------------------
  // Executing a tool by name

  /** Python's `str(x)`: a string is itself, anything else goes through `pyStr`. */
  function PyStr(x: Json, pyStr: Json -> string): string {
    if x.JStr? then x.s else pyStr(x)
  }

  /** The argument handling inside the `try` of `execute_tool`: a string is
      parsed as JSON (`parse` returns `None` on `JSONDecodeError`, and a dict
      with each key once); a parsed dict gives its `query` field or the raw
      string; any other parsed value has no `.get`, which raises. A non-string
      argument becomes `str(arguments)`. */
  function ExtractQuery(arguments: Json, parse: string -> Option<Json>, pyStr: Json -> string): (q: Result<Json, string>)
    ensures !arguments.JStr? ==> q == Ok(JStr(pyStr(arguments)))
    ensures arguments.JStr? && parse(arguments.s).None? ==> q == Ok(arguments)
    ensures arguments.JStr? && parse(arguments.s).Some? && parse(arguments.s).value.JObj? ==>
              q == Ok(Lookup(parse(arguments.s).value.fields, "query").GetOr(arguments))
    ensures arguments.JStr? && parse(arguments.s).Some? && !parse(arguments.s).value.JObj? ==>
              q == Err(NoAttribute(parse(arguments.s).value, "get"))
  {
    match arguments
    case JStr(raw) =>
      (match parse(raw)
       case None => Ok(arguments)
       case Some(args) =>
         if args.JObj? then Ok(Lookup(args.fields, "query").GetOr(arguments))
         else Err(NoAttribute(args, "get")))
    case _ => Ok(JStr(pyStr(arguments)))
  }

  const ExecErrorPrefix := "工具执行错误: "

  function NotFoundText(name: string): string {
    "工具 '" + name + "' 不存在"
  }

  /** `execute_tool(tool_name, arguments)`. The lookup `self.tools.get(name)`
      happens outside the `try`: a list or dict name is unhashable and the
      `TypeError` escapes (`Err`); every other failure becomes a message.
      `run` is `tool.run(query)`, with `Err` for an exception. */
  function ExecuteTool(tools: seq<ServerTool>, toolName: Json, arguments: Json,
                       parse: string -> Option<Json>, pyStr: Json -> string,
                       run: (ServerTool, Json) -> Result<string, string>): (r: Result<string, string>)
    ensures r.Err? <==> toolName.JArr? || toolName.JObj?
    ensures r.Err? ==> r.error == "unhashable type: '" + TypeName(toolName) + "'"
    ensures (toolName.JNull? || toolName.JBool? || toolName.JInt? || toolName.JFloat?) ==>
              r == Ok(NotFoundText(PyStr(toolName, pyStr)))
  {
    if toolName.JArr? || toolName.JObj? then Err("unhashable type: '" + TypeName(toolName) + "'")
    else
      var tool := if toolName.JStr? then FindTool(tools, toolName.s) else None;
      if tool.None? then Ok(NotFoundText(PyStr(toolName, pyStr)))
      else
        match ExtractQuery(arguments, parse, pyStr)
        case Err(e) => Ok(ExecErrorPrefix + e)
        case Ok(query) =>
          (match run(tool.value, query)
           case Ok(result) => Ok(result)
           case Err(e) => Ok(ExecErrorPrefix + e))
  }

  /** `aexecute_tool`: the same steps written out a second time, awaiting
      `tool.arun(query)` instead. */
  function AExecuteTool(tools: seq<ServerTool>, toolName: Json, arguments: Json,
                        parse: string -> Option<Json>, pyStr: Json -> string,
                        arun: (ServerTool, Json) -> Result<string, string>): (r: Result<string, string>)
    ensures r.Err? <==> toolName.JArr? || toolName.JObj?
    ensures (toolName.JNull? || toolName.JBool? || toolName.JInt? || toolName.JFloat?) ==>
              r == Ok(NotFoundText(PyStr(toolName, pyStr)))
  {
    if toolName.JArr? || toolName.JObj? then Err("unhashable type: '" + TypeName(toolName) + "'")
    else
      match (if toolName.JStr? then FindTool(tools, toolName.s) else None)
      case None => Ok(NotFoundText(PyStr(toolName, pyStr)))
      case Some(tool) =>
        var query := ExtractQuery(arguments, parse, pyStr);
        if query.Err? then Ok(ExecErrorPrefix + query.error)
        else
          var result := arun(tool, query.value);
          if result.Ok? then Ok(result.value) else Ok(ExecErrorPrefix + result.error)
  }

  /** The synchronous and asynchronous paths agree whenever the tool's two
      entry points do. */
  lemma SyncAsyncAgree(tools: seq<ServerTool>, toolName: Json, arguments: Json,
                       parse: string -> Option<Json>, pyStr: Json -> string,
                       run: (ServerTool, Json) -> Result<string, string>)
    ensures AExecuteTool(tools, toolName, arguments, parse, pyStr, run)
         == ExecuteTool(tools, toolName, arguments, parse, pyStr, run)
  {
  }

  /** An unknown name is reported without running anything: the result does
      not depend on the tools' behaviour. */
  lemma UnknownToolNotRun(tools: seq<ServerTool>, name: string, arguments: Json,
                          parse: string -> Option<Json>, pyStr: Json -> string,
                          run1: (ServerTool, Json) -> Result<string, string>,
                          run2: (ServerTool, Json) -> Result<string, string>)
    requires forall i :: 0 <= i < |tools| ==> tools[i].name != name
    ensures ExecuteTool(tools, JStr(name), arguments, parse, pyStr, run1) == Ok(NotFoundText(name))
    ensures ExecuteTool(tools, JStr(name), arguments, parse, pyStr, run1)
         == ExecuteTool(tools, JStr(name), arguments, parse, pyStr, run2)
  {
  }

  /** A known tool never lets an exception out: every outcome is a string. */
  lemma KnownToolNeverRaises(tools: seq<ServerTool>, name: string, arguments: Json,
                             parse: string -> Option<Json>, pyStr: Json -> string,
                             run: (ServerTool, Json) -> Result<string, string>)
    requires exists i :: 0 <= i < |tools| && tools[i].name == name
    ensures ExecuteTool(tools, JStr(name), arguments, parse, pyStr, run).Ok?
    ensures var tool := FindTool(tools, name).value;
            var q := ExtractQuery(arguments, parse, pyStr);
            && (q.Ok? && run(tool, q.value).Ok? ==>
                  ExecuteTool(tools, JStr(name), arguments, parse, pyStr, run) == run(tool, q.value))
            && (q.Ok? && run(tool, q.value).Err? ==>
                  ExecuteTool(tools, JStr(name), arguments, parse, pyStr, run).value == ExecErrorPrefix + run(tool, q.value).error)
  {
  }

  /** A JSON argument string that parses to something other than an object
      (a number, a list) ends in the execution-error message, and the tool is
      not run. */
  lemma NonObjectArgumentsFail(tools: seq<ServerTool>, name: string, raw: string,
                               parse: string -> Option<Json>, pyStr: Json -> string,
                               run: (ServerTool, Json) -> Result<string, string>)
    requires exists i :: 0 <= i < |tools| && tools[i].name == name
    requires parse(raw).Some? && !parse(raw).value.JObj?
    ensures ExecuteTool(tools, JStr(name), JStr(raw), parse, pyStr, run)
         == Ok(ExecErrorPrefix + NoAttribute(parse(raw).value, "get"))
  {
  }

  // ---------------------------------------------------------------------------
  // The calculator's guard

  const UnsafeWords: seq<string> := ["import", "exec", "eval", "__", "open", "file"]
  const UnsafeText := "错误：包含不安全的操作"
  const DisallowedText := "错误：包含不允许的字符"

  predicate AllowedChar(c: char) {
    c in "0123456789+-*/.() "
  }

  predicate HasUnsafeWord(query: string) {
    exists k :: 0 <= k < |UnsafeWords| && Contains(PyLower(query), UnsafeWords[k])
  }

  predicate AllAllowed(query: string) {
    forall i :: 0 <= i < |query| ==> AllowedChar(query[i])
  }

  /** What `str(eval(query))` or its exception turns into. */
  function EvalText(v: Result<string, string>): string {
    if v.Ok? then v.value else "计算错误: " + v.error
  }

  /** `CalculatorTool._run`: the unsafe-word test (on the lower-cased query)
      comes first, then the character whitelist, then `eval`. */
  function Calculate(query: string, eval: string -> Result<string, string>): (out: string)
    ensures HasUnsafeWord(query) ==> out == UnsafeText
    ensures !HasUnsafeWord(query) && !AllAllowed(query) ==> out == DisallowedText
  {
    if HasUnsafeWord(query) then UnsafeText
    else if !AllAllowed(query) then DisallowedText
    else EvalText(eval(query))
  }

  /** The guard lets a query through to `eval` exactly when every character
      is whitelisted: no unsafe word can be spelt with those characters. */
  lemma CalculatorGate(query: string, eval: string -> Result<string, string>)
    ensures AllAllowed(query) ==> Calculate(query, eval) == EvalText(eval(query))
    ensures !AllAllowed(query) ==> Calculate(query, eval) in {UnsafeText, DisallowedText}
  {
    if AllAllowed(query) {
      assert PyLower(query) == query;
      forall k | 0 <= k < |UnsafeWords|
        ensures !Contains(query, UnsafeWords[k])
      {
        ContainsNeedsFirst(query, UnsafeWords[k]);
      }
    }
  }

  /** The unsafe-word test ignores case: a query holding any spelling of an
      unsafe word that lower-cases to it (`EXEC`, `Import`, ...) is refused,
      whatever the whitelist would say. */
  lemma UnsafeWordFirst(query: string, spelling: string, k: nat, eval: string -> Result<string, string>)
    requires k < |UnsafeWords| && PyLower(spelling) == UnsafeWords[k] && Contains(query, spelling)
    ensures Calculate(query, eval) == UnsafeText
  {
    ContainsLower(query, spelling);
  }
}

=== FILE: chains.dfy ===
/** The LangChain agent chain of the gateway (`app/chains.py`): message
    conversion, the tool list shown to the model, the choice between the tool
    route and the direct route, the events each route yields, and the buffered
    response. The agent executor and the LLM chain are parameters that receive
    the converted messages and the tool text; chunk ids and timestamps are
    parameters indexed by the position of the event in the stream. */
module Chains {
  import opened Wrappers
  import opened Strings
  import opened Json
  import opened AppModels
  import opened AppTools

  // ---------------------------------------------------------------------------
  // Message conversion

  datatype LcMessage = SystemMessage(content: string) | HumanMessage(content: string) | AiMessage(content: string)

  /** The roles `_convert_messages` has a branch for; function and tool
      messages have none. */
  predicate Converted(m: Message) {
    m.role == System || m.role == User || m.role == Assistant
  }

  /** Reference definition: the messages that take part, in their order. */
  function Kept(msgs: seq<Message>): (r: seq<Message>)
    ensures |r| <= |msgs|
    ensures forall j :: 0 <= j < |r| ==> Converted(r[j])
    decreases |msgs|
  {
    if msgs == [] then []
    else (if Converted(msgs[0]) then [msgs[0]] else []) + Kept(msgs[1..])
  }

  /** The LangChain message for one kept message; `None` content is `""`. */
  function ToLc(m: Message): LcMessage
    requires Converted(m)
  {
    var text := m.content.GetOr("");
    if m.role == System then SystemMessage(text)
    else if m.role == User then HumanMessage(text)
    else AiMessage(text)
  }

  /** What one message of the loop appends. */
  function ConvertOne(m: Message): seq<LcMessage> {
    if m.role == System then [SystemMessage(m.content.GetOr(""))]
    else if m.role == User then [HumanMessage(m.content.GetOr(""))]
    else if m.role == Assistant then [AiMessage(m.content.GetOr(""))]
    else []
  }

  /** `_convert_messages`: the kept messages, each turned into its LangChain
      form, in order. */
  function ConvertMessages(msgs: seq<Message>): (r: seq<LcMessage>)
    ensures |r| == |Kept(msgs)|
    ensures forall j :: 0 <= j < |r| ==> r[j] == ToLc(Kept(msgs)[j])
    decreases |msgs|
  {
    if msgs == [] then []
    else
      var rest := ConvertMessages(msgs[1..]);
      assert Converted(msgs[0]) ==> ConvertOne(msgs[0]) == [ToLc(msgs[0])];
      ConvertOne(msgs[0]) + rest
  }

  /** Conversion works message by message: converting a concatenation
      converts the parts. */
  lemma {:induction false} ConvertMessagesConcat(a: seq<Message>, b: seq<Message>)
    ensures ConvertMessages(a + b) == ConvertMessages(a) + ConvertMessages(b)
    decreases |a|
  {
    if a == [] {
      assert a + b == b;
    } else {
      assert (a + b)[0] == a[0];
      assert (a + b)[1..] == a[1..] + b;
      ConvertMessagesConcat(a[1..], b);
    }
  }

  /** Conversations without function or tool messages keep every message,
      and the text of each is its content or `""`. */
  lemma {:induction false} ConvertKeepsPlainConversation(msgs: seq<Message>)
    requires forall i :: 0 <= i < |msgs| ==> Converted(msgs[i])
    ensures |ConvertMessages(msgs)| == |msgs|
    ensures forall i :: 0 <= i < |msgs| ==> ConvertMessages(msgs)[i].content == msgs[i].content.GetOr("")
    decreases |msgs|
  {
    KeptAll(msgs);
  }

  lemma {:induction false} KeptAll(msgs: seq<Message>)
    requires forall i :: 0 <= i < |msgs| ==> Converted(msgs[i])
    ensures Kept(msgs) == msgs
    decreases |msgs|
  {
    if msgs != [] {
      KeptAll(msgs[1..]);
      assert msgs == [msgs[0]] + msgs[1..];
    }
  }

  /** Function and tool messages vanish entirely. */
  lemma {:induction false} ConvertDropsToolMessages(msgs: seq<Message>)
    requires forall i :: 0 <= i < |msgs| ==> msgs[i].role == FunctionRole || msgs[i].role == ToolRole
    ensures ConvertMessages(msgs) == []
    decreases |msgs|
  {
    if msgs != [] {
      ConvertDropsToolMessages(msgs[1..]);
    }
  }

  // ---------------------------------------------------------------------------
  // The tool list shown to the model

  const NoToolsText := "暂无可用工具"

  function ToolLine(t: ServerTool): string {
    "- " + t.name + ": " + t.description
  }

  function ToolLines(tools: seq<ServerTool>): (lines: seq<string>)
    ensures |lines| == |tools|
    ensures forall i :: 0 <= i < |tools| ==> lines[i] == ToolLine(tools[i])
  {
    seq(|tools|, i requires 0 <= i < |tools| => ToolLine(tools[i]))
  }

  /** `_format_tools_description`. */
  function FormatToolsDescription(tools: seq<ServerTool>): (s: string)
    ensures tools == [] ==> s == NoToolsText
  {
    if tools == [] then NoToolsText else Join(ToolLines(tools), "\n")
  }

  /** When names and descriptions are single lines, the text splits back
      into exactly one `- name: description` line per tool, in order. */
  lemma FormatToolsLines(tools: seq<ServerTool>)
    requires tools != []
    requires forall i :: 0 <= i < |tools| ==> '\n' !in tools[i].name && '\n' !in tools[i].description
    ensures Split(FormatToolsDescription(tools), '\n') == ToolLines(tools)
  {
    var lines := ToolLines(tools);
    forall k | 0 <= k < |lines| ensures '\n' !in lines[k] {
      assert lines[k] == "- " + tools[k].name + ": " + tools[k].description;
    }
    SplitJoin(lines, '\n');
  }

  // ---------------------------------------------------------------------------
  // Routing

  /** `AgentChain.__init__` builds an agent executor only when tools are
      enabled and the tool manager has tools. */
  predicate HasExecutor(enableTools: bool, tools: seq<ServerTool>) {
    enableTools && |tools| > 0
  }

  /** The condition shared by `process_request` and `process_non_streaming`. */
  predicate UsesTools(enableTools: bool, tools: seq<ServerTool>, request: ChatCompletionRequest) {
    enableTools && HasTools(request) && HasExecutor(enableTools, tools)
  }

  /** The tool route needs all three: the flag, tools in the request and an
      executor; a request built from defaults always goes direct. */
  lemma RouteConditions(enableTools: bool, tools: seq<ServerTool>, request: ChatCompletionRequest)
    ensures UsesTools(enableTools, tools, request) <==>
              enableTools && request.tools.Some? && request.tools.value != [] && tools != []
    ensures !UsesTools(enableTools, tools, NewRequest(request.model, request.messages))
  {
  }

  // ---------------------------------------------------------------------------
  // Stream events

  datatype ChunkDelta = ContentDelta(text: string) | EmptyDelta

  datatype StreamChunk = StreamChunk(id: string, created: int, model: string, delta: ChunkDelta, finishReason: Option<string>)

  /** One string yielded by the generators: a `data:` frame holding a chunk,
      the `[DONE]` frame, or a bare JSON error object with no framing. */
  datatype Yield = Data(chunk: StreamChunk) | DoneMark | Bare(message: string, errorType: string)

  /** The input dict handed to the agent executor and to the LLM chain. */
  datatype ChainInput = ChainInput(messages: seq<LcMessage>, tools: string)

  /** What `chain.astream` produced before it ended: the chunks, and the
      exception it raised, if any. */
  datatype LlmStream = LlmStream(chunks: seq<string>, failure: Option<string>)

  const ToolErrorPrefix := "工具处理错误: "
  const DirectErrorPrefix := "直接处理错误: "
  const ProcessingErrorPrefix := "处理请求时发生错误: "

  /** The final chunk: empty delta, `finish_reason` `"stop"`. */
  function StopChunk(id: string, created: int, model: string): StreamChunk {
    StreamChunk(id, created, model, EmptyDelta, Some("stop"))
  }

  /** Content chunks for `texts`, the first at stream position `k`. */
  function DataYields(texts: seq<string>, model: string, ids: nat -> string, clock: nat -> int, k: nat): (ys: seq<Yield>)
    ensures |ys| == |texts|
    ensures forall i :: 0 <= i < |texts| ==>
              ys[i] == Data(StreamChunk(ids(k + i), clock(k + i), model, ContentDelta(texts[i]), None))
    decreases |texts|
  {
    if texts == [] then []
    else [Data(StreamChunk(ids(k), clock(k), model, ContentDelta(texts[0]), None))]
         + DataYields(texts[1..], model, ids, clock, k + 1)
  }

  /** The text a client reassembles from the content deltas. */
  function YieldText(ys: seq<Yield>): string
    decreases |ys|
  {
    if ys == [] then ""
    else (if ys[0].Data? && ys[0].chunk.delta.ContentDelta? then ys[0].chunk.delta.text else "")
         + YieldText(ys[1..])
  }

  lemma {:induction false} YieldTextConcat(a: seq<Yield>, b: seq<Yield>)
    ensures YieldText(a + b) == YieldText(a) + YieldText(b)
    decreases |a|
  {
    if a == [] {
      assert a + b == b;
    } else {
      assert (a + b)[0] == a[0];
      assert (a + b)[1..] == a[1..] + b;
      YieldTextConcat(a[1..], b);
    }
  }

  lemma {:induction false} DataYieldsText(texts: seq<string>, model: string, ids: nat -> string, clock: nat -> int, k: nat)
    ensures YieldText(DataYields(texts, model, ids, clock, k)) == Concat(texts)
    decreases |texts|
  {
    if texts != [] {
      DataYieldsText(texts[1..], model, ids, clock, k + 1);
    }
  }

  /** Content chunks for `texts`, then the stop chunk and `[DONE]`. */
  function FinishedYields(texts: seq<string>, model: string, ids: nat -> string, clock: nat -> int): (ys: seq<Yield>)
    requires forall i :: 0 <= i < |texts| ==> texts[i] != ""
    ensures Completed(ys) && |ys| == |texts| + 2
    ensures Stamped(ys, model, ids, clock)
    ensures YieldText(ys) == Concat(texts)
  {
    var body := DataYields(texts, model, ids, clock, 0);
    var tail := [Data(StopChunk(ids(|texts|), clock(|texts|), model)), DoneMark];
    YieldTextConcat(body, tail);
    DataYieldsText(texts, model, ids, clock, 0);
    assert YieldText(tail) == "" by {
      assert tail[1..] == [DoneMark];
      assert tail[1..][1..] == [];
      assert YieldText(tail[1..]) == "";
    }
    body + tail
  }

  /** Content chunks for `texts`, then one bare error object. */
  function FailedYields(texts: seq<string>, message: string, errorType: string,
                        model: string, ids: nat -> string, clock: nat -> int): (ys: seq<Yield>)
    requires forall i :: 0 <= i < |texts| ==> texts[i] != ""
    ensures Failed(ys, errorType) && |ys| == |texts| + 1 && ys[|ys| - 1].message == message
    ensures Stamped(ys, model, ids, clock)
    ensures YieldText(ys) == Concat(texts)
  {
    var body := DataYields(texts, model, ids, clock, 0);
    var tail := [Bare(message, errorType)];
    YieldTextConcat(body, tail);
    DataYieldsText(texts, model, ids, clock, 0);
    assert YieldText(tail) == "" by {
      assert tail[1..] == [];
    }
    body + tail
  }

  /** A content chunk that is not the last: non-empty text, no finish reason. */
  predicate IsContent(y: Yield) {
    y.Data? && y.chunk.delta.ContentDelta? && y.chunk.delta.text != "" && y.chunk.finishReason.None?
  }

  /** A stream that completed: content chunks, one empty `"stop"` chunk, then `[DONE]`. */
  predicate Completed(ys: seq<Yield>) {
    && |ys| >= 2
    && ys[|ys| - 1] == DoneMark
    && ys[|ys| - 2].Data? && ys[|ys| - 2].chunk.delta == EmptyDelta
    && ys[|ys| - 2].chunk.finishReason == Some("stop")
    && forall i :: 0 <= i < |ys| - 2 ==> IsContent(ys[i])
  }

  /** A stream that failed: content chunks, then one bare error object of the
      given type, and no `[DONE]`. */
  predicate Failed(ys: seq<Yield>, errorType: string) {
    && |ys| >= 1
    && ys[|ys| - 1].Bare? && ys[|ys| - 1].errorType == errorType
    && forall i :: 0 <= i < |ys| - 1 ==> IsContent(ys[i])
  }

  /** Every chunk carries the request's model, and the id and time drawn
      for its own position. */
  predicate Stamped(ys: seq<Yield>, model: string, ids: nat -> string, clock: nat -> int) {
    forall i :: 0 <= i < |ys| && ys[i].Data? ==>
      ys[i].chunk.model == model && ys[i].chunk.id == ids(i) && ys[i].chunk.created == clock(i)
  }

  // ---------------------------------------------------------------------------
  // The tool route

  /** The deltas of the word re-chunking: every word but the last gets a
      trailing space. */
  function WordDeltas(words: seq<string>): (ds: seq<string>)
    ensures |ds| == |words|
    ensures forall i :: 0 <= i < |words| - 1 ==> ds[i] == words[i] + " "
    ensures |words| > 0 ==> ds[|words| - 1] == words[|words| - 1]
    decreases |words|
  {
    if |words| <= 1 then words else [words[0] + " "] + WordDeltas(words[1..])
  }

  /** The deltas concatenate to the words joined by single spaces. */
  lemma {:induction false} ConcatWordDeltas(words: seq<string>)
    ensures Concat(WordDeltas(words)) == Join(words, " ")
    decreases |words|
  {
    if |words| == 1 {
      assert Concat(words) == words[0] + Concat([]);
    } else if |words| > 1 {
      ConcatWordDeltas(words[1..]);
      assert WordDeltas(words)[1..] == WordDeltas(words[1..]);
    }
  }

  /** `result["output"]` when the agent returned a dict holding `output`. */
  function Output(result: Json): Option<Json> {
    if result.JObj? && HasKey(result.fields, "output") then Lookup(result.fields, "output") else None
  }

  /** `_process_with_tools`. An agent failure, or an `output` that is not a
      string (it has no `.split`), gives one `tool_error`; a result without
      `output` gives nothing at all. */
  function ToolRouteYields(result: Result<Json, string>, model: string, ids: nat -> string, clock: nat -> int): (ys: seq<Yield>)
    ensures result.Err? ==> ys == [Bare(ToolErrorPrefix + result.error, "tool_error")]
    ensures result.Ok? && Output(result.value).None? ==> ys == []
    ensures result.Ok? && Output(result.value).Some? && !Output(result.value).value.JStr? ==>
              ys == [Bare(ToolErrorPrefix + NoAttribute(Output(result.value).value, "split"), "tool_error")]
    ensures result.Ok? && Output(result.value).Some? && Output(result.value).value.JStr? ==>
              && Completed(ys) && |ys| == |Words(Output(result.value).value.s, PyIsSpace)| + 2
              && YieldText(ys) == Concat(WordDeltas(Words(Output(result.value).value.s, PyIsSpace)))
    ensures Stamped(ys, model, ids, clock)
  {
    match result
    case Err(e) => [Bare(ToolErrorPrefix + e, "tool_error")]
    case Ok(r) =>
      match Output(r)
      case None => []
      case Some(content) =>
        if content.JStr? then
          var words := Words(content.s, PyIsSpace);
          FinishedYields(WordDeltas(words), model, ids, clock)
        else [Bare(ToolErrorPrefix + NoAttribute(content, "split"), "tool_error")]
  }

  /** The client sees `" ".join(output.split())`: whitespace runs collapse to
      one space, and splitting the reassembled text gives the same words. */
  lemma ToolRouteText(result: Json, model: string, ids: nat -> string, clock: nat -> int)
    requires Output(result).Some? && Output(result).value.JStr?
    ensures var words := Words(Output(result).value.s, PyIsSpace);
            && YieldText(ToolRouteYields(Ok(result), model, ids, clock)) == Join(words, " ")
            && Words(YieldText(ToolRouteYields(Ok(result), model, ids, clock)), PyIsSpace) == words
  {
    var words := Words(Output(result).value.s, PyIsSpace);
    ConcatWordDeltas(words);
    WordsJoin(words, PyIsSpace);
  }

  // ---------------------------------------------------------------------------
  // The direct route

  /** The chunks `if chunk:` lets through. */
  function NonEmpty(chunks: seq<string>): (r: seq<string>)
    ensures |r| <= |chunks|
    ensures forall i :: 0 <= i < |r| ==> r[i] != ""
    decreases |chunks|
  {
    if chunks == [] then []
    else (if chunks[0] != "" then [chunks[0]] else []) + NonEmpty(chunks[1..])
  }

  /** Dropping empty chunks loses no text. */
  lemma {:induction false} NonEmptyText(chunks: seq<string>)
    ensures Concat(NonEmpty(chunks)) == Concat(chunks)
    decreases |chunks|
  {
    if chunks != [] {
      NonEmptyText(chunks[1..]);
      ConcatCons(chunks[0], NonEmpty(chunks[1..]));
    }
  }

  lemma ConcatCons(head: string, rest: seq<string>)
    ensures Concat((if head != "" then [head] else []) + rest) == head + Concat(rest)
  {
    if head != "" {
      assert ([head] + rest)[1..] == rest;
    } else {
      assert [] + rest == rest;
    }
  }

  /** `_process_direct`: the non-empty chunks, then either the stop chunk
      and `[DONE]`, or one `direct_error` if the stream raised. */
  function DirectYields(llm: LlmStream, model: string, ids: nat -> string, clock: nat -> int): (ys: seq<Yield>)
    ensures llm.failure.None? ==> Completed(ys) && |ys| == |NonEmpty(llm.chunks)| + 2
    ensures llm.failure.Some? ==> Failed(ys, "direct_error") && |ys| == |NonEmpty(llm.chunks)| + 1
    ensures llm.failure.Some? ==> ys[|ys| - 1].message == DirectErrorPrefix + llm.failure.value
    ensures Stamped(ys, model, ids, clock)
    ensures YieldText(ys) == Concat(NonEmpty(llm.chunks))
  {
    var texts := NonEmpty(llm.chunks);
    match llm.failure
    case None => FinishedYields(texts, model, ids, clock)
    case Some(e) => FailedYields(texts, DirectErrorPrefix + e, "direct_error", model, ids, clock)
  }

  /** Whatever the stream delivered before it ended is forwarded in full. */
  lemma DirectText(llm: LlmStream, model: string, ids: nat -> string, clock: nat -> int)
    ensures YieldText(DirectYields(llm, model, ids, clock)) == Concat(llm.chunks)
  {
    NonEmptyText(llm.chunks);
  }

  // ---------------------------------------------------------------------------
  // The two entry points

  /** `process_request`. Its own `processing_error` branch is unreachable:
      conversion cannot raise and both routes catch their own exceptions. */
  function ProcessRequest(enableTools: bool, tools: seq<ServerTool>, request: ChatCompletionRequest,
                          agent: ChainInput -> Result<Json, string>, llm: ChainInput -> LlmStream,
                          ids: nat -> string, clock: nat -> int): (ys: seq<Yield>)
    ensures Completed(ys) || Failed(ys, "tool_error") || Failed(ys, "direct_error") || ys == []
    ensures ys == [] ==> UsesTools(enableTools, tools, request)
    ensures Failed(ys, "tool_error") ==> UsesTools(enableTools, tools, request)
    ensures Failed(ys, "direct_error") ==> !UsesTools(enableTools, tools, request)
    ensures Stamped(ys, request.model, ids, clock)
    ensures var input := ChainInput(ConvertMessages(request.messages), FormatToolsDescription(tools));
            && (UsesTools(enableTools, tools, request) ==> ys == ToolRouteYields(agent(input), request.model, ids, clock))
            && (!UsesTools(enableTools, tools, request) ==> ys == DirectYields(llm(input), request.model, ids, clock))
    ensures var input := ChainInput(ConvertMessages(request.messages), FormatToolsDescription(tools));
            !UsesTools(enableTools, tools, request) ==> YieldText(ys) == Concat(llm(input).chunks)
  {
    var input := ChainInput(ConvertMessages(request.messages), FormatToolsDescription(tools));
    if UsesTools(enableTools, tools, request) then ToolRouteYields(agent(input), request.model, ids, clock)
    else
      DirectText(llm(input), request.model, ids, clock);
      DirectYields(llm(input), request.model, ids, clock)
  }

  /** The content of the buffered reply: the agent's `output` (default `""`)
      or the chain's text. An agent result that is not a dict has no `.get`. */
  function NonStreamingContent(enableTools: bool, tools: seq<ServerTool>, request: ChatCompletionRequest,
                               agent: ChainInput -> Result<Json, string>, invoke: ChainInput -> Result<string, string>): (r: Result<Json, string>)
    ensures var input := ChainInput(ConvertMessages(request.messages), FormatToolsDescription(tools));
            && (!UsesTools(enableTools, tools, request) ==>
                  (r.Ok? <==> invoke(input).Ok?) && (r.Ok? ==> r.value == JStr(invoke(input).value)))
            && (UsesTools(enableTools, tools, request) ==>
                  (r.Ok? <==> agent(input).Ok? && agent(input).value.JObj?)
                  && (r.Ok? ==> r.value == Lookup(agent(input).value.fields, "output").GetOr(JStr(""))))
  {
    var input := ChainInput(ConvertMessages(request.messages), FormatToolsDescription(tools));
    if UsesTools(enableTools, tools, request) then
      match agent(input)
      case Err(e) => Err(e)
      case Ok(r) => if r.JObj? then Ok(Lookup(r.fields, "output").GetOr(JStr(""))) else Err(NoAttribute(r, "get"))
    else
      match invoke(input)
      case Err(e) => Err(e)
      case Ok(s) => Ok(JStr(s))
  }

  const ZeroUsage: Json := JObj([("prompt_tokens", JInt(0)), ("completion_tokens", JInt(0)), ("total_tokens", JInt(0))])

  function ReplyChoices(content: Json): Json {
    JArr([JObj([("index", JInt(0)),
                ("message", JObj([("role", JStr("assistant")), ("content", content)])),
                ("finish_reason", JStr("stop"))])])
  }

  function ResponseJson(id: string, created: int, model: string, content: Json): Json {
    JObj([("id", JStr(id)), ("object", JStr(CompletionObject)), ("created", JInt(created)),
          ("model", JStr(model)), ("choices", ReplyChoices(content)), ("usage", ZeroUsage)])
  }

  /** `{"error": {"message": ..., "type": ...}}`. */
  function ErrorJson(message: string, errorType: string): Json {
    JObj([("error", JObj([("message", JStr(message)), ("type", JStr(errorType))]))])
  }

  /** `process_non_streaming`: the completion dict, or the `processing_error` dict. */
  function ProcessNonStreaming(enableTools: bool, tools: seq<ServerTool>, request: ChatCompletionRequest,
                               agent: ChainInput -> Result<Json, string>, invoke: ChainInput -> Result<string, string>,
                               hex: string, now: int): (r: Json)
    requires IsUuidHex(hex)
    ensures var c := NonStreamingContent(enableTools, tools, request, agent, invoke);
            && r.JObj?
            && (c.Ok? ==> !HasKey(r.fields, "error") && Lookup(r.fields, "usage") == Some(ZeroUsage)
                          && Lookup(r.fields, "choices") == Some(ReplyChoices(c.value))
                          && Lookup(r.fields, "id") == Some(JStr(DefaultId(hex)))
                          && Lookup(r.fields, "created") == Some(JInt(now))
                          && Lookup(r.fields, "model") == Some(JStr(request.model)))
            && (c.Err? ==> r == ErrorJson(ProcessingErrorPrefix + c.error, "processing_error"))
  {
    match NonStreamingContent(enableTools, tools, request, agent, invoke)
    case Err(e) => ErrorJson(ProcessingErrorPrefix + e, "processing_error")
    case Ok(content) =>
      NonStreamingSuccess(DefaultId(hex), now, request.model, content);
      ResponseHeader(DefaultId(hex), now, request.model, content);
      ResponseJson(DefaultId(hex), now, request.model, content)
  }

  lemma LookupCons(k: string, v: Json, rest: seq<(string, Json)>, key: string)
    requires k != key
    ensures Lookup([(k, v)] + rest, key) == Lookup(rest, key)
  {
    assert ([(k, v)] + rest)[1..] == rest;
  }

  /** The reply carries the drawn id, the time and the request's model. */
  lemma ResponseHeader(id: string, created: int, model: string, content: Json)
    ensures var r := ResponseJson(id, created, model, content);
            && Lookup(r.fields, "id") == Some(JStr(id))
            && Lookup(r.fields, "created") == Some(JInt(created))
            && Lookup(r.fields, "model") == Some(JStr(model))
  {
    var f := ResponseJson(id, created, model, content).fields;
    LookupCons("id", JStr(id), f[1..], "created");
    LookupCons("object", JStr(CompletionObject), f[2..], "created");
    LookupCons("id", JStr(id), f[1..], "model");
    LookupCons("object", JStr(CompletionObject), f[2..], "model");
    LookupCons("created", JInt(created), f[3..], "model");
  }

  /** A successful buffered reply has no `error` key, reports all-zero usage
      and carries the content in its single choice. */
  lemma NonStreamingSuccess(id: string, created: int, model: string, content: Json)
    ensures var r := ResponseJson(id, created, model, content);
            && !HasKey(r.fields, "error")
            && Lookup(r.fields, "usage") == Some(ZeroUsage)
            && Lookup(r.fields, "choices") == Some(ReplyChoices(content))
  {
    var f := ResponseJson(id, created, model, content).fields;
    assert forall i :: 0 <= i < |f| ==> f[i].0 != "error";
    LookupCons("id", JStr(id), f[1..], "usage");
    LookupCons("object", JStr(CompletionObject), f[2..], "usage");
    LookupCons("created", JInt(created), f[3..], "usage");
    LookupCons("model", JStr(model), f[4..], "usage");
    LookupCons("choices", ReplyChoices(content), f[5..], "usage");
    LookupCons("id", JStr(id), f[1..], "choices");
    LookupCons("object", JStr(CompletionObject), f[2..], "choices");
    LookupCons("created", JInt(created), f[3..], "choices");
    LookupCons("model", JStr(model), f[4..], "choices");
  }

  /** The buffered reply has an `error` key exactly when the content could
      not be produced, and then its message carries the prefix. */
  lemma NonStreamingError(enableTools: bool, tools: seq<ServerTool>, request: ChatCompletionRequest,
                          agent: ChainInput -> Result<Json, string>, invoke: ChainInput -> Result<string, string>,
                          hex: string, now: int)
    requires IsUuidHex(hex)
    ensures var r := ProcessNonStreaming(enableTools, tools, request, agent, invoke, hex, now);
            var c := NonStreamingContent(enableTools, tools, request, agent, invoke);
            && r.JObj?
            && (HasKey(r.fields, "error") <==> c.Err?)
            && (c.Err? ==> r == ErrorJson(ProcessingErrorPrefix + c.error, "processing_error"))
  {
    var c := NonStreamingContent(enableTools, tools, request, agent, invoke);
    if c.Ok? {
      NonStreamingSuccess(DefaultId(hex), now, request.model, c.value);
    } else {
      assert ErrorJson(ProcessingErrorPrefix + c.error, "processing_error").fields[0].0 == "error";
    }
  }

  /** A buffered request on the tool route whose agent result lacks
      `output` is answered with empty content rather than an error. */
  lemma MissingOutputIsEmpty(enableTools: bool, tools: seq<ServerTool>, request: ChatCompletionRequest,
                             agent: ChainInput -> Result<Json, string>, invoke: ChainInput -> Result<string, string>)
    requires UsesTools(enableTools, tools, request)
    requires var input := ChainInput(ConvertMessages(request.messages), FormatToolsDescription(tools));
             agent(input).Ok? && agent(input).value.JObj? && !HasKey(agent(input).value.fields, "output")
    ensures NonStreamingContent(enableTools, tools, request, agent, invoke) == Ok(JStr(""))
  {
  }

  // ---------------------------------------------------------------------------
  // Rendering

  function DeltaJson(d: ChunkDelta): Json {
    match d
    case ContentDelta(t) => JObj([("content", JStr(t))])
    case EmptyDelta => JObj([])
  }

  function ChunkJson(c: StreamChunk): Json {
    JObj([("id", JStr(c.id)), ("object", JStr(ChunkObject)), ("created", JInt(c.created)), ("model", JStr(c.model)),
          ("choices", JArr([JObj([("index", JInt(0)), ("delta", DeltaJson(c.delta)),
                                  ("finish_reason", if c.finishReason.Some? then JStr(c.finishReason.value) else JNull)])]))])
  }

  /** The string each event is sent as; `dumps` is `json.dumps`. */
  function Render(y: Yield, dumps: Json -> string): (s: string)
    ensures !y.Bare? ==> StartsWith(s, "data: ") && |s| >= 8 && s[|s| - 2..] == "\n\n"
    ensures y.Bare? ==> s == dumps(ErrorJson(y.message, y.errorType))
  {
    match y
    case Data(c) => "data: " + dumps(ChunkJson(c)) + "\n\n"
    case DoneMark => "data: [DONE]\n\n"
    case Bare(m, t) => dumps(ErrorJson(m, t))
  }
}

=== FILE: config.dfy ===
/** `Settings.get_active_model_config`: the provider table of the backend. */
module Config {
  import opened Strings

  datatype Provider = DeepSeek | Gemini | OpenAi

  /** The `provider` label written into the active configuration. */
  function Label(p: Provider): string {
    match p
    case DeepSeek => "deepseek"
    case Gemini => "gemini"
    case OpenAi => "openai"
  }

  /** The environment-backed settings; every field defaults as in `Settings`. */
  datatype Settings = Settings(
    modelProvider: string,
    deepseekApiKey: string, deepseekBaseUrl: string, deepseekModel: string,
    geminiApiKey: string, geminiBaseUrl: string, geminiModel: string,
    openaiApiKey: string, openaiBaseUrl: string, openaiModel: string)

  const DefaultSettings := Settings(
    "deepseek",
    "", "https://api.deepseek.com/v1", "deepseek-chat",
    "", "https://generativelanguage.googleapis.com/v1beta", "gemini-2.0-flash-exp",
    "", "https://api.openai.com/v1", "gpt-4")

  /** The dict returned by `get_active_model_config`. */
  datatype ModelConfig = ModelConfig(apiKey: string, baseUrl: string, model: string, provider: string)

  /** `MODEL_PROVIDER.lower()` compared with the three names; anything else is DeepSeek. */
  function Resolve(name: string): (p: Provider)
    ensures p == Gemini <==> PyLower(name) == "gemini"
    ensures p == OpenAi <==> PyLower(name) == "openai"
    ensures p == DeepSeek <==> PyLower(name) != "gemini" && PyLower(name) != "openai"
  {
    var n := PyLower(name);
    if n == "deepseek" then DeepSeek
    else if n == "gemini" then Gemini
    else if n == "openai" then OpenAi
    else DeepSeek
  }

  /** The three settings that belong to one provider. */
  function Row(s: Settings, p: Provider): ModelConfig {
    match p
    case DeepSeek => ModelConfig(s.deepseekApiKey, s.deepseekBaseUrl, s.deepseekModel, "deepseek")
    case Gemini => ModelConfig(s.geminiApiKey, s.geminiBaseUrl, s.geminiModel, "gemini")
    case OpenAi => ModelConfig(s.openaiApiKey, s.openaiBaseUrl, s.openaiModel, "openai")
  }

  function ActiveModelConfig(s: Settings): (c: ModelConfig)
    ensures c.provider == Label(Resolve(s.modelProvider))
    ensures c.provider in {"deepseek", "gemini", "openai"}
    ensures PyLower(s.modelProvider) == "gemini" ==>
              c.apiKey == s.geminiApiKey && c.baseUrl == s.geminiBaseUrl && c.model == s.geminiModel
    ensures PyLower(s.modelProvider) == "openai" ==>
              c.apiKey == s.openaiApiKey && c.baseUrl == s.openaiBaseUrl && c.model == s.openaiModel
    ensures PyLower(s.modelProvider) != "gemini" && PyLower(s.modelProvider) != "openai" ==>
              c.apiKey == s.deepseekApiKey && c.baseUrl == s.deepseekBaseUrl && c.model == s.deepseekModel
  {
    var n := PyLower(s.modelProvider);
    if n == "deepseek" then Row(s, DeepSeek)
    else if n == "gemini" then Row(s, Gemini)
    else if n == "openai" then Row(s, OpenAi)
    else Row(s, DeepSeek)
  }

  /** Two spellings with the same lower-case form pick the same row. */
  lemma CaseInsensitive(s: Settings, other: string)
    requires PyLower(other) == PyLower(s.modelProvider)
    ensures ActiveModelConfig(s.(modelProvider := other)) == ActiveModelConfig(s)
  {
  }

  /** An unrecognised provider behaves exactly like `"deepseek"`. */
  lemma UnknownIsDeepSeek(s: Settings)
    requires PyLower(s.modelProvider) !in {"deepseek", "gemini", "openai"}
    ensures ActiveModelConfig(s) == ActiveModelConfig(s.(modelProvider := "deepseek"))
  {
    assert PyLower("deepseek") == "deepseek";
  }
}

=== FILE: datetime_tool.dfy ===
/** The two time tools (`frontend/src/tools/datetime.ts`). Dates are epoch
    milliseconds; what the JavaScript `Date` library does is passed in:
    `parseDate` is `new Date(x).getTime()` (`None` for an invalid date),
    `shift` is one calendar setter of `addTime`, `fmt` is
    `toLocaleString('zh-CN')`, `numStr` and `jsStr` are `String(x)`, and
    `locale` is the time-zone-aware formatting of `datetimeTool`, which
    fails with the message of a `RangeError`. The parameter schemas, built by
    the missing `createParameterSchema`, are not modelled. */
module DatetimeTool {
  import opened Wrappers
  import opened Strings
  import opened Json
  import opened JsValues

  const MsPerDay := 86400000
  const MsPerHour := 3600000
  const MsPerMinute := 60000

  /** `diffMs`, `diffDays`, `diffHours`, `diffMinutes` of the `diff` operation. */
  datatype Span = Span(days: nat, hours: nat, minutes: nat)

  function Abs(x: int): nat {
    if x < 0 then -x else x
  }

  function Diff(base: int, target: int): (d: Span)
    ensures d.hours < 24 && d.minutes < 60
    ensures d.days * MsPerDay + d.hours * MsPerHour + d.minutes * MsPerMinute <= Abs(target - base)
    ensures Abs(target - base) < d.days * MsPerDay + d.hours * MsPerHour + d.minutes * MsPerMinute + MsPerMinute
  {
    var ms := Abs(target - base);
    var d := Span(ms / MsPerDay, (ms % MsPerDay) / MsPerHour, (ms % MsPerHour) / MsPerMinute);
    DiffParts(ms);
    d
  }

  /** Days, the hours left over, and the minutes left over after those,
      account for the whole span except the last partial minute. */
  lemma DiffParts(ms: nat)
    ensures (ms % MsPerDay) / MsPerHour < 24 && (ms % MsPerHour) / MsPerMinute < 60
    ensures var total := (ms / MsPerDay) * MsPerDay + ((ms % MsPerDay) / MsPerHour) * MsPerHour
                         + ((ms % MsPerHour) / MsPerMinute) * MsPerMinute;
            total <= ms < total + MsPerMinute
  {
    var d := ms / MsPerDay;
    var r := ms % MsPerDay;
    var h := r / MsPerHour;
    var q := r % MsPerHour;
    assert ms == d * MsPerDay + r;
    assert r == h * MsPerHour + q;
    assert ms % MsPerHour == q by {
      assert ms == (d * 24 + h) * MsPerHour + q;
    }
  }

  /** The span does not depend on which of the two dates comes first. */
  lemma DiffSymmetric(base: int, target: int)
    ensures Diff(base, target) == Diff(target, base)
  {
    assert Abs(target - base) == Abs(base - target);
  }

  const FailurePrefix := "时间计算失败："
  const InvalidBase := "无效的基准时间格式"
  const MissingTarget := "diff操作需要提供target_time参数"
  const InvalidTarget := "无效的目标时间格式"
  const UnsupportedOperation := "不支持的操作类型"
  const UnsupportedUnit := "不支持的时间单位"

  const Units: seq<string> := ["years", "months", "days", "hours", "minutes", "seconds"]

  /** `addTime`: one of the six calendar setters, or the unsupported-unit error. */
  function AddTime(date: int, amount: real, unit: Json, shift: (string, int, real) -> int): (r: Result<int, string>)
    ensures r.Err? <==> !(unit.JStr? && unit.s in Units)
    ensures r.Err? ==> r.error == UnsupportedUnit
    ensures r.Ok? ==> r.value == shift(unit.s, date, amount)
  {
    if unit.JStr? && unit.s in Units then Ok(shift(unit.s, date, amount)) else Err(UnsupportedUnit)
  }

  /** The arguments of `timeCalculatorTool.execute`; `None` is `undefined`. */
  datatype TimeArgs = TimeArgs(operation: Option<Json>, baseTime: Option<Json>, amount: Option<real>,
                               unit: Option<Json>, targetTime: Option<Json>)

  /** The base date: `now` by default, otherwise `new Date(base_time)`. */
  function BaseDate(args: TimeArgs, now: int, parseDate: Json -> Option<int>): Option<int> {
    var baseTime := args.baseTime.GetOr(JStr("now"));
    if baseTime == JStr("now") then Some(now) else parseDate(baseTime)
  }

  /** The answer of `add` and `subtract`: the base, the sign, the amount and
      unit as given, and the shifted date. */
  function ShiftText(from: string, sign: string, amount: string, unit: string, to: string): string {
    "时间计算结果：" + from + " " + sign + " " + amount + " " + unit + " = " + to
  }

  /** The answer of `diff`: both dates and the span in days, hours and minutes. */
  function SpanText(from: string, to: string, span: Span): string {
    "时间差计算结果：" + from + " 与 " + to + " 相差 " + NatToString(span.days) + "天 "
    + NatToString(span.hours) + "小时 " + NatToString(span.minutes) + "分钟"
  }

  /** `timeCalculatorTool.execute`. The base time is read first, so an
      invalid base fails every operation; every thrown error becomes
      `时间计算失败：<message>`, and a calculation that succeeds answers
      with the shifted date or the span. */
  function TimeCalculator(args: TimeArgs, now: int, parseDate: Json -> Option<int>,
                          shift: (string, int, real) -> int, fmt: int -> string,
                          numStr: real -> string): (r: string)
    ensures var c := TimeCalculation(args, now, parseDate, shift, fmt, numStr);
            c.Err? ==> r == FailurePrefix + c.error
    ensures var base := BaseDate(args, now, parseDate);
            var amount := args.amount.GetOr(0.0);
            var unit := args.unit.GetOr(JStr("days"));
            (base.Some? && unit.JStr? && unit.s in Units) ==>
              && (args.operation == Some(JStr("add")) ==>
                    r == ShiftText(fmt(base.value), "+", numStr(amount), unit.s, fmt(shift(unit.s, base.value, amount))))
              && (args.operation == Some(JStr("subtract")) ==>
                    r == ShiftText(fmt(base.value), "-", numStr(amount), unit.s, fmt(shift(unit.s, base.value, -amount))))
    ensures var base := BaseDate(args, now, parseDate);
            (base.Some? && args.operation == Some(JStr("diff")) && JsTruthy(args.targetTime)
             && parseDate(args.targetTime.value).Some?) ==>
              var t := parseDate(args.targetTime.value).value;
              r == SpanText(fmt(base.value), fmt(t), Diff(base.value, t))
  {
    match TimeCalculation(args, now, parseDate, shift, fmt, numStr)
    case Ok(s) => s
    case Err(m) => FailurePrefix + m
  }

  /** The body of the `try`, with the message of the error it throws. It
      succeeds exactly for a valid base and either `add` or `subtract` with
      one of the six units, or `diff` with a valid target. */
  function TimeCalculation(args: TimeArgs, now: int, parseDate: Json -> Option<int>,
                           shift: (string, int, real) -> int, fmt: int -> string,
                           numStr: real -> string): (r: Result<string, string>)
    ensures var unit := args.unit.GetOr(JStr("days"));
            r.Ok? <==> BaseDate(args, now, parseDate).Some?
                       && (((args.operation == Some(JStr("add")) || args.operation == Some(JStr("subtract")))
                            && unit.JStr? && unit.s in Units)
                           || (args.operation == Some(JStr("diff")) && JsTruthy(args.targetTime)
                               && parseDate(args.targetTime.value).Some?))
    ensures var base := BaseDate(args, now, parseDate);
            var amount := args.amount.GetOr(0.0);
            var unit := args.unit.GetOr(JStr("days"));
            (r.Ok? && args.operation == Some(JStr("add"))) ==>
              r.value == ShiftText(fmt(base.value), "+", numStr(amount), unit.s, fmt(shift(unit.s, base.value, amount)))
    ensures var base := BaseDate(args, now, parseDate);
            var amount := args.amount.GetOr(0.0);
            var unit := args.unit.GetOr(JStr("days"));
            (r.Ok? && args.operation == Some(JStr("subtract"))) ==>
              r.value == ShiftText(fmt(base.value), "-", numStr(amount), unit.s, fmt(shift(unit.s, base.value, -amount)))
    ensures var base := BaseDate(args, now, parseDate);
            (r.Ok? && args.operation == Some(JStr("diff"))) ==>
              var t := parseDate(args.targetTime.value).value;
              r.value == SpanText(fmt(base.value), fmt(t), Diff(base.value, t))
  {
    var amount := args.amount.GetOr(0.0);
    var unit := args.unit.GetOr(JStr("days"));
    match BaseDate(args, now, parseDate)
    case None => Err(InvalidBase)
    case Some(b) =>
      if args.operation == Some(JStr("add")) then
        match AddTime(b, amount, unit, shift)
        case Err(e) => Err(e)
        case Ok(d) => Ok(ShiftText(fmt(b), "+", numStr(amount), unit.s, fmt(d)))
      else if args.operation == Some(JStr("subtract")) then
        match AddTime(b, -amount, unit, shift)
        case Err(e) => Err(e)
        case Ok(d) => Ok(ShiftText(fmt(b), "-", numStr(amount), unit.s, fmt(d)))
      else if args.operation == Some(JStr("diff")) then
        if !JsTruthy(args.targetTime) then Err(MissingTarget)
        else
          match parseDate(args.targetTime.value)
          case None => Err(InvalidTarget)
          case Some(t) => Ok(SpanText(fmt(b), fmt(t), Diff(b, t)))
      else Err(UnsupportedOperation)
  }

  /** The error paths: an invalid base before anything else, then a missing
      or invalid target for `diff`, an unknown unit for `add` and
      `subtract`, and an unknown operation. */
  lemma TimeCalculatorErrors(args: TimeArgs, now: int, parseDate: Json -> Option<int>,
                             shift: (string, int, real) -> int, fmt: int -> string, numStr: real -> string)
    ensures var r := TimeCalculator(args, now, parseDate, shift, fmt, numStr);
            var baseTime := args.baseTime.GetOr(JStr("now"));
            var baseOk := baseTime == JStr("now") || parseDate(baseTime).Some?;
            && (!baseOk ==> r == FailurePrefix + InvalidBase)
            && (baseOk && args.operation == Some(JStr("diff")) && !JsTruthy(args.targetTime) ==>
                  r == FailurePrefix + MissingTarget)
            && ((baseOk && args.operation == Some(JStr("diff")) && JsTruthy(args.targetTime)
                 && parseDate(args.targetTime.value).None?) ==> r == FailurePrefix + InvalidTarget)
            && ((baseOk && args.operation in {Some(JStr("add")), Some(JStr("subtract"))}
                 && !(args.unit.GetOr(JStr("days")).JStr? && args.unit.GetOr(JStr("days")).s in Units)) ==>
                  r == FailurePrefix + UnsupportedUnit)
            && (baseOk && args.operation !in {Some(JStr("add")), Some(JStr("subtract")), Some(JStr("diff"))} ==>
                  r == FailurePrefix + UnsupportedOperation)
  {
  }

  /** `subtract` moves the date exactly as `add` with the amount negated. */
  lemma SubtractIsNegatedAdd(args: TimeArgs, now: int, parseDate: Json -> Option<int>,
                             shift: (string, int, real) -> int, fmt: int -> string, numStr: real -> string)
    requires args.operation == Some(JStr("subtract"))
    ensures var amount := args.amount.GetOr(0.0);
            var negated := args.(operation := Some(JStr("add")), amount := Some(-amount));
            var unit := args.unit.GetOr(JStr("days"));
            var baseTime := args.baseTime.GetOr(JStr("now"));
            var base := if baseTime == JStr("now") then Some(now) else parseDate(baseTime);
            (base.Some? && AddTime(base.value, -amount, unit, shift).Ok?) ==>
              && TimeCalculator(args, now, parseDate, shift, fmt, numStr)
                 == ShiftText(fmt(base.value), "-", numStr(amount), unit.s, fmt(shift(unit.s, base.value, -amount)))
              && TimeCalculator(negated, now, parseDate, shift, fmt, numStr)
                 == ShiftText(fmt(base.value), "+", numStr(-amount), unit.s, fmt(shift(unit.s, base.value, -amount)))
  {
  }

  /** The formats of `datetimeTool`; anything else is `datetime`. */
  datatype Format = DateFormat | TimeFormat | TimestampFormat | DateTimeFormat

  function ParseFormat(format: Json): (f: Format)
    ensures f == DateTimeFormat <==> format !in {JStr("date"), JStr("time"), JStr("timestamp")}
  {
    if format == JStr("date") then DateFormat
    else if format == JStr("time") then TimeFormat
    else if format == JStr("timestamp") then TimestampFormat
    else DateTimeFormat
  }

  /** `datetimeTool.execute`: `format` defaults to `datetime` and
      `timezone` to `Asia/Shanghai`; a formatting error is caught. */
  function CurrentTime(format: Option<Json>, timezone: Option<Json>, now: int,
                       locale: (Format, int, Json) -> Result<string, string>,
                       jsStr: Json -> string): (r: string)
    ensures ParseFormat(format.GetOr(JStr("datetime"))) == TimestampFormat ==> r == "当前时间戳：" + IntToString(now)
  {
    var f := ParseFormat(format.GetOr(JStr("datetime")));
    var tz := timezone.GetOr(JStr("Asia/Shanghai"));
    if f == TimestampFormat then "当前时间戳：" + IntToString(now)
    else
      match locale(f, now, tz)
      case Err(m) => "获取时间失败：" + m
      case Ok(s) =>
        match f
        case DateFormat => "当前日期：" + s
        case TimeFormat => "当前时间：" + s
        case _ => "当前时间：" + s + "（时区：" + jsStr(tz) + "）"
  }

  /** An unrecognised format is answered exactly as `datetime` is. */
  lemma UnknownFormatFallsBack(format: Json, timezone: Option<Json>, now: int,
                               locale: (Format, int, Json) -> Result<string, string>, jsStr: Json -> string)
    requires format !in {JStr("date"), JStr("time"), JStr("timestamp")}
    ensures CurrentTime(Some(format), timezone, now, locale, jsStr)
         == CurrentTime(Some(JStr("datetime")), timezone, now, locale, jsStr)
  {
  }
}

=== FILE: js_values.dfy ===
/** JavaScript views of a parsed JSON argument: a property that is absent reads
    as `undefined` (`None`), and truth values follow JavaScript, not Python. */
module JsValues {
  import opened Wrappers
  import opened Json

  /** `!!x` for a property of a parsed JSON object. */
  predicate JsTruthy(v: Option<Json>) {
    match v
    case None => false
    case Some(JNull) => false
    case Some(JBool(b)) => b
    case Some(JInt(i)) => i != 0
    case Some(JFloat(r)) => r != 0.0
    case Some(JStr(s)) => s != ""
    case Some(JArr(_)) => true
    case Some(JObj(_)) => true
  }

  /** JavaScript and Python agree on every JSON value except the empty array
      and the empty object, which only JavaScript counts as true. */
  lemma TruthinessDiffers(j: Json)
    ensures JsTruthy(Some(j)) != Truthy(j) <==> j == JArr([]) || j == JObj([])
  {
  }
}

=== FILE: json.dfy ===
/** JSON values as Python's `json` module and Pydantic's `model_dump` produce them:
    `int` and `float` stay apart, and an object is the ordered list of its
    fields, as a Python dict keeps insertion order. Parsing is never modelled:
    callers receive a `parse` function as a parameter. */
module Json {
  import opened Wrappers
  import opened Strings

  datatype Json =
    | JNull
    | JBool(b: bool)
    | JInt(i: int)
    | JFloat(r: real)
    | JStr(s: string)
    | JArr(items: seq<Json>)
    | JObj(fields: seq<(string, Json)>)

  /** `d.get(key)` on a dict; the first field with that key. */
  function Lookup(fields: seq<(string, Json)>, key: string): (r: Option<Json>)
    ensures r.Some? <==> exists i :: 0 <= i < |fields| && fields[i].0 == key
    ensures r.Some? ==> exists i :: 0 <= i < |fields| && fields[i] == (key, r.value)
  {
    if fields == [] then None
    else if fields[0].0 == key then Some(fields[0].1)
    else
      var r := Lookup(fields[1..], key);
      assert r.Some? ==> exists i :: 0 <= i < |fields[1..]| && fields[1..][i] == (key, r.value);
      r
  }

  /** Python's truth value of a JSON-shaped object. */
  predicate Truthy(j: Json) {
    match j
    case JNull => false
    case JBool(b) => b
    case JInt(i) => i != 0
    case JFloat(r) => r != 0.0
    case JStr(s) => s != ""
    case JArr(items) => items != []
    case JObj(fields) => fields != []
  }

  /** `type(x).__name__`, as it appears in Python's AttributeError messages. */
  function TypeName(j: Json): string {
    match j
    case JNull => "NoneType"
    case JBool(_) => "bool"
    case JInt(_) => "int"
    case JFloat(_) => "float"
    case JStr(_) => "str"
    case JArr(_) => "list"
    case JObj(_) => "dict"
  }

  /** Message of the AttributeError raised by calling a missing method on `j`. */
  function NoAttribute(j: Json, attr: string): string {
    "'" + TypeName(j) + "' object has no attribute '" + attr + "'"
  }

  function Keys(fields: seq<(string, Json)>): (ks: seq<string>)
    ensures |ks| == |fields|
    ensures forall i :: 0 <= i < |fields| ==> ks[i] == fields[i].0
  {
    if fields == [] then [] else [fields[0].0] + Keys(fields[1..])
  }

  predicate HasKey(fields: seq<(string, Json)>, key: string) {
    exists i :: 0 <= i < |fields| && fields[i].0 == key
  }

  /** `d[key] = v` on a dict: the first field with that key gets the new value
      in place; a missing key is appended. */
  function SetField(fields: seq<(string, Json)>, key: string, v: Json): (r: seq<(string, Json)>)
    ensures Keys(r) == if HasKey(fields, key) then Keys(fields) else Keys(fields) + [key]
    ensures Lookup(r, key) == Some(v)
    ensures forall k :: k != key ==> Lookup(r, k) == Lookup(fields, k)
  {
    if fields == [] then [(key, v)]
    else if fields[0].0 == key then [(key, v)] + fields[1..]
    else
      assert HasKey(fields, key) <==> HasKey(fields[1..], key) by {
        if HasKey(fields, key) {
          var i :| 0 <= i < |fields| && fields[i].0 == key;
          assert fields[1..][i - 1].0 == key;
        }
        if HasKey(fields[1..], key) {
          var i :| 0 <= i < |fields[1..]| && fields[1..][i].0 == key;
          assert fields[i + 1].0 == key;
        }
      }
      [fields[0]] + SetField(fields[1..], key, v)
  }

  /** A dict literal written as two parts: keys of the first part win. */
  lemma {:induction false} LookupConcat(a: seq<(string, Json)>, b: seq<(string, Json)>, key: string)
    ensures Lookup(a + b, key) == if HasKey(a, key) then Lookup(a, key) else Lookup(b, key)
    decreases |a|
  {
    if a == [] {
      assert a + b == b;
    } else {
      assert (a + b)[0] == a[0];
      assert (a + b)[1..] == a[1..] + b;
      LookupConcat(a[1..], b, key);
      if a[0].0 != key {
        assert HasKey(a, key) <==> HasKey(a[1..], key) by {
          if HasKey(a, key) {
            var i :| 0 <= i < |a| && a[i].0 == key;
            assert a[1..][i - 1].0 == key;
          }
          if HasKey(a[1..], key) {
            var i :| 0 <= i < |a[1..]| && a[1..][i].0 == key;
            assert a[i + 1].0 == key;
          }
        }
      }
    }
  }

  /** Writing back the value a key already has changes nothing. */
  lemma {:induction false} SetFieldSame(fields: seq<(string, Json)>, key: string, v: Json)
    requires Lookup(fields, key) == Some(v)
    ensures SetField(fields, key, v) == fields
    decreases |fields|
  {
    if fields[0].0 != key {
      SetFieldSame(fields[1..], key, v);
    }
  }

  lemma LookupMissing(fields: seq<(string, Json)>, key: string)
    requires !HasKey(fields, key)
    ensures Lookup(fields, key) == None
  {
  }

  /** Fields in front that do not carry the key are skipped over. */
  lemma LookupSkip(a: seq<(string, Json)>, b: seq<(string, Json)>, key: string)
    requires !HasKey(a, key)
    ensures Lookup(a + b, key) == Lookup(b, key)
  {
    LookupConcat(a, b, key);
  }

  // ---------------------------------------------------------------------------
  // Python operators on a parsed JSON value. Where they raise, the result is
  // the message CPython 3.11 gives.

  /** Values with no length: `len()`, `in` and iteration all reject them. */
  predicate Unsized(j: Json) {
    j.JNull? || j.JBool? || j.JInt? || j.JFloat?
  }

  /** `str(KeyError(key))` for a string key. */
  function KeyErrorText(key: string): string {
    "'" + key + "'"
  }

  /** The message of `len(j)` for a value without length. */
  function NoLen(j: Json): string {
    "object of type '" + TypeName(j) + "' has no len()"
  }

  function NotSubscriptable(j: Json): string {
    "'" + TypeName(j) + "' object is not subscriptable"
  }

  /** `j[key]` with a string key. */
  function Index(j: Json, key: string): (r: Result<Json, string>)
    ensures r.Ok? <==> j.JObj? && Lookup(j.fields, key).Some?
    ensures r.Ok? ==> r.value == Lookup(j.fields, key).value
    ensures r.Err? && j.JObj? ==> r.error == KeyErrorText(key)
  {
    match j
    case JObj(f) => (match Lookup(f, key) case Some(v) => Ok(v) case None => Err(KeyErrorText(key)))
    case JArr(_) => Err("list indices must be integers or slices, not str")
    case JStr(_) => Err("string indices must be integers, not 'str'")
    case _ => Err(NotSubscriptable(j))
  }

  /** `for x in j`: the items of a list, the one-character strings of a
      string, the keys of a dict. */
  function PyIter(j: Json): (r: Result<seq<Json>, string>)
    ensures r.Ok? <==> !Unsized(j)
    ensures j.JArr? ==> r == Ok(j.items)
    ensures j.JStr? ==> r.Ok? && |r.value| == |j.s| && forall i :: 0 <= i < |j.s| ==> r.value[i] == JStr([j.s[i]])
    ensures j.JObj? ==> r.Ok? && |r.value| == |j.fields| && forall i :: 0 <= i < |j.fields| ==> r.value[i] == JStr(j.fields[i].0)
  {
    match j
    case JArr(items) => Ok(items)
    case JStr(s) => Ok(seq(|s|, i requires 0 <= i < |s| => JStr([s[i]])))
    case JObj(f) => Ok(seq(|f|, i requires 0 <= i < |f| => JStr(f[i].0)))
    case _ => Err("'" + TypeName(j) + "' object is not iterable")
  }

  /** `len(j)`: the number of things iteration visits. */
  function PyLen(j: Json): (r: Result<nat, string>)
    ensures r.Ok? <==> PyIter(j).Ok?
    ensures r.Ok? ==> r.value == |PyIter(j).value|
  {
    match j
    case JArr(items) => Ok(|items|)
    case JStr(s) => Ok(|s|)
    case JObj(f) => Ok(|f|)
    case _ => Err(NoLen(j))
  }

  /** `key in j`: a dict key, a substring, or a list element equal to the string. */
  function PyIn(key: string, j: Json): (r: Result<bool, string>)
    ensures r.Ok? <==> PyIter(j).Ok?
    ensures r.Ok? && !j.JStr? ==> (r.value <==> JStr(key) in PyIter(j).value)
    ensures r.Ok? && j.JStr? ==> (r.value <==> Contains(j.s, key))
  {
    match j
    case JObj(f) =>
      assert HasKey(f, key) <==> JStr(key) in PyIter(j).value by {
        if HasKey(f, key) {
          var i :| 0 <= i < |f| && f[i].0 == key;
          assert PyIter(j).value[i] == JStr(key);
        }
      }
      Ok(HasKey(f, key))
    case JArr(items) => Ok(JStr(key) in items)
    case JStr(s) => Ok(Contains(s, key))
    case _ => Err("argument of type '" + TypeName(j) + "' is not iterable")
  }

  /** `j[0]`: the first thing iteration visits; a dict has no key `0`. */
  function PyFirst(j: Json): (r: Result<Json, string>)
    ensures r.Ok? <==> (j.JArr? || j.JStr?) && PyLen(j) != Ok(0)
    ensures r.Ok? ==> |PyIter(j).value| > 0 && r.value == PyIter(j).value[0]
    ensures j.JObj? ==> r == Err("0")
  {
    match j
    case JArr(items) => if items == [] then Err("list index out of range") else Ok(items[0])
    case JStr(s) => if s == "" then Err("string index out of range") else Ok(JStr([s[0]]))
    case JObj(_) => Err("0")
    case _ => Err(NotSubscriptable(j))
  }

  /** `j.get(key, fallback)`, which only a dict has. */
  function PyGet(j: Json, key: string, fallback: Json): (r: Result<Json, string>)
    ensures r.Ok? <==> j.JObj?
    ensures r.Ok? ==> r.value == Lookup(j.fields, key).GetOr(fallback)
    ensures r.Err? ==> r.error == NoAttribute(j, "get")
  {
    if j.JObj? then Ok(Lookup(j.fields, key).GetOr(fallback)) else Err(NoAttribute(j, "get"))
  }
}

=== FILE: openai_api.dfy ===
/** The OpenAI-compatible router of the backend: request translation for
    function calling, mapping of the agent's reply into a `chat.completion`,
    the token estimate, and the per-character re-chunking stream.

    The agent (`process_message`, `process_message_with_functions`) is an oracle
    passed in as a function; so is the clock that stamps each chunk. */
module OpenAiApi {
  import opened Wrappers
  import opened Strings
  import opened Json

  // ---------------------------------------------------------------------------
  // Request shapes

  datatype FunctionParameter = FunctionParameter(typ: string, description: Option<string>, enumValues: Option<seq<string>>)

  /** `properties` is a dict: the keys are distinct and kept in order. */
  datatype FunctionParameters = FunctionParameters(typ: string, properties: seq<(string, FunctionParameter)>, required: seq<string>)

  datatype Function = Function(name: string, description: Option<string>, parameters: Option<FunctionParameters>)

  datatype Tool = Tool(typ: string, fn: Function)

  datatype FunctionCall = FunctionCall(name: string, arguments: string)

  datatype ToolCall = ToolCall(id: string, typ: string, fn: FunctionCall)

  datatype ChatMessage = ChatMessage(
    role: string,
    content: Option<string>,
    name: Option<string>,
    toolCallId: Option<string>,
    toolCalls: Option<seq<ToolCall>>)

  datatype ChatCompletionRequest = ChatCompletionRequest(
    model: string,
    messages: seq<ChatMessage>,
    temperature: Option<real>,
    maxTokens: Option<int>,
    stream: Option<bool>,
    functions: Option<seq<Function>>,
    functionCall: Option<Json>,
    tools: Option<seq<Tool>>,
    toolChoice: Option<Json>)

  // ---------------------------------------------------------------------------
  // Response shapes

  datatype Usage = Usage(promptTokens: int, completionTokens: int, totalTokens: int)

  datatype Choice = Choice(index: nat, message: ChatMessage, finishReason: string)

  datatype Completion = Completion(id: string, object: string, created: int, model: string, choices: seq<Choice>, usage: Usage)

  datatype Delta = RoleDelta(role: string) | ContentDelta(content: string) | EmptyDelta

  /** One `chat.completion.chunk` with its single choice at index 0; `error` is
      the extra `{"error": {"message": …}}` member of the error chunk. */
  datatype StreamChunk = StreamChunk(id: string, created: int, model: string, delta: Delta, finishReason: Option<string>, error: Option<string>)

  /** One server-sent event: `data: <json>\n\n`, or `data: [DONE]\n\n`. */
  datatype StreamEvent = Chunk(chunk: StreamChunk) | RawJson(payload: Json) | Done

  datatype ApiResponse =
    | CompletionBody(completion: Completion)
    | StreamBody(events: seq<StreamEvent>)
    | HttpError(status: int, detail: string)

  const CompletionObject := "chat.completion"
  const ChunkObject := "chat.completion.chunk"
  const NoUserMessage := "没有找到用户消息"
  const StreamingFunctionsRejected := "Function calling 暂不支持流式模式"

  /** `str(HTTPException(status, detail))`. */
  function HttpExceptionText(status: int, detail: string): string {
    IntToString(status) + ": " + detail
  }

  // ---------------------------------------------------------------------------
  // Token estimate (estimate_tokens)

  /** Characters Python's `str.isalpha` accepts, restricted to ASCII, Latin-1 and CJK letters. */
  predicate PyIsAlphaChar(c: char) {
    IsAsciiLetter(c) || IsCjk(c) || c == '\U{AA}' || c == '\U{B5}' || c == '\U{BA}'
    || ('\U{C0}' <= c <= '\U{FF}' && c != '\U{D7}' && c != '\U{F7}')
  }

  predicate IsAlphaWord(w: string) {
    |w| > 0 && forall i :: 0 <= i < |w| ==> PyIsAlphaChar(w[i])
  }

  function AlphaWords(words: seq<string>): (r: seq<string>)
    ensures |r| <= |words|
  {
    if words == [] then []
    else (if IsAlphaWord(words[0]) then [words[0]] else []) + AlphaWords(words[1..])
  }

  function TotalLength(words: seq<string>): nat {
    if words == [] then 0 else |words[0]| + TotalLength(words[1..])
  }

  /** Python's `int(x)`: truncation toward zero. */
  function Truncate(x: real): int {
    if x >= 0.0 then x.Floor else -((-x).Floor)
  }

  /** `int(cjk * 1.5 + alpha_words + other * 0.5)`, where `other` subtracts both
      the CJK characters and the characters of alphabetic words from the length. */
  function EstimateTokens(text: string): (n: int)
    ensures n >= 0
    ensures text == "" ==> n == 0
  {
    var cjk := CountWhere(text, IsCjk);
    var alpha := AlphaWords(Words(text, PyIsSpace));
    AlphaWordsLength(Words(text, PyIsSpace));
    WordsLength(text, PyIsSpace);
    var other := |text| - cjk - TotalLength(alpha);
    Truncate(cjk as real * 1.5 + |alpha| as real + other as real * 0.5)
  }

  lemma {:induction false} AlphaWordsLength(words: seq<string>)
    ensures TotalLength(AlphaWords(words)) <= TotalLength(words)
  {
    if words != [] {
      AlphaWordsLength(words[1..]);
      var head := if IsAlphaWord(words[0]) then [words[0]] else [];
      TotalLengthConcat(head, AlphaWords(words[1..]));
    }
  }

  lemma {:induction false} TotalLengthConcat(a: seq<string>, b: seq<string>)
    ensures TotalLength(a + b) == TotalLength(a) + TotalLength(b)
  {
    if a != [] {
      assert (a + b)[1..] == a[1..] + b;
      TotalLengthConcat(a[1..], b);
    } else {
      assert a + b == b;
    }
  }

  /** The words of a string never hold more characters than the string. */
  lemma {:induction false} WordsLength(s: string, ws: char -> bool)
    ensures TotalLength(Words(s, ws)) <= |s|
    decreases |s|
  {
    if s != [] {
      if ws(s[0]) {
        WordsLength(s[1..], ws);
      } else {
        var n := RunLength(s, ws);
        WordsLength(s[n..], ws);
        TotalLengthConcat([s[..n]], Words(s[n..], ws));
      }
    }
  }

  /** The estimate in closed form: every CJK character counts one, every
      alphabetic word one, and every character outside alphabetic words one
      half, rounded down. It is never negative and the empty text costs nothing. */
  lemma EstimateTokensClosedForm(text: string)
    ensures var alpha := AlphaWords(Words(text, PyIsSpace));
            EstimateTokens(text)
            == CountWhere(text, IsCjk) + |alpha| + (|text| - TotalLength(alpha)) / 2
    ensures EstimateTokens(text) >= 0
    ensures text == "" ==> EstimateTokens(text) == 0
  {
    var cjk := CountWhere(text, IsCjk);
    var alpha := AlphaWords(Words(text, PyIsSpace));
    var rest := |text| - TotalLength(alpha);
    AlphaWordsLength(Words(text, PyIsSpace));
    WordsLength(text, PyIsSpace);
    assert rest >= 0;
    var other := |text| - cjk - TotalLength(alpha);
    var x := cjk as real * 1.5 + |alpha| as real + other as real * 0.5;
    assert x == (cjk + |alpha|) as real + rest as real / 2.0;
    var q := rest / 2;
    assert rest == 2 * q || rest == 2 * q + 1;
    assert x.Floor == cjk + |alpha| + q;
  }

  // ---------------------------------------------------------------------------
  // Tool schema translation (parameters cleaning)

  function OptStr(o: Option<string>): Json {
    match o
    case Some(s) => JStr(s)
    case None => JNull
  }

  function StrList(xs: seq<string>): (j: seq<Json>)
    ensures |j| == |xs|
    ensures forall i :: 0 <= i < |xs| ==> j[i] == JStr(xs[i])
  {
    seq(|xs|, i requires 0 <= i < |xs| => JStr(xs[i]))
  }

  /** `FunctionParameter.model_dump()`: every declared field, `None` as null. */
  function DumpParameter(p: FunctionParameter): seq<(string, Json)> {
    [("type", JStr(p.typ)),
     ("description", OptStr(p.description)),
     ("enum", match p.enumValues case Some(vs) => JArr(StrList(vs)) case None => JNull)]
  }

  function DumpProperties(ps: seq<(string, FunctionParameter)>): (r: seq<(string, Json)>)
    ensures |r| == |ps|
    ensures forall i :: 0 <= i < |ps| ==> r[i] == (ps[i].0, JObj(DumpParameter(ps[i].1)))
  {
    seq(|ps|, i requires 0 <= i < |ps| => (ps[i].0, JObj(DumpParameter(ps[i].1))))
  }

  /** `FunctionParameters.model_dump()`. */
  function DumpParameters(p: FunctionParameters): seq<(string, Json)> {
    [("type", JStr(p.typ)),
     ("properties", JObj(DumpProperties(p.properties))),
     ("required", JArr(StrList(p.required)))]
  }

  /** `{k: v for k, v in d.items() if v is not None}`. */
  function DropNulls(fields: seq<(string, Json)>): (r: seq<(string, Json)>)
    ensures forall i :: 0 <= i < |r| ==> r[i].1 != JNull
    ensures forall x :: x in r <==> x in fields && x.1 != JNull
    ensures (forall i :: 0 <= i < |fields| ==> fields[i].1 != JNull) ==> r == fields
  {
    if fields == [] then []
    else (if fields[0].1 == JNull then [] else [fields[0]]) + DropNulls(fields[1..])
  }

  /** The comprehension keeps the surviving fields in their order: it works
      field by field, so it distributes over concatenation. */
  lemma {:induction false} DropNullsConcat(a: seq<(string, Json)>, b: seq<(string, Json)>)
    ensures DropNulls(a + b) == DropNulls(a) + DropNulls(b)
  {
    if a == [] {
      assert a + b == b;
    } else {
      assert (a + b)[0] == a[0];
      assert (a + b)[1..] == a[1..] + b;
      DropNullsConcat(a[1..], b);
    }
  }

  predicate NoNulls(fields: seq<(string, Json)>) {
    forall i :: 0 <= i < |fields| ==> fields[i].1 != JNull
  }

  predicate CleanProperty(v: Json) {
    v.JObj? && NoNulls(v.fields)
  }

  /** The `properties` loop: each property loses its null-valued keys. A value
      that is not a dict has no `.items()`. */
  function CleanProperties(props: seq<(string, Json)>): (r: Result<seq<(string, Json)>, string>)
    ensures r.Ok? <==> forall i :: 0 <= i < |props| ==> props[i].1.JObj?
    ensures r.Ok? ==> Keys(r.value) == Keys(props)
    ensures r.Ok? ==> forall i :: 0 <= i < |props| ==> r.value[i].1 == JObj(DropNulls(props[i].1.fields))
  {
    if props == [] then Ok([])
    else match props[0].1
      case JObj(f) =>
        (match CleanProperties(props[1..])
         case Ok(rest) => Ok([(props[0].0, JObj(DropNulls(f)))] + rest)
         case Err(e) => Err(e))
      case other => Err(NoAttribute(other, "items"))
  }

  /** `if "required" in params and params["required"] is None: params["required"] = []`. */
  function FixRequired(params: seq<(string, Json)>): (r: seq<(string, Json)>)
    ensures Keys(r) == Keys(params)
    ensures Lookup(r, "required") == if Lookup(params, "required") == Some(JNull) then Some(JArr([])) else Lookup(params, "required")
    ensures forall k :: k != "required" ==> Lookup(r, k) == Lookup(params, k)
  {
    if Lookup(params, "required") == Some(JNull) then SetField(params, "required", JArr([])) else params
  }

  /** The parameter cleaning applied to a dumped `parameters` dict: a null
      `required` becomes `[]`, every property loses its null-valued keys, and
      every other key, and the key order, is kept. */
  function CleanParams(params: seq<(string, Json)>): (r: Result<seq<(string, Json)>, string>)
    ensures r.Ok? <==> match Lookup(params, "properties")
                       case None => true
                       case Some(v) => v.JObj? && CleanProperties(v.fields).Ok?
    ensures r.Ok? ==> Keys(r.value) == Keys(params)
  {
    var p1 := FixRequired(params);
    match Lookup(params, "properties")
    case None => Ok(p1)
    case Some(v) =>
      if !v.JObj? then Err(NoAttribute(v, "items"))
      else
        match CleanProperties(v.fields)
        case Err(e) => Err(e)
        case Ok(cp) =>
          PresentKeyKept(params, p1, "properties");
          Ok(SetField(p1, "properties", JObj(cp)))
  }

  /** After cleaning, `required` holds its fixed value and `properties` the
      cleaned properties, when there were any. */
  lemma CleanParamsLookups(params: seq<(string, Json)>)
    requires CleanParams(params).Ok?
    ensures Lookup(CleanParams(params).value, "required") == Lookup(FixRequired(params), "required")
    ensures Lookup(CleanParams(params).value, "properties") ==
              match Lookup(params, "properties")
              case None => None
              case Some(v) => Some(JObj(CleanProperties(v.fields).value))
  {
    var p1 := FixRequired(params);
    match Lookup(params, "properties")
    case None =>
    case Some(v) =>
      var cp := CleanProperties(v.fields).value;
      var r := SetField(p1, "properties", JObj(cp));
      assert CleanParams(params).value == r;
      assert "required" != "properties";
      assert Lookup(r, "required") == Lookup(p1, "required");
  }

  /** A key that is present is still present after a change that keeps the key list. */
  lemma PresentKeyKept(fields: seq<(string, Json)>, changed: seq<(string, Json)>, key: string)
    requires Keys(changed) == Keys(fields) && Lookup(fields, key).Some?
    ensures HasKey(changed, key)
  {
    if !HasKey(fields, key) {
      LookupMissing(fields, key);
    }
    KeysHasKey(fields, key);
    KeysHasKey(changed, key);
  }

  lemma {:induction false} KeysHasKey(fields: seq<(string, Json)>, key: string)
    ensures HasKey(fields, key) <==> key in Keys(fields)
  {
    if HasKey(fields, key) {
      var i :| 0 <= i < |fields| && fields[i].0 == key;
      assert Keys(fields)[i] == key;
    }
    if key in Keys(fields) {
      var i :| 0 <= i < |Keys(fields)| && Keys(fields)[i] == key;
      assert fields[i].0 == key;
    }
  }

  /** Keys other than `required` and `properties` pass through cleaning untouched. */
  lemma CleanParamsOtherKeys(params: seq<(string, Json)>, k: string)
    requires CleanParams(params).Ok?
    requires k != "required" && k != "properties"
    ensures Lookup(CleanParams(params).value, k) == Lookup(params, k)
  {
    assert Lookup(FixRequired(params), k) == Lookup(params, k);
  }

  /** Properties that are already clean are left as they are. */
  lemma {:induction false} CleanPropertiesClean(props: seq<(string, Json)>)
    requires forall i :: 0 <= i < |props| ==> CleanProperty(props[i].1)
    ensures CleanProperties(props) == Ok(props)
  {
    var again := CleanProperties(props);
    assert again.Ok?;
    assert |again.value| == |Keys(again.value)| == |Keys(props)| == |props|;
    forall i | 0 <= i < |props| ensures again.value[i] == props[i] {
      assert again.value[i].0 == Keys(again.value)[i] == Keys(props)[i] == props[i].0;
      assert DropNulls(props[i].1.fields) == props[i].1.fields;
      assert again.value[i].1 == props[i].1;
    }
    assert again.value == props;
  }

  /** Every cleaned property is a dict without null values. */
  lemma CleanPropertiesResult(props: seq<(string, Json)>)
    requires CleanProperties(props).Ok?
    ensures forall i :: 0 <= i < |props| ==> CleanProperty(CleanProperties(props).value[i].1)
  {
  }

  /** Cleaning is a fixed point after one pass: re-cleaning a cleaned dict is the identity. */
  lemma CleanParamsIdempotent(params: seq<(string, Json)>)
    requires CleanParams(params).Ok?
    ensures CleanParams(CleanParams(params).value) == CleanParams(params)
  {
    var c := CleanParams(params).value;
    CleanParamsLookups(params);
    assert Lookup(c, "required") != Some(JNull);
    assert FixRequired(c) == c;
    match Lookup(params, "properties")
    case None =>
      assert Lookup(c, "properties") == None;
    case Some(v) =>
      var cp := CleanProperties(v.fields).value;
      assert Lookup(c, "properties") == Some(JObj(cp));
      CleanPropertiesResult(v.fields);
      CleanPropertiesClean(cp);
      SetFieldSame(c, "properties", JObj(cp));
  }

  const DefaultParameters: seq<(string, Json)> :=
    [("type", JStr("object")), ("properties", JObj([])), ("required", JArr([]))]

  /** A property of a typed schema after dumping and cleaning: `type`, then
      `description` and `enum` only when they were given. */
  function CleanedParameter(p: FunctionParameter): seq<(string, Json)> {
    [("type", JStr(p.typ))]
    + (match p.description case Some(d) => [("description", JStr(d))] case None => [])
    + (match p.enumValues case Some(vs) => [("enum", JArr(StrList(vs)))] case None => [])
  }

  function CleanedProperties(ps: seq<(string, FunctionParameter)>): seq<(string, Json)> {
    seq(|ps|, i requires 0 <= i < |ps| => (ps[i].0, JObj(CleanedParameter(ps[i].1))))
  }

  /** Dropping the nulls of a dumped property leaves exactly the given fields. */
  lemma DropNullsDumped(fp: FunctionParameter)
    ensures DropNulls(DumpParameter(fp)) == CleanedParameter(fp)
  {
    var dp := DumpParameter(fp);
    assert dp[1..][1..][1..] == [];
    assert DropNulls(dp[1..][1..]) == (match fp.enumValues case Some(vs) => [("enum", JArr(StrList(vs)))] case None => []);
    assert DropNulls(dp[1..]) == (match fp.description case Some(x) => [("description", JStr(x))] case None => [])
                                 + DropNulls(dp[1..][1..]);
  }

  lemma CleanDumpedProperties(ps: seq<(string, FunctionParameter)>)
    ensures CleanProperties(DumpProperties(ps)) == Ok(CleanedProperties(ps))
  {
    var props := DumpProperties(ps);
    var cp := CleanProperties(props);
    var expected := CleanedProperties(ps);
    assert cp.Ok?;
    assert |cp.value| == |Keys(cp.value)| == |props|;
    forall i | 0 <= i < |props| ensures cp.value[i] == expected[i] {
      assert cp.value[i].0 == Keys(cp.value)[i] == Keys(props)[i];
      DropNullsDumped(ps[i].1);
    }
    assert cp.value == expected;
  }

  /** Dumping then cleaning a typed schema never fails, keeps the property
      order, and drops exactly the `description`/`enum` keys that were absent. */
  lemma CleanDumpedParameters(p: FunctionParameters)
    ensures CleanParams(DumpParameters(p)).Ok?
    ensures var c := CleanParams(DumpParameters(p)).value;
            && Lookup(c, "type") == Some(JStr(p.typ))
            && Lookup(c, "required") == Some(JArr(StrList(p.required)))
            && Lookup(c, "properties") == Some(JObj(CleanedProperties(p.properties)))
  {
    var d := DumpParameters(p);
    var props := DumpProperties(p.properties);
    assert Lookup(d, "properties") == Some(JObj(props)) by {
      assert d[0].0 != "properties";
      assert Lookup(d, "properties") == Lookup(d[1..], "properties");
    }
    assert Lookup(d, "required") == Some(JArr(StrList(p.required))) by {
      assert d[0].0 != "required" && d[1].0 != "required";
      assert Lookup(d, "required") == Lookup(d[1..], "required") == Lookup(d[1..][1..], "required");
    }
    CleanDumpedProperties(p.properties);
    CleanParamsLookups(d);
    assert Lookup(d, "type") == Some(JStr(p.typ));
    CleanParamsOtherKeys(d, "type");
  }

  /** `func_dict` for one legacy function: name, description, parameters. */
  function TranslateFunction(f: Function): (r: Json)
    ensures r.JObj? && Keys(r.fields) == ["name", "description", "parameters"]
  {
    CleanDumpedParametersOk(f);
    var params := if f.parameters.Some? then CleanParams(DumpParameters(f.parameters.value)).value else DefaultParameters;
    JObj([("name", JStr(f.name)), ("description", OptStr(f.description)), ("parameters", JObj(params))])
  }

  /** The description is copied even when it is null; a function without
      parameters gets the empty object schema; typed parameters are cleaned. */
  lemma TranslateFunctionFields(f: Function)
    ensures var j := TranslateFunction(f).fields;
            && Lookup(j, "name") == Some(JStr(f.name))
            && Lookup(j, "description") == Some(OptStr(f.description))
            && Lookup(j, "parameters") == Some(JObj(if f.parameters.None? then DefaultParameters
                                                   else CleanParams(DumpParameters(f.parameters.value)).value))
  {
    var j := TranslateFunction(f).fields;
    assert j[0].0 != "description" && j[0].0 != "parameters" && j[1].0 != "parameters";
    assert Lookup(j, "description") == Lookup(j[1..], "description");
    assert Lookup(j, "parameters") == Lookup(j[1..], "parameters") == Lookup(j[1..][1..], "parameters");
  }

  lemma CleanDumpedParametersOk(f: Function)
    ensures f.parameters.Some? ==> CleanParams(DumpParameters(f.parameters.value)).Ok?
  {
    if f.parameters.Some? {
      CleanDumpedParameters(f.parameters.value);
    }
  }

  /** `tool_dict`: the tool's own `type` and the translated function. */
  function TranslateTool(t: Tool): (r: Json)
    ensures r.JObj? && Keys(r.fields) == ["type", "function"]
    ensures Lookup(r.fields, "type") == Some(JStr(t.typ))
    ensures Lookup(r.fields, "function") == Some(TranslateFunction(t.fn))
  {
    JObj([("type", JStr(t.typ)), ("function", TranslateFunction(t.fn))])
  }

  function TranslateFunctions(fs: seq<Function>): (r: seq<Json>)
    ensures |r| == |fs|
    ensures forall i :: 0 <= i < |fs| ==> r[i] == TranslateFunction(fs[i])
  {
    seq(|fs|, i requires 0 <= i < |fs| => TranslateFunction(fs[i]))
  }

  function TranslateTools(ts: seq<Tool>): (r: seq<Json>)
    ensures |r| == |ts|
    ensures forall i :: 0 <= i < |ts| ==> r[i] == TranslateTool(ts[i])
  {
    seq(|ts|, i requires 0 <= i < |ts| => TranslateTool(ts[i]))
  }

  /** `if request.functions:` — a missing or empty list stays `None`. */
  function LegacyFunctions(req: ChatCompletionRequest): (r: Option<seq<Json>>)
    ensures r.Some? <==> req.functions.Some? && req.functions.value != []
    ensures r.Some? ==> |r.value| == |req.functions.value|
  {
    if req.functions.Some? && req.functions.value != [] then Some(TranslateFunctions(req.functions.value)) else None
  }

  function ModernTools(req: ChatCompletionRequest): (r: Option<seq<Json>>)
    ensures r.Some? <==> req.tools.Some? && req.tools.value != []
    ensures r.Some? ==> |r.value| == |req.tools.value|
  {
    if req.tools.Some? && req.tools.value != [] then Some(TranslateTools(req.tools.value)) else None
  }

  /** `bool(request.functions or request.tools)`. */
  predicate HasFunctions(req: ChatCompletionRequest) {
    (req.functions.Some? && req.functions.value != []) || (req.tools.Some? && req.tools.value != [])
  }

  // ---------------------------------------------------------------------------
  // Message flattening

  function ConvertToolCall(tc: ToolCall): Json {
    JObj([("id", JStr(tc.id)), ("type", JStr(tc.typ)),
          ("function", JObj([("name", JStr(tc.fn.name)), ("arguments", JStr(tc.fn.arguments))]))])
  }

  predicate TruthyStr(o: Option<string>) {
    o.Some? && o.value != ""
  }

  /** A key that `message_dict` carries only when its value is truthy. */
  function OptField(key: string, o: Option<string>): (f: seq<(string, Json)>)
    ensures Lookup(f, key) == if TruthyStr(o) then Some(JStr(o.value)) else None
    ensures forall k :: k != key ==> !HasKey(f, k)
  {
    if TruthyStr(o) then [(key, JStr(o.value))] else []
  }

  function ConvertToolCalls(tcs: seq<ToolCall>): (r: seq<Json>)
    ensures |r| == |tcs|
    ensures forall i :: 0 <= i < |tcs| ==> r[i] == ConvertToolCall(tcs[i])
  {
    seq(|tcs|, i requires 0 <= i < |tcs| => ConvertToolCall(tcs[i]))
  }

  function ToolCallsField(calls: Option<seq<ToolCall>>): (f: seq<(string, Json)>)
    ensures Lookup(f, "tool_calls") == if calls.Some? && calls.value != [] then Some(JArr(ConvertToolCalls(calls.value))) else None
    ensures forall k :: k != "tool_calls" ==> !HasKey(f, k)
  {
    if calls.Some? && calls.value != [] then [("tool_calls", JArr(ConvertToolCalls(calls.value)))] else []
  }

  /** `message_dict`: `role` first, then the truthy optional keys in declaration order. */
  function ConvertMessage(m: ChatMessage): (d: seq<(string, Json)>)
    ensures |d| > 0 && d[0] == ("role", JStr(m.role))
  {
    [("role", JStr(m.role))]
    + (OptField("content", m.content)
    + (OptField("name", m.name)
    + (OptField("tool_call_id", m.toolCallId)
    + ToolCallsField(m.toolCalls))))
  }

  /** A converted message always has `role`; `content` and `name` are
      present exactly when truthy. */
  lemma ConvertMessageFields(m: ChatMessage)
    ensures Lookup(ConvertMessage(m), "role") == Some(JStr(m.role))
    ensures Lookup(ConvertMessage(m), "content") == if TruthyStr(m.content) then Some(JStr(m.content.value)) else None
    ensures Lookup(ConvertMessage(m), "name") == if TruthyStr(m.name) then Some(JStr(m.name.value)) else None
  {
    var role := [("role", JStr(m.role))];
    var c := OptField("content", m.content);
    var n := OptField("name", m.name);
    var t := OptField("tool_call_id", m.toolCallId);
    var f4 := ToolCallsField(m.toolCalls);
    assert ConvertMessage(m) == role + (c + (n + (t + f4)));
    assert Lookup(ConvertMessage(m), "content") == Lookup(c, "content") by {
      LookupSkip(role, c + (n + (t + f4)), "content");
      LookupConcat(c, n + (t + f4), "content");
      if !HasKey(c, "content") {
        LookupSkip(n, t + f4, "content");
        LookupSkip(t, f4, "content");
        LookupMissing(f4, "content");
      }
    }
    assert Lookup(ConvertMessage(m), "name") == Lookup(n, "name") by {
      LookupSkip(role, c + (n + (t + f4)), "name");
      LookupSkip(c, n + (t + f4), "name");
      LookupConcat(n, t + f4, "name");
      if !HasKey(n, "name") {
        LookupSkip(t, f4, "name");
        LookupMissing(f4, "name");
      }
    }
  }

  /** The tool-call keys of a converted message: `tool_call_id` when truthy,
      `tool_calls` when non-empty, every call converted in order. */
  lemma ConvertMessageToolFields(m: ChatMessage)
    ensures Lookup(ConvertMessage(m), "tool_call_id") == if TruthyStr(m.toolCallId) then Some(JStr(m.toolCallId.value)) else None
    ensures Lookup(ConvertMessage(m), "tool_calls") ==
              if m.toolCalls.Some? && m.toolCalls.value != [] then Some(JArr(ConvertToolCalls(m.toolCalls.value))) else None
  {

    var role := [("role", JStr(m.role))];
    var c := OptField("content", m.content);
    var n := OptField("name", m.name);
    var t := OptField("tool_call_id", m.toolCallId);
    var f4 := ToolCallsField(m.toolCalls);
    assert ConvertMessage(m) == role + (c + (n + (t + f4)));
    assert Lookup(ConvertMessage(m), "tool_call_id") == Lookup(t, "tool_call_id") by {
      LookupSkip(role, c + (n + (t + f4)), "tool_call_id");
      LookupSkip(c, n + (t + f4), "tool_call_id");
      LookupSkip(n, t + f4, "tool_call_id");
      LookupConcat(t, f4, "tool_call_id");
      if !HasKey(t, "tool_call_id") {
        LookupMissing(f4, "tool_call_id");
      }
    }
    assert Lookup(ConvertMessage(m), "tool_calls") == Lookup(f4, "tool_calls") by {
      LookupSkip(role, c + (n + (t + f4)), "tool_calls");
      LookupSkip(c, n + (t + f4), "tool_calls");
      LookupSkip(n, t + f4, "tool_calls");
      LookupSkip(t, f4, "tool_calls");
    }
  }

  function ConvertMessages(ms: seq<ChatMessage>): (r: seq<Json>)
    ensures |r| == |ms|
    ensures forall i :: 0 <= i < |ms| ==> r[i] == JObj(ConvertMessage(ms[i]))
  {
    seq(|ms|, i requires 0 <= i < |ms| => JObj(ConvertMessage(ms[i])))
  }

  /** A converted tool call keeps id, type, name and arguments verbatim. */
  lemma ConvertToolCallVerbatim(tc: ToolCall)
    ensures var j := ConvertToolCall(tc);
            && Lookup(j.fields, "id") == Some(JStr(tc.id))
            && Lookup(j.fields, "type") == Some(JStr(tc.typ))
            && Lookup(j.fields, "function") == Some(JObj([("name", JStr(tc.fn.name)), ("arguments", JStr(tc.fn.arguments))]))
  {
    var f := ConvertToolCall(tc).fields;
    assert f[0].0 != "type" && f[0].0 != "function" && f[1].0 != "function";
    assert Lookup(f, "type") == Lookup(f[1..], "type");
    assert Lookup(f, "function") == Lookup(f[1..], "function") == Lookup(f[1..][1..], "function");
  }

  // ---------------------------------------------------------------------------
  // Response mapping (function-calling branch)

  /** The first line of the `ValidationError` Pydantic raises when `n`
      fields of `model` fail. */
  function ValidationError(model: string, n: nat): string {
    NatToString(n) + " validation error" + (if n == 1 then "" else "s") + " for " + model
  }

  /** One failing field, or none. */
  function Bad<T>(o: Option<T>): nat {
    if o.None? then 1 else 0
  }

  /** A Pydantic `str` field accepts a string and nothing else. */
  function AsStr(j: Json): (r: Option<string>)
    ensures r.Some? <==> j.JStr?
    ensures r.Some? ==> j == JStr(r.value)
  {
    if j.JStr? then Some(j.s) else None
  }

  /** A Pydantic `int` field in lax mode: an int, a bool, a float without
      fractional part, or a string that Pydantic's integer parser `strInt`
      accepts. */
  function AsInt(j: Json, strInt: string -> Option<int>): (r: Option<int>)
    ensures j.JInt? ==> r == Some(j.i)
    ensures j.JBool? ==> r == Some(if j.b then 1 else 0)
    ensures j.JFloat? ==> (r.Some? <==> j.r == j.r.Floor as real) && (r.Some? ==> r.value as real == j.r)
    ensures j.JStr? ==> r == strInt(j.s)
    ensures j.JNull? || j.JArr? || j.JObj? ==> r.None?
  {
    match j
    case JInt(i) => Some(i)
    case JBool(b) => Some(if b then 1 else 0)
    case JFloat(x) => if x == x.Floor as real then Some(x.Floor) else None
    case JStr(s) => strInt(s)
    case _ => None
  }

  /** `ToolCall(id=tc["id"], type=tc["type"], function=FunctionCall(...))`:
      the five lookups in the order Python evaluates them, then the
      validation of `FunctionCall` before that of `ToolCall`. */
  function MapToolCall(tc: Json): (r: Result<ToolCall, string>)
    ensures r.Ok? ==> Index(tc, "id") == Ok(JStr(r.value.id))
    ensures r.Ok? ==> Index(tc, "type") == Ok(JStr(r.value.typ))
    ensures r.Ok? ==> Index(tc, "function").Ok?
                      && Index(Index(tc, "function").value, "name") == Ok(JStr(r.value.fn.name))
                      && Index(Index(tc, "function").value, "arguments") == Ok(JStr(r.value.fn.arguments))
    ensures tc.JStr? ==> r == Err("string indices must be integers, not 'str'")
  {
    var id :- Index(tc, "id");
    var typ :- Index(tc, "type");
    var fn :- Index(tc, "function");
    var name :- Index(fn, "name");
    var arguments :- Index(fn, "arguments");
    var fnBad := Bad(AsStr(name)) + Bad(AsStr(arguments));
    if fnBad > 0 then Err(ValidationError("FunctionCall", fnBad))
    else
      var callBad := Bad(AsStr(id)) + Bad(AsStr(typ));
      if callBad > 0 then Err(ValidationError("ToolCall", callBad))
      else Ok(ToolCall(id.s, typ.s, FunctionCall(name.s, arguments.s)))
  }

  /** Each upstream tool call becomes exactly one `ToolCall`, in order. */
  function MapToolCalls(tcs: seq<Json>): (r: Result<seq<ToolCall>, string>)
    ensures r.Ok? ==> |r.value| == |tcs|
    ensures r.Ok? ==> forall i :: 0 <= i < |tcs| ==> MapToolCall(tcs[i]) == Ok(r.value[i])
  {
    if tcs == [] then Ok([])
    else
      var first :- MapToolCall(tcs[0]);
      var rest :- MapToolCalls(tcs[1..]);
      Ok([first] + rest)
  }

  /** The `tool_calls` loop: an absent key leaves `tool_calls` unset; any
      other value is iterated, so an empty string or dict gives `[]`. */
  function ToolCallsOf(message: seq<(string, Json)>): (r: Result<Option<seq<ToolCall>>, string>)
    ensures r.Ok? ==> (r.value.None? <==> Lookup(message, "tool_calls").None?)
    ensures r.Ok? && r.value.Some? ==>
              (PyIter(Lookup(message, "tool_calls").value).Ok?
               && MapToolCalls(PyIter(Lookup(message, "tool_calls").value).value) == Ok(r.value.value))
  {
    match Lookup(message, "tool_calls")
    case None => Ok(None)
    case Some(v) =>
      var tcs :- PyIter(v);
      var mapped :- MapToolCalls(tcs);
      Ok(Some(mapped))
  }

  /** `response_choice["message"]`, its `tool_calls` and `finish_reason`:
      the message keeps the upstream role, content and tool calls. */
  function MapChoice(choice: Json): (r: Result<(ChatMessage, string), string>)
    ensures r.Ok? ==> choice.JObj? && Index(choice, "message").Ok? && Index(choice, "message").value.JObj?
    ensures r.Ok? ==> var m := Index(choice, "message").value.fields;
                      && Lookup(m, "role") == Some(JStr(r.value.0.role))
                      && Lookup(m, "content").GetOr(JNull) == OptStr(r.value.0.content)
                      && ToolCallsOf(m) == Ok(r.value.0.toolCalls)
    ensures r.Ok? ==> Lookup(choice.fields, "finish_reason").GetOr(JStr("stop")) == JStr(r.value.1)
    ensures r.Ok? ==> r.value.0.name.None? && r.value.0.toolCallId.None?
  {
    var message :- Index(choice, "message");
    var role :- Index(message, "role");
    var content := Lookup(message.fields, "content").GetOr(JNull);
    var messageBad := Bad(AsStr(role)) + (if content == JNull || content.JStr? then 0 else 1);
    if messageBad > 0 then Err(ValidationError("ChatMessage", messageBad))
    else
      var calls :- ToolCallsOf(message.fields);
      var finish := Lookup(choice.fields, "finish_reason").GetOr(JStr("stop"));
      if !finish.JStr? then Err(ValidationError("ChatCompletionChoice", 1))
      else Ok((ChatMessage(role.s, if content.JStr? then Some(content.s) else None, None, None, calls), finish.s))
  }

  /** A choice whose message is well formed, with a `tool_calls` value that
      is empty (a list, a string or a dict), maps to an empty call list. */
  lemma EmptyToolCallsGiveEmptyList(choice: seq<(string, Json)>, message: seq<(string, Json)>)
    requires Lookup(choice, "message") == Some(JObj(message))
    requires Lookup(message, "role").Some? && Lookup(message, "role").value.JStr?
    requires Lookup(message, "content").GetOr(JNull) == JNull || Lookup(message, "content").value.JStr?
    requires Lookup(choice, "finish_reason").GetOr(JStr("stop")).JStr?
    requires Lookup(message, "tool_calls").Some? && PyLen(Lookup(message, "tool_calls").value) == Ok(0)
    ensures MapChoice(JObj(choice)).Ok? && MapChoice(JObj(choice)).value.0.toolCalls == Some([])
  {
    var v := Lookup(message, "tool_calls").value;
    assert PyIter(v) == Ok([]);
    assert ToolCallsOf(message) == Ok(Some([]));
  }

  /** A non-empty string or dict in `tool_calls` is iterated into strings,
      and indexing a string with `"id"` fails. */
  lemma ScalarToolCallsFail(choice: seq<(string, Json)>, message: seq<(string, Json)>)
    requires Lookup(choice, "message") == Some(JObj(message))
    requires Lookup(message, "role").Some? && Lookup(message, "role").value.JStr?
    requires Lookup(message, "content").GetOr(JNull) == JNull || Lookup(message, "content").value.JStr?
    requires Lookup(message, "tool_calls").Some?
    requires var v := Lookup(message, "tool_calls").value;
             (v.JStr? && v.s != "") || (v.JObj? && v.fields != [])
    ensures MapChoice(JObj(choice)) == Err("string indices must be integers, not 'str'")
  {
    var v := Lookup(message, "tool_calls").value;
    var tcs := PyIter(v).value;
    assert tcs[0].JStr?;
    assert MapToolCall(tcs[0]).Err?;
    assert MapToolCalls(tcs) == Err("string indices must be integers, not 'str'");
    assert ToolCallsOf(message) == Err("string indices must be integers, not 'str'");
  }

  /** `result["usage"]`, copied field by field through `ChatCompletionUsage`. */
  function MapUsage(result: Json, strInt: string -> Option<int>): (r: Result<Usage, string>)
    ensures r.Ok? ==> Index(result, "usage").Ok?
    ensures r.Ok? ==> var u := Index(result, "usage").value;
                      && Index(u, "prompt_tokens").Ok? && AsInt(Index(u, "prompt_tokens").value, strInt) == Some(r.value.promptTokens)
                      && Index(u, "completion_tokens").Ok? && AsInt(Index(u, "completion_tokens").value, strInt) == Some(r.value.completionTokens)
                      && Index(u, "total_tokens").Ok? && AsInt(Index(u, "total_tokens").value, strInt) == Some(r.value.totalTokens)
    ensures (Index(result, "usage").Ok? && var u := Index(result, "usage").value;
             Index(u, "prompt_tokens").Ok? && Index(u, "completion_tokens").Ok? && Index(u, "total_tokens").Ok?
             && AsInt(Index(u, "prompt_tokens").value, strInt).Some?
             && AsInt(Index(u, "completion_tokens").value, strInt).Some?
             && AsInt(Index(u, "total_tokens").value, strInt).Some?) ==> r.Ok?
  {
    var u :- Index(result, "usage");
    var p :- Index(u, "prompt_tokens");
    var c :- Index(u, "completion_tokens");
    var t :- Index(u, "total_tokens");
    var bad := Bad(AsInt(p, strInt)) + Bad(AsInt(c, strInt)) + Bad(AsInt(t, strInt));
    if bad > 0 then Err(ValidationError("ChatCompletionUsage", bad))
    else Ok(Usage(AsInt(p, strInt).value, AsInt(c, strInt).value, AsInt(t, strInt).value))
  }

  /** `result["choices"][0]`: the head of a list, the first character of a
      string; a dict has no key `0`. */
  function FirstChoice(result: Json): (r: Result<Json, string>)
    ensures r.Ok? <==> Index(result, "choices").Ok? && PyFirst(Index(result, "choices").value).Ok?
    ensures (Index(result, "choices").Ok? && Index(result, "choices").value.JArr?
             && |Index(result, "choices").value.items| > 0) ==> r == Ok(Index(result, "choices").value.items[0])
    ensures Index(result, "choices").Ok? && Index(result, "choices").value.JObj? ==> r == Err("0")
  {
    var choices :- Index(result, "choices");
    PyFirst(choices)
  }

  /** The `chat.completion` built from the agent's raw result: only the first
      choice is read, and the usage block is copied. */
  function MapResponse(result: Json, id: string, created: int, model: string,
                       strInt: string -> Option<int>): (r: Result<Completion, string>)
    ensures r.Ok? <==> FirstChoice(result).Ok? && MapChoice(FirstChoice(result).value).Ok? && MapUsage(result, strInt).Ok?
    ensures r.Ok? ==> var (msg, finish) := MapChoice(FirstChoice(result).value).value;
                      r.value == Completion(id, CompletionObject, created, model, [Choice(0, msg, finish)], MapUsage(result, strInt).value)
  {
    var choice :- FirstChoice(result);
    var mapped :- MapChoice(choice);
    var usage :- MapUsage(result, strInt);
    Ok(Completion(id, CompletionObject, created, model, [Choice(0, mapped.0, mapped.1)], usage))
  }

  /** Only `choices[0]` and `usage` are read: two results that agree on those
      map to the same completion, whatever the other choices say. */
  lemma MapResponseReadsFirstChoiceOnly(a: seq<(string, Json)>, b: seq<(string, Json)>, c: Json,
                                        rest1: seq<Json>, rest2: seq<Json>, id: string, created: int, model: string,
                                        strInt: string -> Option<int>)
    requires Lookup(a, "choices") == Some(JArr([c] + rest1))
    requires Lookup(b, "choices") == Some(JArr([c] + rest2))
    requires Lookup(a, "usage") == Lookup(b, "usage")
    ensures MapResponse(JObj(a), id, created, model, strInt) == MapResponse(JObj(b), id, created, model, strInt)
  {
    assert FirstChoice(JObj(a)) == Ok(c);
    assert FirstChoice(JObj(b)) == Ok(c);
    assert Index(JObj(a), "usage") == Index(JObj(b), "usage");
    MapUsageReadsUsage(JObj(a), JObj(b), strInt);
    MapResponseDeterminedBy(JObj(a), JObj(b), id, created, model, strInt);
  }

  lemma MapUsageReadsUsage(r1: Json, r2: Json, strInt: string -> Option<int>)
    requires Index(r1, "usage") == Index(r2, "usage")
    ensures MapUsage(r1, strInt) == MapUsage(r2, strInt)
  {
  }

  lemma MapResponseDeterminedBy(r1: Json, r2: Json, id: string, created: int, model: string,
                                strInt: string -> Option<int>)
    requires FirstChoice(r1) == FirstChoice(r2) && MapUsage(r1, strInt) == MapUsage(r2, strInt)
    ensures MapResponse(r1, id, created, model, strInt) == MapResponse(r2, id, created, model, strInt)
  {
  }

  // ---------------------------------------------------------------------------
  // Re-chunking stream (stream_chat_completion)

  function RoleChunk(id: string, model: string, created: int): StreamEvent {
    Chunk(StreamChunk(id, created, model, RoleDelta("assistant"), None, None))
  }

  /** The chunk for character `i` of `reply`; the last one carries `"stop"`. */
  function CharChunk(reply: string, i: nat, id: string, model: string, clock: nat -> int): StreamEvent
    requires i < |reply|
  {
    Chunk(StreamChunk(id, clock(i + 1), model, ContentDelta([reply[i]]),
                      if i < |reply| - 1 then None else Some("stop"), None))
  }

  /** The events of a successful re-chunked reply. `clock(k)` is the time read
      when chunk `k` is built; every chunk reads the clock again. */
  function RechunkEvents(reply: string, id: string, model: string, clock: nat -> int): (evs: seq<StreamEvent>)
    ensures |evs| == |reply| + 2
    ensures evs[0] == RoleChunk(id, model, clock(0))
    ensures evs[|evs| - 1] == Done
    ensures forall i :: 0 <= i < |reply| ==>
              && evs[i + 1].Chunk? && evs[i + 1].chunk.id == id && evs[i + 1].chunk.delta == ContentDelta([reply[i]])
              && (evs[i + 1].chunk.finishReason.Some? <==> i == |reply| - 1)
    ensures |reply| > 0 ==> evs[|reply|].Chunk? && evs[|reply|].chunk.finishReason == Some("stop")
  {
    [RoleChunk(id, model, clock(0))]
    + seq(|reply|, i requires 0 <= i < |reply| => CharChunk(reply, i, id, model, clock))
    + [Done]
  }

  /** Text carried by the content deltas of a stream, in order. */
  function StreamText(evs: seq<StreamEvent>): string
  {
    if evs == [] then ""
    else
      var last := evs[|evs| - 1];
      StreamText(evs[..|evs| - 1]) + (if last.Chunk? && last.chunk.delta.ContentDelta? then last.chunk.delta.content else "")
  }

  /** Number of chunks that carry a finish reason. */
  function FinishCount(evs: seq<StreamEvent>): nat
  {
    if evs == [] then 0
    else FinishCount(evs[..|evs| - 1]) + (if evs[|evs| - 1].Chunk? && evs[|evs| - 1].chunk.finishReason.Some? then 1 else 0)
  }

  /** Appending one event adds its text and its finish reason. */
  lemma SnocFacts(evs: seq<StreamEvent>, e: StreamEvent)
    ensures StreamText(evs + [e]) == StreamText(evs) + (if e.Chunk? && e.chunk.delta.ContentDelta? then e.chunk.delta.content else "")
    ensures FinishCount(evs + [e]) == FinishCount(evs) + (if e.Chunk? && e.chunk.finishReason.Some? then 1 else 0)
  {
    assert (evs + [e])[..|evs|] == evs;
  }

  /** The generator loop itself: emit the role chunk, one chunk per character,
      then the `[DONE]` sentinel. */
  method ReChunk(reply: string, id: string, model: string, clock: nat -> int) returns (evs: seq<StreamEvent>)
    ensures evs == RechunkEvents(reply, id, model, clock)
    ensures StreamText(evs) == reply
    ensures FinishCount(evs) == if reply == "" then 0 else 1
  {
    evs := [RoleChunk(id, model, clock(0))];
    var i := 0;
    while i < |reply|
      invariant 0 <= i <= |reply|
      invariant |evs| == i + 1
      invariant evs[0] == RoleChunk(id, model, clock(0))
      invariant forall k :: 0 <= k < i ==> evs[k + 1] == CharChunk(reply, k, id, model, clock)
      invariant StreamText(evs) == reply[..i]
      invariant FinishCount(evs) == if i == |reply| && i > 0 then 1 else 0
    {
      var e := CharChunk(reply, i, id, model, clock);
      var next := evs + [e];
      SnocFacts(evs, e);
      assert reply[..i + 1] == reply[..i] + [reply[i]];
      evs := next;
      i := i + 1;
    }
    SnocFacts(evs, Done);
    RechunkComplete(reply, id, model, clock, evs);
    evs := evs + [Done];
  }

  /** The role chunk and the character chunks, closed by `[DONE]`, are the
      whole stream. */
  lemma RechunkComplete(reply: string, id: string, model: string, clock: nat -> int, evs: seq<StreamEvent>)
    requires |evs| == |reply| + 1 && evs[0] == RoleChunk(id, model, clock(0))
    requires forall k :: 0 <= k < |reply| ==> evs[k + 1] == CharChunk(reply, k, id, model, clock)
    ensures evs + [Done] == RechunkEvents(reply, id, model, clock)
  {
    var r := RechunkEvents(reply, id, model, clock);
    forall k | 0 <= k < |r| ensures (evs + [Done])[k] == r[k] {
      if 0 < k <= |reply| {
        assert evs[(k - 1) + 1] == CharChunk(reply, k - 1, id, model, clock);
      }
    }
  }

  /** The events of the re-chunking stream for one request. */
  function StreamChatCompletion(req: ChatCompletionRequest, id: string,
                                processMessage: string -> Result<string, string>,
                                clock: nat -> int): (evs: seq<StreamEvent>)
    ensures HasFunctions(req) ==> evs == [RawJson(JObj([("error", JStr(StreamingFunctionsRejected))]))]
    ensures Done in evs ==> evs[|evs| - 1] == Done && !HasFunctions(req)
    ensures !HasFunctions(req) && LastUserContent(req.messages) == "" ==>
              evs == [ErrorChunk(id, model := req.model, created := clock(0), message := HttpExceptionText(400, NoUserMessage))]
    ensures (!HasFunctions(req) && LastUserContent(req.messages) != ""
             && processMessage(LastUserContent(req.messages)).Ok?) ==>
              evs == RechunkEvents(processMessage(LastUserContent(req.messages)).value, id, req.model, clock)
    ensures (!HasFunctions(req) && LastUserContent(req.messages) != ""
             && processMessage(LastUserContent(req.messages)).Err?) ==>
              evs == [ErrorChunk(id, req.model, clock(0), processMessage(LastUserContent(req.messages)).error)]
  {
    if HasFunctions(req) then [RawJson(JObj([("error", JStr(StreamingFunctionsRejected))]))]
    else
      var user := LastUserContent(req.messages);
      if user == "" then [ErrorChunk(id, req.model, clock(0), HttpExceptionText(400, NoUserMessage))]
      else match processMessage(user)
        case Err(e) => [ErrorChunk(id, req.model, clock(0), e)]
        case Ok(reply) => RechunkEvents(reply, id, req.model, clock)
  }

  /** The `except` chunk: empty delta, finish reason `"error"`, and the message. */
  function ErrorChunk(id: string, model: string, created: int, message: string): StreamEvent {
    Chunk(StreamChunk(id, created, model, EmptyDelta, Some("error"), Some(message)))
  }

  // ---------------------------------------------------------------------------
  // Buffered path (create_chat_completion)

  /** Index of the last message with role `user`, if any. */
  function LastUserIndex(ms: seq<ChatMessage>): (r: Option<nat>)
    ensures r.Some? ==> r.value < |ms| && ms[r.value].role == "user"
    ensures r.Some? ==> forall j :: r.value < j < |ms| ==> ms[j].role != "user"
    ensures r.None? ==> forall j :: 0 <= j < |ms| ==> ms[j].role != "user"
  {
    if ms == [] then None
    else if ms[|ms| - 1].role == "user" then Some(|ms| - 1)
    else LastUserIndex(ms[..|ms| - 1])
  }

  /** `user_message` after the reversed scan; a missing content counts as empty. */
  function LastUserContent(ms: seq<ChatMessage>): string {
    match LastUserIndex(ms)
    case Some(i) => ms[i].content.GetOr("")
    case None => ""
  }

  /** `" ".join([msg.content or "" for msg in request.messages])`. */
  function PromptText(ms: seq<ChatMessage>): string {
    Join(seq(|ms|, i requires 0 <= i < |ms| => ms[i].content.GetOr("")), " ")
  }

  /** The usage of a buffered reply: the estimates of the joined prompt and of
      the reply, and their sum. */
  function EstimateUsage(ms: seq<ChatMessage>, reply: string): (u: Usage)
    ensures u.promptTokens == EstimateTokens(PromptText(ms)) && u.completionTokens == EstimateTokens(reply)
    ensures u.totalTokens == u.promptTokens + u.completionTokens
    ensures u.promptTokens >= 0 && u.completionTokens >= 0
    ensures reply == "" ==> u.completionTokens == 0
  {
    EstimateTokensClosedForm(PromptText(ms));
    EstimateTokensClosedForm(reply);
    var p := EstimateTokens(PromptText(ms));
    var c := EstimateTokens(reply);
    Usage(p, c, p + c)
  }

  /** `detail` of the 500 raised by the `except` around the whole handler. */
  function HandlerFailure(message: string): ApiResponse {
    HttpError(500, "处理请求时出错: " + message)
  }

  /** The arguments handed to `process_message_with_functions`: the flattened
      messages and the two translated lists, kept apart. */
  function FunctionCallingArgs(req: ChatCompletionRequest): (r: (seq<Json>, Option<seq<Json>>, Option<seq<Json>>))
    ensures r.0 == ConvertMessages(req.messages)
    ensures r.1 == LegacyFunctions(req) && r.2 == ModernTools(req)
  {
    (ConvertMessages(req.messages), LegacyFunctions(req), ModernTools(req))
  }

  /** `POST /v1/chat/completions`. */
  function CreateChatCompletion(
    req: ChatCompletionRequest, agentReady: bool, id: string, created: int,
    processMessage: string -> Result<string, string>,
    processWithFunctions: ((seq<Json>, Option<seq<Json>>, Option<seq<Json>>), ChatCompletionRequest) -> Result<Json, string>,
    clock: nat -> int, strInt: string -> Option<int>): (r: ApiResponse)
    ensures !agentReady ==> r == HttpError(500, "Chat agent 未初始化")
    ensures agentReady && !HasFunctions(req) && LastUserContent(req.messages) == "" ==>
              r == HttpError(500, "处理请求时出错: " + HttpExceptionText(400, NoUserMessage))
    ensures r.StreamBody? ==> agentReady && !HasFunctions(req) && req.stream == Some(true)
    ensures r.CompletionBody? && !HasFunctions(req) ==>
              r.completion.usage.totalTokens == r.completion.usage.promptTokens + r.completion.usage.completionTokens
    ensures r.CompletionBody? ==> |r.completion.choices| == 1 && r.completion.id == id && r.completion.created == created
    ensures agentReady && HasFunctions(req) ==>
              match processWithFunctions(FunctionCallingArgs(req), req)
              case Err(e) => r == HandlerFailure(e)
              case Ok(result) =>
                match MapResponse(result, id, created, req.model, strInt)
                case Ok(c) => r == CompletionBody(c)
                case Err(e) => r == HandlerFailure(e)
    ensures (agentReady && !HasFunctions(req) && LastUserContent(req.messages) != "" && req.stream == Some(true)) ==>
              r == StreamBody(StreamChatCompletion(req, id, processMessage, clock))
    ensures (agentReady && !HasFunctions(req) && LastUserContent(req.messages) != "" && req.stream != Some(true)) ==>
              match processMessage(LastUserContent(req.messages))
              case Err(e) => r == HandlerFailure(e)
              case Ok(reply) =>
                r == CompletionBody(Completion(id, CompletionObject, created, req.model,
                                               [Choice(0, ChatMessage("assistant", Some(reply), None, None, None), "stop")],
                                               EstimateUsage(req.messages, reply)))
  {
    if !agentReady then HttpError(500, "Chat agent 未初始化")
    else if HasFunctions(req) then
      match processWithFunctions(FunctionCallingArgs(req), req)
      case Err(e) => HandlerFailure(e)
      case Ok(result) =>
        (match MapResponse(result, id, created, req.model, strInt)
         case Ok(c) => CompletionBody(c)
         case Err(e) => HandlerFailure(e))
    else
      var user := LastUserContent(req.messages);
      if user == "" then HandlerFailure(HttpExceptionText(400, NoUserMessage))
      else if req.stream == Some(true) then StreamBody(StreamChatCompletion(req, id, processMessage, clock))
      else match processMessage(user)
        case Err(e) => HandlerFailure(e)
        case Ok(reply) =>
          CompletionBody(Completion(id, CompletionObject, created, req.model,
                                    [Choice(0, ChatMessage("assistant", Some(reply), None, None, None), "stop")],
                                    EstimateUsage(req.messages, reply)))
  }

  /** `completion_id = f"chatcmpl-{uuid.uuid4().hex[:8]}"`. */
  function CompletionId(hex: string): (id: string)
    requires |hex| == 32
    ensures |id| == 17 && StartsWith(id, "chatcmpl-") && id[9..] == hex[..8]
  {
    "chatcmpl-" + hex[..8]
  }
}

=== FILE: ordered_map.dfy ===
/** An insertion-ordered map: a JavaScript `Map`, or a Python `dict`.
    Re-setting a present key replaces its value in place; a new key goes to the end. */
module OrderedMap {
  import opened Wrappers

  datatype OMap<K(==,!new), V> = OMap(keys: seq<K>, values: map<K, V>)

  predicate Distinct<K(==,!new)>(ks: seq<K>) {
    forall i, j :: 0 <= i < j < |ks| ==> ks[i] != ks[j]
  }

  /** The order lists every key exactly once. */
  ghost predicate Valid<K(!new), V>(m: OMap<K, V>) {
    Distinct(m.keys) && (forall k :: k in m.values <==> k in m.keys)
  }

  function Empty<K(==,!new), V>(): (m: OMap<K, V>)
    ensures Valid(m) && m.keys == []
  {
    OMap([], map[])
  }

  function Get<K(==,!new), V>(m: OMap<K, V>, k: K): (r: Option<V>)
    ensures r.Some? <==> k in m.values
  {
    if k in m.values then Some(m.values[k]) else None
  }

  function Size<K(==,!new), V>(m: OMap<K, V>): nat {
    |m.keys|
  }

  /** `map.set(k, v)` / `d[k] = v`. */
  function Set<K(==,!new), V>(m: OMap<K, V>, k: K, v: V): (r: OMap<K, V>)
    ensures Valid(m) ==> Valid(r)
    ensures Get(r, k) == Some(v)
    ensures forall k' :: k' != k ==> Get(r, k') == Get(m, k')
    ensures Valid(m) && k in m.keys ==> r.keys == m.keys
    ensures Valid(m) && k !in m.keys ==> r.keys == m.keys + [k]
  {
    if k in m.values then OMap(m.keys, m.values[k := v])
    else OMap(m.keys + [k], m.values[k := v])
  }

  function RemoveKey<K(==,!new)>(ks: seq<K>, k: K): (r: seq<K>)
    ensures forall x :: x in r <==> x in ks && x != k
    ensures Distinct(ks) ==> Distinct(r)
    ensures k !in ks ==> r == ks
    ensures |r| <= |ks|
  {
    if ks == [] then []
    else if ks[0] == k then RemoveKey(ks[1..], k)
    else
      var rest := RemoveKey(ks[1..], k);
      assert Distinct(ks) ==> ks[0] !in ks[1..];
      [ks[0]] + rest
  }

  /** `map.delete(k)` / `del d[k]` (no error when absent). */
  function Remove<K(==,!new), V>(m: OMap<K, V>, k: K): (r: OMap<K, V>)
    ensures Valid(m) ==> Valid(r)
    ensures Get(r, k) == None
    ensures forall k' :: k' != k ==> Get(r, k') == Get(m, k')
    ensures Valid(m) && k !in m.keys ==> r == m
  {
    OMap(RemoveKey(m.keys, k), m.values - {k})
  }

  /** Size of a valid map after removing a present key drops by one. */
  lemma {:induction false} RemoveKeyLength<K(!new)>(ks: seq<K>, k: K)
    requires Distinct(ks) && k in ks
    ensures |RemoveKey(ks, k)| == |ks| - 1
  {
    if ks[0] != k {
      assert k in ks[1..];
      RemoveKeyLength(ks[1..], k);
    } else {
      assert k !in ks[1..];
    }
  }

  /** The entries in key order. */
  function Items<K(==,!new), V>(m: OMap<K, V>): (items: seq<(K, V)>)
    requires Valid(m)
    ensures |items| == |m.keys|
    ensures forall i :: 0 <= i < |items| ==> items[i] == (m.keys[i], m.values[m.keys[i]])
  {
    seq(|m.keys|, i requires 0 <= i < |m.keys| => (m.keys[i], m.values[m.keys[i]]))
  }
}

=== FILE: passthrough.dfy ===
/** `DirectAgent` of the backend: the request it sends upstream, the status
    handling, and the line filter that forwards the upstream's server-sent
    events. The network is replaced by its observable results: the status
    code, the error body, and the text pieces `aiter_text()` yields. Whether a
    payload is valid JSON (`json.loads` succeeds) is a parameter. */
module Passthrough {
  import opened Wrappers
  import opened Strings
  import opened Json
  import opened OrderedMap
  import opened Config

  // ---------------------------------------------------------------------------
  // Request construction

  /** The event that ends a stream. */
  const DoneFrame := "data: [DONE]\n\n"

  /** One forwarded event: `f"data: {data}\n\n"`. */
  function Frame(payload: string): string {
    "data: " + payload + "\n\n"
  }

  /** The keyword arguments that are not copied over the body. */
  predicate Reserved(key: string) {
    key in ["temperature", "max_tokens", "tool_choice"]
  }

  /** `for key, value in kwargs.items(): if key not in [...]: request_data[key] = value`. */
  function CopyExtras(body: OMap<string, Json>, kwargs: OMap<string, Json>, keys: seq<string>): (r: OMap<string, Json>)
    requires forall k :: k in keys ==> k in kwargs.values
    ensures Valid(body) ==> Valid(r)
    ensures forall k :: k in keys && !Reserved(k) ==> Get(r, k) == Get(kwargs, k)
    ensures forall k :: (k !in keys || Reserved(k)) ==> Get(r, k) == Get(body, k)
    ensures Valid(body) ==> body.keys <= r.keys
    ensures Valid(body) ==> forall k :: k in r.keys ==> k in body.keys || k in keys
  {
    if keys == [] then body
    else
      var k := keys[|keys| - 1];
      var before := CopyExtras(body, kwargs, keys[..|keys| - 1]);
      assert forall x :: x in keys[..|keys| - 1] ==> x in keys;
      if Reserved(k) then before else Set(before, k, kwargs.values[k])
  }

  predicate ToolsGiven(tools: Option<seq<Json>>) {
    tools.Some? && tools.value != []
  }

  const BaseKeys := ["model", "messages", "stream", "temperature", "max_tokens"]

  /** The dict literal that opens `request_data`. */
  function BaseBody(c: ModelConfig, messages: Json, stream: bool, kwargs: OMap<string, Json>): (b: OMap<string, Json>)
    ensures Valid(b) && b.keys == BaseKeys
    ensures Get(b, "model") == Some(JStr(c.model)) && Get(b, "messages") == Some(messages)
    ensures Get(b, "stream") == Some(JBool(stream))
    ensures Get(b, "temperature") == Some(Get(kwargs, "temperature").GetOr(JFloat(0.7)))
    ensures Get(b, "max_tokens") == Some(Get(kwargs, "max_tokens").GetOr(JInt(2000)))
    ensures forall k :: k !in BaseKeys ==> Get(b, k) == None
  {
    OMap(BaseKeys, map["model" := JStr(c.model), "messages" := messages, "stream" := JBool(stream),
                       "temperature" := Get(kwargs, "temperature").GetOr(JFloat(0.7)),
                       "max_tokens" := Get(kwargs, "max_tokens").GetOr(JInt(2000))])
  }

  /** `if tools: request_data["tools"] = tools; request_data["tool_choice"] = ...`. */
  function WithTools(b: OMap<string, Json>, tools: Option<seq<Json>>, kwargs: OMap<string, Json>): (r: OMap<string, Json>)
    requires Valid(b) && b.keys == BaseKeys
    ensures Valid(r) && BaseKeys <= r.keys
    ensures forall k :: k != "tools" && k != "tool_choice" ==> Get(r, k) == Get(b, k)
    ensures ToolsGiven(tools) ==> r.keys == BaseKeys + ["tools", "tool_choice"]
    ensures ToolsGiven(tools) ==> Get(r, "tools") == Some(JArr(tools.value))
    ensures ToolsGiven(tools) ==> Get(r, "tool_choice") == Some(Get(kwargs, "tool_choice").GetOr(JStr("auto")))
    ensures !ToolsGiven(tools) ==> r == b
  {
    if ToolsGiven(tools) then
      assert "tools" !in BaseKeys && "tool_choice" !in BaseKeys + ["tools"];
      var t := Set(b, "tools", JArr(tools.value));
      assert t.keys == BaseKeys + ["tools"];
      var r := Set(t, "tool_choice", Get(kwargs, "tool_choice").GetOr(JStr("auto")));
      assert r.keys == BaseKeys + ["tools", "tool_choice"];
      r
    else b
  }

  /** `request_data` as built in `stream_chat` (with `stream` true) and `chat`
      (with `stream` false). `messages` and `tools` are named parameters of
      those methods, so they never occur among the keyword arguments. */
  function RequestBody(c: ModelConfig, messages: Json, stream: bool, tools: Option<seq<Json>>,
                       kwargs: OMap<string, Json>): (r: OMap<string, Json>)
    requires Valid(kwargs)
    requires "messages" !in kwargs.keys && "tools" !in kwargs.keys
    ensures Valid(r)
    ensures BaseKeys <= r.keys
    ensures forall k :: k in kwargs.keys && !Reserved(k) ==> Get(r, k) == Get(kwargs, k)
    ensures forall k :: k in r.keys ==>
              k in BaseKeys || k in kwargs.keys || (ToolsGiven(tools) && k in ["tools", "tool_choice"])
  {
    var b := BaseBody(c, messages, stream, kwargs);
    var t := WithTools(b, tools, kwargs);
    var r := CopyExtras(t, kwargs, kwargs.keys);
    assert forall k :: k in kwargs.keys <==> k in kwargs.values;
    r
  }

  /** The values of the body: keyword arguments override `model` and `stream`
      (they are copied last), `temperature`, `max_tokens` and `tool_choice`
      only have defaults, and the tools are sent only when the list is non-empty. */
  lemma RequestBodyValues(c: ModelConfig, messages: Json, stream: bool, tools: Option<seq<Json>>,
                          kwargs: OMap<string, Json>)
    requires Valid(kwargs)
    requires "messages" !in kwargs.keys && "tools" !in kwargs.keys
    ensures var r := RequestBody(c, messages, stream, tools, kwargs);
            && Get(r, "messages") == Some(messages)
            && Get(r, "model") == Some(Get(kwargs, "model").GetOr(JStr(c.model)))
            && Get(r, "stream") == Some(Get(kwargs, "stream").GetOr(JBool(stream)))
            && Get(r, "temperature") == Some(Get(kwargs, "temperature").GetOr(JFloat(0.7)))
            && Get(r, "max_tokens") == Some(Get(kwargs, "max_tokens").GetOr(JInt(2000)))
  {
    var b := BaseBody(c, messages, stream, kwargs);
    var t := WithTools(b, tools, kwargs);
    assert !Reserved("model") && !Reserved("stream");
    assert Reserved("temperature") && Reserved("max_tokens");
    assert forall k :: k in kwargs.keys <==> k in kwargs.values;
  }

  lemma RequestBodyTools(c: ModelConfig, messages: Json, stream: bool, tools: Option<seq<Json>>,
                         kwargs: OMap<string, Json>)
    requires Valid(kwargs)
    requires "messages" !in kwargs.keys && "tools" !in kwargs.keys
    ensures var r := RequestBody(c, messages, stream, tools, kwargs);
            && (ToolsGiven(tools) ==> Get(r, "tools") == Some(JArr(tools.value)))
            && (ToolsGiven(tools) ==> Get(r, "tool_choice") == Some(Get(kwargs, "tool_choice").GetOr(JStr("auto"))))
            && (!ToolsGiven(tools) ==> Get(r, "tools") == None && Get(r, "tool_choice") == None)
  {
    var b := BaseBody(c, messages, stream, kwargs);
    var t := WithTools(b, tools, kwargs);
    assert Reserved("tool_choice");
    assert "tools" !in BaseKeys && "tool_choice" !in BaseKeys;
    assert !ToolsGiven(tools) ==> "tool_choice" !in kwargs.keys ==> Get(t, "tool_choice") == None;
  }

  /** The HTTP request of both methods. */
  datatype Request = Request(url: string, headers: seq<(string, string)>, body: OMap<string, Json>)

  function ChatRequest(c: ModelConfig, messages: Json, stream: bool, tools: Option<seq<Json>>,
                       kwargs: OMap<string, Json>): (r: Request)
    requires Valid(kwargs)
    requires "messages" !in kwargs.keys && "tools" !in kwargs.keys
    ensures r.url == c.baseUrl + "/chat/completions"
    ensures ("Authorization", "Bearer " + c.apiKey) in r.headers
    ensures ("Content-Type", "application/json") in r.headers
    ensures r.body == RequestBody(c, messages, stream, tools, kwargs)
  {
    Request(c.baseUrl + "/chat/completions",
            [("Content-Type", "application/json"), ("Authorization", "Bearer " + c.apiKey)],
            RequestBody(c, messages, stream, tools, kwargs))
  }

  /** With no keyword arguments and no tools the body is the five base keys,
      in order, with the stock values. */
  lemma PlainBody(c: ModelConfig, messages: Json, stream: bool)
    ensures var r := RequestBody(c, messages, stream, None, Empty());
            && r.keys == BaseKeys
            && Get(r, "model") == Some(JStr(c.model))
            && Get(r, "stream") == Some(JBool(stream))
            && Get(r, "temperature") == Some(JFloat(0.7))
            && Get(r, "max_tokens") == Some(JInt(2000))
  {
    var b := BaseBody(c, messages, stream, Empty());
    assert WithTools(b, None, Empty()) == b;
    assert CopyExtras(b, Empty(), []) == b;
  }

  // ---------------------------------------------------------------------------
  // Line filter of `stream_chat`

  /** The payload of one line: stripped, it must start with `data: ` (with the
      space), and the rest is stripped again. */
  function LinePayload(line: string): (p: Option<string>)
    ensures p.Some? <==> StartsWith(Strip(line, PyIsSpace), "data: ")
  {
    var l := Strip(line, PyIsSpace);
    if StartsWith(l, "data: ") then Some(Strip(l[6..], PyIsSpace)) else None
  }

  function OptSeq(p: Option<string>): seq<string> {
    if p.Some? then [p.value] else []
  }

  /** The outputs of `f` over `xs`, concatenated in order. */
  function FlatMap(xs: seq<string>, f: string -> seq<string>): seq<string> {
    if xs == [] then [] else FlatMap(xs[..|xs| - 1], f) + f(xs[|xs| - 1])
  }

  function LineOut(line: string): seq<string> {
    OptSeq(LinePayload(line))
  }

  /** One network read: skipped when blank, otherwise stripped and split on `\n`. */
  function ReadPayloads(raw: string): seq<string> {
    var s := Strip(raw, PyIsSpace);
    if s != "" then FlatMap(Split(s, '\n'), LineOut) else []
  }

  /** The payloads of all reads, in order. */
  function Payloads(texts: seq<string>): seq<string> {
    FlatMap(texts, ReadPayloads)
  }

  /** What the generator yields for a sequence of payloads: `[DONE]` ends it,
      an empty or invalid payload is skipped, a valid one is forwarded verbatim. */
  function Emit(ps: seq<string>, isJson: string -> bool): seq<string> {
    if ps == [] then []
    else if ps[0] == "[DONE]" then [DoneFrame]
    else (if ps[0] != "" && isJson(ps[0]) then [Frame(ps[0])] else []) + Emit(ps[1..], isJson)
  }

  lemma {:induction false} EmitConcat(a: seq<string>, b: seq<string>, isJson: string -> bool)
    ensures "[DONE]" !in a ==> Emit(a + b, isJson) == Emit(a, isJson) + Emit(b, isJson)
    ensures "[DONE]" in a ==> Emit(a + b, isJson) == Emit(a, isJson)
    decreases |a|
  {
    if a == [] {
      assert a + b == b;
    } else {
      assert (a + b)[0] == a[0];
      assert (a + b)[1..] == a[1..] + b;
      if a[0] != "[DONE]" {
        assert "[DONE]" in a <==> "[DONE]" in a[1..];
        EmitConcat(a[1..], b, isJson);
      }
    }
  }

  lemma {:induction false} FlatMapConcat(a: seq<string>, b: seq<string>, f: string -> seq<string>)
    ensures FlatMap(a + b, f) == FlatMap(a, f) + FlatMap(b, f)
    decreases |b|
  {
    if b == [] {
      assert a + b == a;
    } else {
      assert (a + b)[..|a + b| - 1] == a + b[..|b| - 1];
      FlatMapConcat(a, b[..|b| - 1], f);
    }
  }

  /** Reads are processed independently: the payloads of two runs of texts are
      the payloads of each, one after the other, so an event split across two
      texts is never put back together. */
  lemma PayloadsConcat(a: seq<string>, b: seq<string>)
    ensures Payloads(a + b) == Payloads(a) + Payloads(b)
  {
    FlatMapConcat(a, b, ReadPayloads);
  }

  // Reference: the payloads before the first `[DONE]`, the frames of the valid
  // ones, and the closing frame when `[DONE]` arrived.

  function TakeUntilDone(ps: seq<string>): (r: seq<string>)
    ensures "[DONE]" !in r
  {
    if ps == [] || ps[0] == "[DONE]" then [] else [ps[0]] + TakeUntilDone(ps[1..])
  }

  function Forwarded(ps: seq<string>, isJson: string -> bool): seq<string> {
    if ps == [] then []
    else (if ps[0] != "" && isJson(ps[0]) then [Frame(ps[0])] else []) + Forwarded(ps[1..], isJson)
  }

  /** The generator's output is the frames of the valid payloads before the
      first `[DONE]`, followed by the `[DONE]` event only when one arrived. */
  lemma {:induction false} EmitReference(ps: seq<string>, isJson: string -> bool)
    ensures Emit(ps, isJson) == Forwarded(TakeUntilDone(ps), isJson) + (if "[DONE]" in ps then [DoneFrame] else [])
  {
    if ps != [] && ps[0] != "[DONE]" {
      EmitReference(ps[1..], isJson);
      assert "[DONE]" in ps <==> "[DONE]" in ps[1..];
    }
  }

  lemma FrameInjective(p: string, q: string)
    ensures Frame(p) == Frame(q) ==> p == q
  {
    assert Frame(p)[6..|Frame(p)| - 2] == p;
    assert Frame(q)[6..|Frame(q)| - 2] == q;
  }

  lemma {:induction false} ForwardedFrames(ps: seq<string>, isJson: string -> bool)
    ensures DoneFrame !in Forwarded(ps, isJson) || "[DONE]" in ps
  {
    if ps != [] {
      ForwardedFrames(ps[1..], isJson);
      FrameInjective(ps[0], "[DONE]");
      assert DoneFrame == Frame("[DONE]");
    }
  }

  /** A stream that never receives `[DONE]` ends silently: no closing event is
      produced. When one is produced it is the last event. */
  lemma EndsSilently(ps: seq<string>, isJson: string -> bool)
    ensures DoneFrame in Emit(ps, isJson) <==> "[DONE]" in ps
    ensures "[DONE]" in ps ==> Emit(ps, isJson)[|Emit(ps, isJson)| - 1] == DoneFrame
  {
    EmitReference(ps, isJson);
    ForwardedFrames(TakeUntilDone(ps), isJson);
  }

  lemma FlatMapStep(xs: seq<string>, i: nat, f: string -> seq<string>)
    requires i < |xs|
    ensures FlatMap(xs[..i + 1], f) == FlatMap(xs[..i], f) + f(xs[i])
  {
    assert xs[..i + 1][..i] == xs[..i];
  }

  /** The `async for` loop of `stream_chat` over the texts of a 200 response. */
  method StreamFrames(texts: seq<string>, isJson: string -> bool) returns (out: seq<string>)
    ensures out == Emit(Payloads(texts), isJson)
  {
    out := [];
    var i := 0;
    while i < |texts|
      invariant 0 <= i <= |texts|
      invariant "[DONE]" !in Payloads(texts[..i])
      invariant out == Emit(Payloads(texts[..i]), isJson)
    {
      FlatMapStep(texts, i, ReadPayloads);
      EmitConcat(Payloads(texts[..i]), ReadPayloads(texts[i]), isJson);
      var stripped := Strip(texts[i], PyIsSpace);
      if stripped != "" {
        var frames, done := LineFrames(Split(stripped, '\n'), isJson);
        out := out + frames;
        if done {
          DoneEndsOutput(texts, i + 1, ReadPayloads, isJson);
          return;
        }
      }
      i := i + 1;
    }
    assert texts[..i] == texts;
  }

  /** Once `[DONE]` has been met, the remaining inputs add nothing. */
  lemma DoneEndsOutput(xs: seq<string>, n: nat, f: string -> seq<string>, isJson: string -> bool)
    requires n <= |xs| && "[DONE]" in FlatMap(xs[..n], f)
    ensures "[DONE]" in FlatMap(xs, f)
    ensures Emit(FlatMap(xs, f), isJson) == Emit(FlatMap(xs[..n], f), isJson)
  {
    FlatMapConcat(xs[..n], xs[n..], f);
    assert xs[..n] + xs[n..] == xs;
    EmitConcat(FlatMap(xs[..n], f), FlatMap(xs[n..], f), isJson);
  }

  /** One line's effect on the generator's output. */
  lemma EmitStep(ps: seq<string>, p: Option<string>, isJson: string -> bool)
    requires "[DONE]" !in ps
    ensures p == Some("[DONE]") ==> Emit(ps + OptSeq(p), isJson) == Emit(ps, isJson) + [DoneFrame]
    ensures p != Some("[DONE]") ==> "[DONE]" !in ps + OptSeq(p)
    ensures p.Some? && p.value != "[DONE]" && p.value != "" && isJson(p.value) ==>
              Emit(ps + OptSeq(p), isJson) == Emit(ps, isJson) + [Frame(p.value)]
    ensures p.None? || (p.value != "[DONE]" && (p.value == "" || !isJson(p.value))) ==>
              Emit(ps + OptSeq(p), isJson) == Emit(ps, isJson)
  {
    EmitConcat(ps, OptSeq(p), isJson);
  }

  /** The inner `for` loop over the lines of one read: `done` reports that
      `[DONE]` was met, which ends the whole generator. */
  method LineFrames(lines: seq<string>, isJson: string -> bool) returns (frames: seq<string>, done: bool)
    ensures frames == Emit(FlatMap(lines, LineOut), isJson)
    ensures done <==> "[DONE]" in FlatMap(lines, LineOut)
  {
    frames := [];
    var j := 0;
    while j < |lines|
      invariant 0 <= j <= |lines|
      invariant "[DONE]" !in FlatMap(lines[..j], LineOut)
      invariant frames == Emit(FlatMap(lines[..j], LineOut), isJson)
    {
      var payload := LinePayload(lines[j]);
      EmitStep(FlatMap(lines[..j], LineOut), payload, isJson);
      FlatMapStep(lines, j, LineOut);
      if payload.Some? {
        var data := payload.value;
        if data == "[DONE]" {
          frames := frames + [DoneFrame];
          DoneEndsOutput(lines, j + 1, LineOut, isJson);
          return frames, true;
        } else if data != "" {
          if isJson(data) {
            frames := frames + [Frame(data)];
          }
        }
      }
      j := j + 1;
    }
    assert lines[..j] == lines;
    done := false;
  }

  // ---------------------------------------------------------------------------
  // Status handling

  /** `Exception(f"API请求失败: {status} - {body}")`. */
  function StatusError(status: int, body: string): string {
    "API请求失败: " + IntToString(status) + " - " + body
  }

  /** `stream_chat`: a non-200 status raises before any event; otherwise the
      filtered events. The exception is re-raised unchanged, with no retry. */
  function StreamChat(status: int, errorBody: string, texts: seq<string>, isJson: string -> bool): (r: Result<seq<string>, string>)
    ensures r.Err? <==> status != 200
    ensures r.Err? ==> r.error == StatusError(status, errorBody)
    ensures r.Ok? ==> r.value == Emit(Payloads(texts), isJson)
  {
    if status != 200 then Err(StatusError(status, errorBody)) else Ok(Emit(Payloads(texts), isJson))
  }

  /** `chat` with its response-inspection logging taken as side-effect free:
      a 200 response is parsed and returned unchanged. */
  function Chat(status: int, text: string, parse: string -> Result<Json, string>): (r: Result<Json, string>)
    ensures status != 200 ==> r == Err(StatusError(status, text))
    ensures status == 200 ==> r == parse(text)
  {
    if status != 200 then Err(StatusError(status, text)) else parse(text)
  }

  // ---------------------------------------------------------------------------
  // The logging lines as written

  /** `content[:100]`: a dict cannot be sliced, since a slice is no key. */
  function SliceHead(j: Json): (r: Result<(), string>)
    ensures r.Ok? <==> j.JStr? || j.JArr?
  {
    if j.JStr? || j.JArr? then Ok(())
    else if j.JObj? then Err("unhashable type: 'slice'")
    else Err(NotSubscriptable(j))
  }

  /** Lines 188-190: the first choice's message, the length of its content
      and the preview; the message itself comes back. */
  function InspectContent(choice: Json): (r: Result<Json, string>)
    ensures r.Ok? <==> Index(choice, "message").Ok? && Index(choice, "message").value.JObj?
                       && ContentTolerated(Lookup(Index(choice, "message").value.fields, "content").GetOr(JStr("")))
    ensures r.Ok? ==> r.value == Index(choice, "message").value
  {
    var message :- Index(choice, "message");
    var content :- PyGet(message, "content", JStr(""));
    var _ :- PyLen(content);
    var _ :- SliceHead(content);
    Ok(message)
  }

  /** Lines 192-196: the count of `message["tool_calls"]` and the name of
      each call. */
  function InspectCalls(message: Json): (r: Result<(), string>)
    ensures message.JObj? ==> (r.Ok? <==> CallsTolerated(Lookup(message.fields, "tool_calls")))
  {
    var hasCalls :- PyIn("tool_calls", message);
    if !hasCalls then Ok(())
    else
      var calls :- Index(message, "tool_calls");
      match PyLen(calls)
      case Err(e) => Err(e)
      case Ok(_) => InspectToolCalls(PyIter(calls).value)
  }

  /** Lines 187-196 for the first choice. Without a `message` key the choice
      still has to be a dict for `choice.get("message", {})`, and `{}` holds
      no `tool_calls`. */
  function InspectChoice(choice: Json): (r: Result<(), string>)
    ensures r.Ok? <==> ChoiceTolerated(choice)
  {
    var hasMessage :- PyIn("message", choice);
    if !hasMessage then
      var _ :- PyGet(choice, "message", JObj([]));
      Ok(())
    else
      var message :- InspectContent(choice);
      InspectCalls(message)
  }

  /** Lines 185-196 of `chat` as written: the summary of the first choice.
      Every operator is Python's on the parsed body, so a body, a `choices`
      value or a choice of an unexpected shape raises. */
  function InspectAsWritten(result: Json): (r: Result<(), string>)
    ensures r.Ok? <==> Tolerated(result)
  {
    var hasChoices :- PyIn("choices", result);
    if !hasChoices then Ok(())
    else
      var choices :- Index(result, "choices");
      var n :- PyLen(choices);
      if n == 0 then Ok(())
      else
        var choice :- PyFirst(choices);
        InspectChoice(choice)
  }

  /** The bodies the summary gets through, stated shape by shape: a list or a
      string without `"choices"` in it, or a dict whose `choices` is empty or
      starts with a choice that `ChoiceTolerated` accepts. */
  predicate Tolerated(result: Json) {
    match result
    case JArr(items) => JStr("choices") !in items
    case JStr(s) => !Contains(s, "choices")
    case JObj(f) =>
      (match Lookup(f, "choices")
       case None => true
       case Some(JArr(items)) => items == [] || ChoiceTolerated(items[0])
       case Some(JStr(s)) => s == ""
       case Some(JObj(cs)) => cs == []
       case Some(_) => false)
    case _ => false
  }

  /** A choice is a dict; its message, when present, is a dict whose content
      is a string or a list and whose tool calls are empty or a list of dicts
      with a dict `function`. */
  predicate ChoiceTolerated(choice: Json) {
    && choice.JObj?
    && match Lookup(choice.fields, "message")
       case None => true
       case Some(m) =>
         && m.JObj?
         && ContentTolerated(Lookup(m.fields, "content").GetOr(JStr("")))
         && CallsTolerated(Lookup(m.fields, "tool_calls"))
  }

  predicate ContentTolerated(content: Json) {
    content.JStr? || content.JArr?
  }

  predicate CallsTolerated(calls: Option<Json>) {
    match calls
    case None => true
    case Some(JArr(tcs)) => forall i :: 0 <= i < |tcs| ==> CallTolerated(tcs[i])
    case Some(JStr(s)) => s == ""
    case Some(JObj(fs)) => fs == []
    case Some(_) => false
  }

  predicate CallTolerated(tc: Json) {
    tc.JObj? && Lookup(tc.fields, "function").GetOr(JObj([])).JObj?
  }

  /** `tool_call.get('function', {}).get('name', 'unknown')` for each call. */
  function InspectToolCalls(tcs: seq<Json>): (r: Result<(), string>)
    ensures r.Ok? <==> forall i :: 0 <= i < |tcs| ==> CallTolerated(tcs[i])
  {
    if tcs == [] then Ok(())
    else if !tcs[0].JObj? then Err(NoAttribute(tcs[0], "get"))
    else
      var f := Lookup(tcs[0].fields, "function").GetOr(JObj([]));
      if !f.JObj? then Err(NoAttribute(f, "get")) else InspectToolCalls(tcs[1..])
  }

  /** `chat` as written: an error raised by the logging is caught by the
      surrounding `except` and re-raised, so the caller gets an exception. */
  function ChatAsWritten(status: int, text: string, parse: string -> Result<Json, string>): (r: Result<Json, string>)
    ensures r.Ok? <==> Chat(status, text, parse).Ok? && Tolerated(Chat(status, text, parse).value)
    ensures r.Ok? ==> r == Chat(status, text, parse)
    ensures Chat(status, text, parse).Err? ==> r == Chat(status, text, parse)
  {
    var result :- Chat(status, text, parse);
    var _ :- InspectAsWritten(result);
    Ok(result)
  }

  /** The upstream reply to a tool call carries `"content": null`; as written,
      `len(None)` turns this successful reply into an exception. */
  lemma ToolCallReplyFailsAsWritten(text: string, parse: string -> Result<Json, string>)
    requires parse(text) == Ok(JObj([("choices", JArr([JObj([("message", JObj([("role", JStr("assistant")), ("content", JNull)]))])]))]))
    ensures ChatAsWritten(200, text, parse) == Err(NoLen(JNull))
    ensures Chat(200, text, parse).Ok?
  {
    var msg := [("role", JStr("assistant")), ("content", JNull)];
    assert msg[0].0 != "content";
    assert Lookup(msg, "content") == Lookup(msg[1..], "content") == Some(JNull);
    NullContentStopsSummary(msg);
  }

  /** A body whose one choice has a message with null content fails at the
      `len()` of line 189. */
  lemma NullContentStopsSummary(msg: seq<(string, Json)>)
    requires Lookup(msg, "content") == Some(JNull)
    ensures InspectAsWritten(JObj([("choices", JArr([JObj([("message", JObj(msg))])]))])) == Err(NoLen(JNull))
  {
    var choice := [("message", JObj(msg))];
    var result := [("choices", JArr([JObj(choice)]))];
    assert HasKey(choice, "message") by { assert choice[0].0 == "message"; }
    assert HasKey(result, "choices") by { assert result[0].0 == "choices"; }
    assert InspectContent(JObj(choice)) == Err(NoLen(JNull));
    assert PyFirst(JArr([JObj(choice)])) == Ok(JObj(choice));
  }

  /** Line 52 (and 152) as written: the preview of the last message calls
      `.get` on it and slices its `content` (default `""`), which fails for a
      message that is not a dict and for a content that is neither a string
      nor a list. */
  function PreviewAsWritten(messages: seq<Json>): (r: Result<(), string>)
    ensures r.Ok? <==> messages == []
                       || (messages[|messages| - 1].JObj?
                           && ContentTolerated(Lookup(messages[|messages| - 1].fields, "content").GetOr(JStr(""))))
  {
    if messages == [] then Ok(())
    else
      var last := messages[|messages| - 1];
      // `.get('role', 'unknown')` comes first and fails on the same values.
      var content :- PyGet(last, "content", JStr(""));
      SliceHead(content)
  }

  /** `stream_chat` as written: the preview runs before the request, so its
      error is the whole outcome. */
  function StreamChatAsWritten(messages: seq<Json>, status: int, errorBody: string, texts: seq<string>,
                               isJson: string -> bool): (r: Result<seq<string>, string>)
    ensures PreviewAsWritten(messages).Ok? ==> r == StreamChat(status, errorBody, texts, isJson)
    ensures PreviewAsWritten(messages).Err? ==> r == Err(PreviewAsWritten(messages).error)
  {
    var _ :- PreviewAsWritten(messages);
    StreamChat(status, errorBody, texts, isJson)
  }

  /** A conversation ending in an assistant tool-call message (content null)
      fails before any request is sent. */
  lemma NullLastContentFailsAsWritten(texts: seq<string>, isJson: string -> bool)
    ensures StreamChatAsWritten([JObj([("role", JStr("assistant")), ("content", JNull)])], 200, "", texts, isJson)
            == Err(NotSubscriptable(JNull))
    ensures StreamChat(200, "", texts, isJson).Ok?
  {
    var msg := [("role", JStr("assistant")), ("content", JNull)];
    assert msg[0].0 != "content";
    assert Lookup(msg, "content") == Lookup(msg[1..], "content") == Some(JNull);
    assert PreviewAsWritten([JObj(msg)]) == Err(NotSubscriptable(JNull));
  }
}

=== FILE: random_tool.dfy ===
/** The two random tools (`frontend/src/tools/random.ts`). `Math.random()` is
    the parameter `random`: its k-th call, a real in [0, 1). `String(x)` of a
    number is `numStr`, and the `simple` UUID (a base-36 timestamp and a
    random part) of the i-th result is `simple(i)`. Numbers are reals; the
    `count` loop `for (i = 0; i < count; i++)` runs once per integer below
    `count`, so a fractional count is rounded up. */
module RandomTool {
  import opened Wrappers
  import opened Strings
  import opened Json

  /** A value `Math.random()` can return. */
  type Unit = r: real | 0.0 <= r < 1.0

  const RangeError := "错误：最小值必须小于最大值"
  const CountError := "错误：生成数量必须在1到100之间"
  const UuidCountError := "错误：生成数量必须在1到10之间"

  /** How many times `for (let i = 0; i < count; i++)` runs. */
  function Runs(count: real): (n: nat)
    ensures count <= 0.0 ==> n == 0
    ensures count > 0.0 ==> (n - 1) as real < count <= n as real
  {
    if count <= 0.0 then 0
    else
      var f := count.Floor;
      if f as real == count then f else f + 1
  }

  /** `Math.round(x)`: to the nearest integer, halves upwards. */
  function Round(x: real): int {
    (x + 0.5).Floor
  }

  /** `a * b`, kept as a term of its own so the solver does not rewrite
      the product. */
  function Mul(a: real, b: real): real {
    a * b
  }

  /** `Math.random() * (max - min) + min`. */
  function Scaled(d: Unit, min: real, max: real): real {
    Mul(d, max - min) + min
  }

  /** One result: `Math.floor(random)` for integers, otherwise `random`
      rounded to two decimals. */
  function Pick(integer: bool, min: real, max: real, d: Unit): real {
    var x := Scaled(d, min, max);
    if integer then x.Floor as real else Round(x * 100.0) as real / 100.0
  }

  /** The loop of `randomTool.execute`: the i-th result is made from the
      i-th draw. */
  method Generate(integer: bool, min: real, max: real, count: real, random: nat -> Unit)
    returns (results: seq<real>)
    ensures |results| == Runs(count)
    ensures forall i :: 0 <= i < |results| ==> results[i] == Pick(integer, min, max, random(i))
  {
    results := [];
    var i := 0;
    while (i as real) < count
      invariant 0 <= i <= Runs(count)
      invariant |results| == i
      invariant forall j :: 0 <= j < i ==> results[j] == Pick(integer, min, max, random(j))
      decreases Runs(count) - i
    {
      results := results + [Pick(integer, min, max, random(i))];
      i := i + 1;
    }
  }

  /** The arguments of `randomTool.execute`; `None` is `undefined`. */
  datatype RandomArgs = RandomArgs(min: real, max: real, count: Option<real>, kind: Option<Json>)

  function KindName(integer: bool): string {
    if integer then "整数" else "浮点数"
  }

  /** `results.map(String)`. */
  function Texts(xs: seq<real>, numStr: real -> string): (ts: seq<string>)
    ensures |ts| == |xs| && forall i :: 0 <= i < |xs| ==> ts[i] == numStr(xs[i])
  {
    seq(|xs|, i requires 0 <= i < |xs| => numStr(xs[i]))
  }

  /** `randomTool.execute`: the range is checked before the count; one
      result is reported alone, several as a comma-separated list. */
  method RandomNumbers(args: RandomArgs, random: nat -> Unit, numStr: real -> string)
    returns (text: string, results: seq<real>)
    ensures args.min >= args.max ==> text == RangeError && results == []
    ensures var count := args.count.GetOr(1.0);
            (args.min < args.max && (count < 1.0 || count > 100.0)) ==> text == CountError && results == []
    ensures var count := args.count.GetOr(1.0);
            var integer := args.kind.GetOr(JStr("integer")) == JStr("integer");
            (args.min < args.max && 1.0 <= count <= 100.0) ==>
              && |results| == Runs(count)
              && (forall i :: 0 <= i < |results| ==> results[i] == Pick(integer, args.min, args.max, random(i)))
              && (count == 1.0 ==> text == "生成的随机" + KindName(integer) + "：" + numStr(results[0]))
              && (count != 1.0 ==> text == "生成的" + numStr(count) + "个随机" + KindName(integer) + "："
                                            + Join(Texts(results, numStr), ", "))
  {
    var count := args.count.GetOr(1.0);
    var integer := args.kind.GetOr(JStr("integer")) == JStr("integer");
    if args.min >= args.max {
      return RangeError, [];
    }
    if count < 1.0 || count > 100.0 {
      return CountError, [];
    }
    results := Generate(integer, args.min, args.max, count, random);
    if count == 1.0 {
      text := "生成的随机" + KindName(integer) + "：" + numStr(results[0]);
    } else {
      text := "生成的" + numStr(count) + "个随机" + KindName(integer) + "：" + Join(Texts(results, numStr), ", ");
    }
  }

  /** The draw scaled to the range lies in the range. */
  lemma ScaledInRange(min: real, max: real, d: Unit)
    requires min < max
    ensures min <= Scaled(d, min, max) < max
  {
    Scale(d, max - min);
  }

  /** A fraction of a positive width is below the width. */
  lemma Scale(d: Unit, w: real)
    requires w > 0.0
    ensures 0.0 <= Mul(d, w) < w
  {
  }

  /** An integer result is a whole number in the range, at most one below
      `min` when `min` is fractional; a float result is within half a
      hundredth of a number in the range. */
  lemma PickInRange(integer: bool, min: real, max: real, d: Unit)
    requires min < max
    ensures var p := Pick(integer, min, max, d);
            integer ==> p == p.Floor as real && min - 1.0 < p < max
    ensures var p := Pick(integer, min, max, d);
            !integer ==> min - 0.005 <= p < max + 0.005
  {
    ScaledInRange(min, max, d);
    var x := Scaled(d, min, max);
    var k := Round(x * 100.0);
    assert x * 100.0 - 0.5 < k as real <= x * 100.0 + 0.5;
  }

  /** Every result of a successful call lies in the requested range, and an
      integer count asks for exactly that many results. */
  lemma ResultsInRange(args: RandomArgs, random: nat -> Unit, numStr: real -> string, results: seq<real>, i: nat)
    requires args.min < args.max
    requires var count := args.count.GetOr(1.0); 1.0 <= count <= 100.0
    requires |results| == Runs(args.count.GetOr(1.0))
    requires var integer := args.kind.GetOr(JStr("integer")) == JStr("integer");
             forall j :: 0 <= j < |results| ==> results[j] == Pick(integer, args.min, args.max, random(j))
    requires i < |results|
    ensures args.kind.GetOr(JStr("integer")) == JStr("integer") ==>
              results[i] == results[i].Floor as real && args.min - 1.0 < results[i] < args.max
    ensures args.kind.GetOr(JStr("integer")) != JStr("integer") ==>
              args.min - 0.005 <= results[i] < args.max + 0.005
    ensures args.count.GetOr(1.0) == args.count.GetOr(1.0).Floor as real ==> |results| == args.count.GetOr(1.0).Floor
  {
    PickInRange(args.kind.GetOr(JStr("integer")) == JStr("integer"), args.min, args.max, random(i));
  }

  /** `Math.random() * 16 | 0`: a nibble. */
  function Nibble(d: Unit): (n: int)
    ensures 0 <= n < 16
  {
    (d * 16.0).Floor
  }

  const HexDigits := "0123456789abcdef"

  /** `v.toString(16)` of a nibble. */
  function Hex(v: int): char
    requires 0 <= v < 16
  {
    HexDigits[v]
  }

  const V4Template := "xxxxxxxx-xxxx-4xxx-yxxx-xxxxxxxxxxxx"

  /** `template.replace(/[xy]/g, ...)`: every `x` becomes a random nibble
      and every `y` a nibble with its top bits `10` (`r & 0x3 | 0x8`, which is
      `r % 4 + 8` for a nibble); the k-th draw serves the first `x` or `y`. */
  function Fill(t: string, random: nat -> Unit, k: nat): (u: string)
    decreases |t|
  {
    if |t| == 0 then ""
    else if t[0] == 'x' then [Hex(Nibble(random(k)))] + Fill(t[1..], random, k + 1)
    else if t[0] == 'y' then [Hex(Nibble(random(k)) % 4 + 8)] + Fill(t[1..], random, k + 1)
    else [t[0]] + Fill(t[1..], random, k)
  }

  /** Filling keeps the length and every other character, puts a lower-case
      hex digit at each `x` and one of `8`, `9`, `a`, `b` at each `y`. */
  lemma {:induction false} FillShape(t: string, random: nat -> Unit, k: nat)
    ensures |Fill(t, random, k)| == |t|
    ensures forall i :: 0 <= i < |t| && t[i] == 'x' ==> IsLowerHex(Fill(t, random, k)[i])
    ensures forall i :: 0 <= i < |t| && t[i] == 'y' ==> Fill(t, random, k)[i] in "89ab"
    ensures forall i :: 0 <= i < |t| && t[i] != 'x' && t[i] != 'y' ==> Fill(t, random, k)[i] == t[i]
  {
    if |t| > 0 {
      var k' := if t[0] in "xy" then k + 1 else k;
      FillShape(t[1..], random, k');
      var u := Fill(t, random, k);
      assert u[1..] == Fill(t[1..], random, k');
      forall i | 1 <= i < |t|
        ensures u[i] == Fill(t[1..], random, k')[i - 1] && t[i] == t[1..][i - 1]
      {
      }
      if t[0] == 'y' {
        var v := Nibble(random(k)) % 4 + 8;
        assert HexDigits[v] in "89ab" by {
          assert v in {8, 9, 10, 11};
        }
      }
    }
  }

  /** The characters of the template that are `x`. */
  predicate XSlot(i: int) {
    0 <= i < 36 && i !in {8, 13, 14, 18, 19, 23}
  }

  lemma TemplateSlots()
    ensures |V4Template| == 36
    ensures forall i :: XSlot(i) ==> V4Template[i] == 'x'
    ensures V4Template[8] == '-' && V4Template[13] == '-' && V4Template[18] == '-' && V4Template[23] == '-'
    ensures V4Template[14] == '4' && V4Template[19] == 'y'
  {
    var x4 := "xxxx";
    assert V4Template == x4 + x4 + "-" + x4 + "-4xxx-yxxx-" + x4 + x4 + x4;
  }

  /** A v4 UUID has 36 characters, hyphens at 8, 13, 18 and 23, the version
      digit `4` at 14, the variant digit `8`, `9`, `a` or `b` at 19 and a
      lower-case hex digit everywhere else, whatever the draws. */
  lemma V4Shape(random: nat -> Unit, k: nat)
    ensures var u := Fill(V4Template, random, k);
            && |u| == 36
            && u[8] == '-' && u[13] == '-' && u[18] == '-' && u[23] == '-'
            && u[14] == '4' && u[19] in "89ab"
            && forall i :: XSlot(i) ==> IsLowerHex(u[i])
  {
    TemplateSlots();
    FillShape(V4Template, random, k);
  }

  /** A v4 UUID uses one draw per `x` or `y`: 31 draws. */
  const DrawsPerUuid := 31

  /** The i-th result of the `uuidTool` loop. */
  function Uuid(v4: bool, random: nat -> Unit, simple: nat -> string, i: nat): string {
    if v4 then Fill(V4Template, random, DrawsPerUuid * i) else simple(i)
  }

  method GenerateUuids(v4: bool, count: real, random: nat -> Unit, simple: nat -> string)
    returns (results: seq<string>)
    ensures |results| == Runs(count)
    ensures forall i :: 0 <= i < |results| ==> results[i] == Uuid(v4, random, simple, i)
  {
    results := [];
    var i := 0;
    while (i as real) < count
      invariant 0 <= i <= Runs(count)
      invariant |results| == i
      invariant forall j :: 0 <= j < i ==> results[j] == Uuid(v4, random, simple, j)
      decreases Runs(count) - i
    {
      results := results + [Uuid(v4, random, simple, i)];
      i := i + 1;
    }
  }

  /** `uuidTool.execute`: `version` defaults to `v4`, anything else is the
      simple form; one UUID is reported alone, several one per line. */
  method Uuids(version: Option<Json>, count: Option<real>, random: nat -> Unit, simple: nat -> string,
               numStr: real -> string)
    returns (text: string, results: seq<string>)
    ensures var n := count.GetOr(1.0);
            (n < 1.0 || n > 10.0) ==> text == UuidCountError && results == []
    ensures var n := count.GetOr(1.0);
            var v4 := version.GetOr(JStr("v4")) == JStr("v4");
            1.0 <= n <= 10.0 ==>
              && |results| == Runs(n)
              && (forall i :: 0 <= i < |results| ==> results[i] == Uuid(v4, random, simple, i))
              && (n == 1.0 ==> text == "生成的UUID：" + results[0])
              && (n != 1.0 ==> text == "生成的" + numStr(n) + "个UUID：\n" + Join(results, "\n"))
  {
    var n := count.GetOr(1.0);
    var v4 := version.GetOr(JStr("v4")) == JStr("v4");
    if n < 1.0 || n > 10.0 {
      return UuidCountError, [];
    }
    results := GenerateUuids(v4, n, random, simple);
    if n == 1.0 {
      text := "生成的UUID：" + results[0];
    } else {
      text := "生成的" + numStr(n) + "个UUID：\n" + Join(results, "\n");
    }
  }

  /** With the default version, every UUID reported has the v4 shape. */
  lemma DefaultUuidsAreV4(random: nat -> Unit, simple: nat -> string, results: seq<string>, i: nat)
    requires forall j :: 0 <= j < |results| ==> results[j] == Uuid(true, random, simple, j)
    requires i < |results|
    ensures var u := results[i];
            && |u| == 36
            && u[8] == '-' && u[13] == '-' && u[18] == '-' && u[23] == '-'
            && u[14] == '4' && u[19] in "89ab"
            && forall j :: XSlot(j) ==> IsLowerHex(u[j])
  {
    V4Shape(random, DrawsPerUuid * i);
  }
}

=== FILE: registry.dfy ===
/** The frontend tool registry (`frontend/src/utils/tools.ts`): a JavaScript
    `Map` from tool name to executor, kept in insertion order, and the
    helper that runs one tool call from a model reply and always answers
    with a string. */
module ToolRegistry {
  import opened Wrappers
  import opened Json
  import opened OrderedMap

  /** A thrown JavaScript value: an `Error` with its message, or anything else. */
  datatype Thrown = ErrorObj(message: string) | NonError

  /** A `ToolExecutor` object. A property the object lacks reads as `None`
      (`undefined`); `isEnabled` is the value the function returns, or
      `None` when there is no such function. The `execute` function is not
      a field: callers pass it as `run`. */
  datatype Executor = Executor(name: Option<string>, description: Option<string>,
                               parameters: Option<Json>, isEnabled: Option<bool>)

  /** The `Map<string, ToolExecutor>`; a missing name is the key `undefined`. */
  type Registry = OMap<Option<string>, Executor>

  /** `!executor.isEnabled || executor.isEnabled()`. */
  predicate Enabled(e: Executor) {
    e.isEnabled != Some(false)
  }

  /** `String(x)` of a name that may be `undefined`. */
  function JsString(name: Option<string>): string {
    match name
    case Some(s) => s
    case None => "undefined"
  }

  /** `register`: `tools.set(tool.name, tool)`. A name already present keeps
      its place and the count; a new name goes to the end. */
  function Register(reg: Registry, tool: Executor): (r: Registry)
    ensures Valid(reg) ==> Valid(r)
    ensures Get(r, tool.name) == Some(tool)
    ensures forall k :: k != tool.name ==> Get(r, k) == Get(reg, k)
    ensures Valid(reg) && tool.name in reg.keys ==> r.keys == reg.keys && Size(r) == Size(reg)
    ensures Valid(reg) && tool.name !in reg.keys ==> r.keys == reg.keys + [tool.name] && Size(r) == Size(reg) + 1
  {
    Set(reg, tool.name, tool)
  }

  /** Registering twice under one name leaves only the later executor. */
  lemma RegisterLastWins(reg: Registry, a: Executor, b: Executor)
    requires Valid(reg) && a.name == b.name
    ensures Register(Register(reg, a), b) == Register(reg, b)
  {
    var r1 := Register(Register(reg, a), b);
    var r2 := Register(reg, b);
    assert r1.keys == r2.keys;
    assert r1.values == r2.values;
  }

  /** `unregister`: `tools.delete(name)`; an absent name changes nothing. */
  function Unregister(reg: Registry, name: Option<string>): (r: Registry)
    ensures Valid(reg) ==> Valid(r)
    ensures Get(r, name) == None
    ensures forall k :: k != name ==> Get(r, k) == Get(reg, k)
    ensures Valid(reg) && name !in reg.keys ==> r == reg
    ensures Valid(reg) && name in reg.keys ==> Size(r) == Size(reg) - 1
  {
    RemovePresentKey(reg, name);
    Remove(reg, name)
  }

  lemma RemovePresentKey(reg: Registry, name: Option<string>)
    ensures Valid(reg) && name in reg.keys ==> |RemoveKey(reg.keys, name)| == |reg.keys| - 1
  {
    if Valid(reg) && name in reg.keys {
      RemoveKeyLength(reg.keys, name);
    }
  }

  /** Registering a new name and unregistering it again restores the registry. */
  lemma {:induction false} UnregisterUndoesRegister(reg: Registry, tool: Executor)
    requires Valid(reg) && tool.name !in reg.keys
    ensures Unregister(Register(reg, tool), tool.name) == reg
  {
    var r := Unregister(Register(reg, tool), tool.name);
    RemoveKeyAppended(reg.keys, tool.name);
    assert r.keys == reg.keys;
    assert r.values == reg.values;
  }

  lemma {:induction false} RemoveKeyAppended<K(!new)>(ks: seq<K>, k: K)
    requires k !in ks
    ensures RemoveKey(ks + [k], k) == ks
  {
    if ks != [] {
      assert (ks + [k])[1..] == ks[1..] + [k];
      RemoveKeyAppended(ks[1..], k);
    } else {
      assert ([k])[1..] == [];
    }
  }

  /** `get`: the executor registered under the name, if any. */
  function GetTool(reg: Registry, name: Option<string>): (r: Option<Executor>)
    ensures r.Some? <==> name in reg.values
    ensures r.Some? ==> r.value == reg.values[name]
  {
    Get(reg, name)
  }

  /** The `Tool` object handed to the chat API. */
  datatype ToolSpec = ToolSpec(typ: string, name: Option<string>, description: Option<string>, parameters: Option<Json>)

  /** `{ type: 'function', function: { name, description, parameters } }`. */
  function Spec(e: Executor): (t: ToolSpec)
    ensures t.typ == "function"
    ensures t.name == e.name && t.description == e.description && t.parameters == e.parameters
  {
    ToolSpec("function", e.name, e.description, e.parameters)
  }

  /** The wrapped enabled executors among `ks`, in the order of `ks`. */
  function EnabledAmong(reg: Registry, ks: seq<Option<string>>): (r: seq<ToolSpec>)
    requires forall k :: k in ks ==> k in reg.values
    ensures |r| <= |ks|
  {
    if ks == [] then []
    else
      var e := reg.values[ks[0]];
      (if Enabled(e) then [Spec(e)] else []) + EnabledAmong(reg, ks[1..])
  }

  /** `getEnabledTools`: the loop over the map in insertion order. */
  function GetEnabledTools(reg: Registry): (r: seq<ToolSpec>)
    requires Valid(reg)
    ensures |r| <= Size(reg)
  {
    EnabledAmong(reg, reg.keys)
  }

  /** Every listed tool is the wrapping of an enabled registered executor,
      and every enabled registered executor is listed. */
  lemma {:induction false} EnabledAmongExact(reg: Registry, ks: seq<Option<string>>)
    requires forall k :: k in ks ==> k in reg.values
    ensures forall t :: t in EnabledAmong(reg, ks) <==>
              exists k :: k in ks && Enabled(reg.values[k]) && t == Spec(reg.values[k])
  {
    if ks != [] {
      EnabledAmongExact(reg, ks[1..]);
      forall t | t in EnabledAmong(reg, ks)
        ensures exists k :: k in ks && Enabled(reg.values[k]) && t == Spec(reg.values[k])
      {
        if !(Enabled(reg.values[ks[0]]) && t == Spec(reg.values[ks[0]])) {
          assert t in EnabledAmong(reg, ks[1..]);
          var k :| k in ks[1..] && Enabled(reg.values[k]) && t == Spec(reg.values[k]);
          assert k in ks;
        }
      }
      forall t | exists k :: k in ks && Enabled(reg.values[k]) && t == Spec(reg.values[k])
        ensures t in EnabledAmong(reg, ks)
      {
        var k :| k in ks && Enabled(reg.values[k]) && t == Spec(reg.values[k]);
        if k != ks[0] {
          assert k in ks[1..];
        }
      }
    }
  }

  lemma GetEnabledToolsExact(reg: Registry, t: ToolSpec)
    requires Valid(reg)
    ensures t in GetEnabledTools(reg) <==>
            exists k :: k in reg.keys && Enabled(reg.values[k]) && t == Spec(reg.values[k])
  {
    EnabledAmongExact(reg, reg.keys);
  }

  lemma {:induction false} EnabledAmongAppend(reg: Registry, a: seq<Option<string>>, b: seq<Option<string>>)
    requires forall k :: k in a + b ==> k in reg.values
    ensures EnabledAmong(reg, a + b) == EnabledAmong(reg, a) + EnabledAmong(reg, b)
  {
    if a != [] {
      assert (a + b)[1..] == a[1..] + b;
      EnabledAmongAppend(reg, a[1..], b);
    } else {
      assert a + b == b;
    }
  }

  lemma {:induction false} EnabledAmongFrame(reg: Registry, reg': Registry, ks: seq<Option<string>>)
    requires forall k :: k in ks ==> k in reg.values && k in reg'.values && reg.values[k] == reg'.values[k]
    ensures EnabledAmong(reg, ks) == EnabledAmong(reg', ks)
  {
    if ks != [] {
      EnabledAmongFrame(reg, reg', ks[1..]);
    }
  }

  /** Registering a new enabled executor appends its wrapping to the end of
      the list; registering a new disabled one leaves the list as it was. */
  lemma RegisterNewTool(reg: Registry, tool: Executor)
    requires Valid(reg) && tool.name !in reg.keys
    ensures Enabled(tool) ==> GetEnabledTools(Register(reg, tool)) == GetEnabledTools(reg) + [Spec(tool)]
    ensures !Enabled(tool) ==> GetEnabledTools(Register(reg, tool)) == GetEnabledTools(reg)
  {
    var r := Register(reg, tool);
    EnabledAmongAppend(r, reg.keys, [tool.name]);
    EnabledAmongFrame(reg, r, reg.keys);
    assert [tool.name][1..] == [];
  }

  /** `execute`: an unknown name throws `未找到工具: <name>`; the tool's own
      outcome, value or thrown error, comes back unchanged. */
  function Execute(reg: Registry, name: Option<string>, args: Json,
                   run: (Executor, Json) -> Result<string, Thrown>): (r: Result<string, Thrown>)
    ensures name !in reg.values ==> r == Err(ErrorObj("未找到工具: " + JsString(name)))
    ensures name in reg.values ==> r == run(reg.values[name], args)
  {
    match Get(reg, name)
    case None => Err(ErrorObj("未找到工具: " + JsString(name)))
    case Some(tool) => run(tool, args)
  }

  const ToolErrorPrefix := "工具执行错误: "

  /** The text of a caught value: its message, or `未知错误` when it is not an `Error`. */
  function ErrorText(e: Thrown): string {
    match e
    case ErrorObj(m) => m
    case NonError => "未知错误"
  }

  /** `executeToolCall`: `parse` is `JSON.parse`, with the `SyntaxError`
      message on failure. Every failure is caught and becomes a string. */
  function ExecuteToolCall(reg: Registry, name: Option<string>, arguments: string,
                           parse: string -> Result<Json, string>,
                           run: (Executor, Json) -> Result<string, Thrown>): (r: string)
    ensures parse(arguments).Err? ==> r == ToolErrorPrefix + parse(arguments).error
    ensures parse(arguments).Ok? && name !in reg.values ==> r == ToolErrorPrefix + "未找到工具: " + JsString(name)
    ensures parse(arguments).Ok? && name in reg.values ==>
              var out := run(reg.values[name], parse(arguments).value);
              r == (if out.Ok? then out.value else ToolErrorPrefix + ErrorText(out.error))
  {
    match parse(arguments)
    case Err(m) => ToolErrorPrefix + m
    case Ok(args) =>
      match Execute(reg, name, args, run)
      case Ok(s) => s
      case Err(e) => ToolErrorPrefix + ErrorText(e)
  }

  /** A call the registry cannot answer, by bad arguments, an unknown name
      or a failing tool, still answers with a string carrying the prefix. */
  lemma ExecuteToolCallFailure(reg: Registry, name: Option<string>, arguments: string,
                               parse: string -> Result<Json, string>,
                               run: (Executor, Json) -> Result<string, Thrown>)
    requires parse(arguments).Err? || name !in reg.values || run(reg.values[name], parse(arguments).value).Err?
    ensures var r := ExecuteToolCall(reg, name, arguments, parse, run);
            |r| >= |ToolErrorPrefix| && r[..|ToolErrorPrefix|] == ToolErrorPrefix
  {
  }

  /** `getAllToolNames`: the keys in insertion order, each once. */
  function GetAllToolNames(reg: Registry): (names: seq<Option<string>>)
    requires Valid(reg)
    ensures |names| == GetToolCount(reg)
    ensures Distinct(names)
    ensures forall k :: k in names <==> GetTool(reg, k).Some?
  {
    reg.keys
  }

  /** `getToolCount`: `tools.size`. */
  function GetToolCount(reg: Registry): nat {
    Size(reg)
  }
}

=== FILE: storage_tool.dfy ===
/** The two browser-storage tools (`frontend/src/tools/storage.ts`):
    `localStorageTool` and `sessionStorageTool` run the same five actions
    over their own store and differ only in wording. A store is an
    insertion-ordered map from string to string; `String(x)` of an argument
    is the parameter `jsStr`, and a failing `setItem` (a full store) is the
    parameter `setFailure`. */
module StorageTool {
  import opened Wrappers
  import opened Strings
  import opened Json
  import opened OrderedMap
  import opened JsValues
  import opened ToolRegistry

  datatype Area = LocalArea | SessionArea

  type Store = OMap<string, string>

  const SetUsage := "❌ 错误：set操作需要key和value参数"
  const GetUsage := "❌ 错误：get操作需要key参数"
  const RemoveUsage := "❌ 错误：remove操作需要key参数"
  const NotFoundPrefix := "⚠️ 未找到键："
  const InvalidAction := "❌ 错误：无效的操作类型"

  function StoredPrefix(a: Area): string {
    match a
    case LocalArea => "✅ 已存储数据："
    case SessionArea => "✅ 已存储会话数据："
  }

  function ReadPrefix(a: Area): string {
    match a
    case LocalArea => "📄 读取数据："
    case SessionArea => "📄 读取会话数据："
  }

  function RemovedPrefix(a: Area): string {
    match a
    case LocalArea => "🗑️ 已删除键："
    case SessionArea => "🗑️ 已删除会话键："
  }

  function ClearedText(a: Area): string {
    match a
    case LocalArea => "🧹 已清空所有本地存储数据"
    case SessionArea => "🧹 已清空所有会话存储数据"
  }

  function EmptyText(a: Area): string {
    match a
    case LocalArea => "📭 本地存储为空"
    case SessionArea => "📭 会话存储为空"
  }

  function ListPrefix(a: Area): string {
    match a
    case LocalArea => "📋 本地存储键列表（共"
    case SessionArea => "📋 会话存储键列表（共"
  }

  function FailurePrefix(a: Area): string {
    match a
    case LocalArea => "❌ 本地存储操作失败："
    case SessionArea => "❌ 会话存储操作失败："
  }

  /** The `list` answer for a non-empty store. */
  function ListText(a: Area, keys: seq<string>): string {
    ListPrefix(a) + NatToString(|keys|) + "个）：\n" + Join(keys, ", ")
  }

  /** `execute(parameters)`: the new store and the answer. */
  function Execute(a: Area, store: Store, params: seq<(string, Json)>,
                   jsStr: Json -> string, setFailure: Option<Thrown>): (r: (Store, string))
    ensures Lookup(params, "action") !in {Some(JStr("set")), Some(JStr("remove")), Some(JStr("clear"))} ==> r.0 == store
    ensures (Lookup(params, "action") == Some(JStr("set"))
             && (!JsTruthy(Lookup(params, "key")) || Lookup(params, "value").None?)) ==> r == (store, SetUsage)
    ensures Lookup(params, "action") == Some(JStr("set")) && setFailure.Some? ==> r.0 == store
    ensures (Lookup(params, "action") in {Some(JStr("get")), Some(JStr("remove"))}
             && !JsTruthy(Lookup(params, "key"))) ==> r.0 == store && r.1 in {GetUsage, RemoveUsage}
    ensures Lookup(params, "action") == Some(JStr("clear")) ==> r == (Empty(), ClearedText(a))
  {
    var action := Lookup(params, "action");
    var key := Lookup(params, "key");
    var value := Lookup(params, "value");
    if action == Some(JStr("set")) then
      if !JsTruthy(key) || value.None? then (store, SetUsage)
      else
        var k := jsStr(key.value);
        var v := jsStr(value.value);
        match setFailure
        case Some(e) => (store, FailurePrefix(a) + ErrorText(e))
        case None => (Set(store, k, v), StoredPrefix(a) + k + " = " + v)
    else if action == Some(JStr("get")) then
      if !JsTruthy(key) then (store, GetUsage)
      else
        var k := jsStr(key.value);
        match Get(store, k)
        case None => (store, NotFoundPrefix + k)
        case Some(v) => (store, ReadPrefix(a) + k + " = " + v)
    else if action == Some(JStr("remove")) then
      if !JsTruthy(key) then (store, RemoveUsage)
      else
        var k := jsStr(key.value);
        (Remove(store, k), RemovedPrefix(a) + k)
    else if action == Some(JStr("clear")) then
      (Empty(), ClearedText(a))
    else if action == Some(JStr("list")) then
      if |store.keys| == 0 then (store, EmptyText(a)) else (store, ListText(a, store.keys))
    else (store, InvalidAction)
  }

  /** The parameters of one action. */
  function Params(action: string, key: Option<Json>, value: Option<Json>): (p: seq<(string, Json)>)
    ensures Lookup(p, "action") == Some(JStr(action))
    ensures Lookup(p, "key") == key && Lookup(p, "value") == value
  {
    var base := [("action", JStr(action))];
    var withKey := if key.Some? then base + [("key", key.value)] else base;
    LookupAppend(base, "key", key, "action");
    LookupAppend(base, "key", key, "value");
    LookupAppend(withKey, "value", value, "action");
    LookupAppend(withKey, "value", value, "key");
    if value.Some? then withKey + [("value", value.value)] else withKey
  }

  /** Appending a field, when present, to a list that lacks its name. */
  lemma LookupAppend(fields: seq<(string, Json)>, name: string, v: Option<Json>, other: string)
    requires !HasKey(fields, name) && other != name
    ensures Lookup(if v.Some? then fields + [(name, v.value)] else fields, other) == Lookup(fields, other)
    ensures Lookup(if v.Some? then fields + [(name, v.value)] else fields, name) == v
  {
    if v.Some? {
      LookupConcat(fields, [(name, v.value)], other);
      LookupConcat(fields, [(name, v.value)], name);
    } else {
      LookupMissing(fields, name);
    }
  }

  /** After a successful `set`, `get` of the same key reads the stored value back. */
  lemma SetThenGet(a: Area, store: Store, key: Json, value: Json, jsStr: Json -> string)
    requires JsTruthy(Some(key))
    ensures var (s1, _) := Execute(a, store, Params("set", Some(key), Some(value)), jsStr, None);
            Execute(a, s1, Params("get", Some(key), None), jsStr, None)
              == (s1, ReadPrefix(a) + jsStr(key) + " = " + jsStr(value))
  {
  }

  /** After `remove`, the key is gone and every other key keeps its value. */
  lemma RemoveThenGet(a: Area, store: Store, key: Json, other: string, jsStr: Json -> string)
    requires JsTruthy(Some(key)) && other != jsStr(key)
    ensures var (s1, _) := Execute(a, store, Params("remove", Some(key), None), jsStr, None);
            && Execute(a, s1, Params("get", Some(key), None), jsStr, None) == (s1, NotFoundPrefix + jsStr(key))
            && Get(s1, other) == Get(store, other)
  {
  }

  /** After `clear`, `list` reports the empty store. */
  lemma ClearThenList(a: Area, store: Store, jsStr: Json -> string, setFailure: Option<Thrown>)
    ensures var (s1, _) := Execute(a, store, Params("clear", None, None), jsStr, setFailure);
            Execute(a, s1, Params("list", None, None), jsStr, setFailure) == (s1, EmptyText(a))
  {
  }

  /** `list` on a store with keys names how many there are and lists them,
      in store order, separated by `", "`. */
  lemma ListReportsKeys(a: Area, store: Store, jsStr: Json -> string)
    requires Valid(store) && |store.keys| > 0
    ensures var (s1, text) := Execute(a, store, Params("list", None, None), jsStr, None);
            && s1 == store
            && text == ListPrefix(a) + NatToString(Size(store)) + "个）：\n" + Join(store.keys, ", ")
  {
  }

  /** An unknown or missing action answers with the invalid-action error. */
  lemma UnknownAction(a: Area, store: Store, params: seq<(string, Json)>, jsStr: Json -> string, setFailure: Option<Thrown>)
    requires Lookup(params, "action") !in {Some(JStr("set")), Some(JStr("get")), Some(JStr("remove")),
                                           Some(JStr("clear")), Some(JStr("list"))}
    ensures Execute(a, store, params, jsStr, setFailure) == (store, InvalidAction)
  {
  }

  /** The two tools leave their stores in the same state: only the wording differs. */
  lemma AreasAgree(store: Store, params: seq<(string, Json)>, jsStr: Json -> string, setFailure: Option<Thrown>)
    ensures Execute(LocalArea, store, params, jsStr, setFailure).0 == Execute(SessionArea, store, params, jsStr, setFailure).0
  {
  }
}

=== FILE: strings.dfy ===
/** String helpers shared by the Python and TypeScript parts of the model.
    Strings are `seq<char>`; whitespace is passed in as a predicate because
    Python's `str.isspace` and JavaScript's `\s` disagree on a few code points. */
module Strings {

  /** Python `str.isspace`: the characters `str.strip()` and `str.split()` treat as whitespace. */
  predicate PyIsSpace(c: char) {
    c == ' ' || ('\t' <= c <= '\r') || ('\U{1C}' <= c <= '\U{1F}')
    || c == '\U{85}' || c == '\U{A0}' || c == '\U{1680}'
    || ('\U{2000}' <= c <= '\U{200A}') || c == '\U{2028}' || c == '\U{2029}'
    || c == '\U{202F}' || c == '\U{205F}' || c == '\U{3000}'
  }

  /** JavaScript `\s` and `String.prototype.trim`: WhiteSpace plus LineTerminator. */
  predicate JsIsSpace(c: char) {
    c == ' ' || ('\t' <= c <= '\r') || c == '\U{A0}' || c == '\U{1680}'
    || ('\U{2000}' <= c <= '\U{200A}') || c == '\U{2028}' || c == '\U{2029}'
    || c == '\U{202F}' || c == '\U{205F}' || c == '\U{3000}' || c == '\U{FEFF}'
  }

  predicate IsAsciiLetter(c: char) {
    ('a' <= c <= 'z') || ('A' <= c <= 'Z')
  }

  /** CJK Unified Ideographs, the range `'\U{4E00}' <= c <= '\U{9FFF}'` tests. */
  predicate IsCjk(c: char) {
    '\U{4E00}' <= c <= '\U{9FFF}'
  }

  predicate IsDigit(c: char) {
    '0' <= c <= '9'
  }

  predicate IsLowerHex(c: char) {
    IsDigit(c) || ('a' <= c <= 'f')
  }

  /** Python `str.lower()` on one character. ASCII capitals and the KELVIN SIGN
      (the one non-ASCII character whose lower case is a single ASCII letter) are
      mapped; every other character is kept, which is exact for comparisons
      against all-ASCII lower-case words. */
  function PyLowerChar(c: char): char {
    if 'A' <= c <= 'Z' then (c as int + 32) as char
    else if c == '\U{212A}' then 'k'
    else c
  }

  function PyLower(s: string): (r: string)
    ensures |r| == |s|
    ensures forall i :: 0 <= i < |s| ==> r[i] == PyLowerChar(s[i])
  {
    seq(|s|, i requires 0 <= i < |s| => PyLowerChar(s[i]))
  }

  function AsciiUpperChar(c: char): char {
    if 'a' <= c <= 'z' then (c as int - 32) as char else c
  }

  function AsciiLowerChar(c: char): char {
    if 'A' <= c <= 'Z' then (c as int + 32) as char else c
  }

  function AsciiUpper(s: string): (r: string)
    ensures |r| == |s|
    ensures forall i :: 0 <= i < |s| ==> r[i] == AsciiUpperChar(s[i])
  {
    seq(|s|, i requires 0 <= i < |s| => AsciiUpperChar(s[i]))
  }

  function AsciiLower(s: string): (r: string)
    ensures |r| == |s|
    ensures forall i :: 0 <= i < |s| ==> r[i] == AsciiLowerChar(s[i])
  {
    seq(|s|, i requires 0 <= i < |s| => AsciiLowerChar(s[i]))
  }

  predicate StartsWith(s: string, prefix: string) {
    |prefix| <= |s| && s[..|prefix|] == prefix
  }

  /** `sub in s` for strings. */
  predicate Contains(s: string, sub: string)
    decreases |s|
  {
    StartsWith(s, sub) || (|s| > 0 && Contains(s[1..], sub))
  }

  lemma {:induction false} ContainsAt(s: string, sub: string, i: nat)
    requires i + |sub| <= |s| && s[i..i + |sub|] == sub
    ensures Contains(s, sub)
    decreases i
  {
    if i > 0 {
      assert s[1..][i - 1..i - 1 + |sub|] == sub;
      ContainsAt(s[1..], sub, i - 1);
    }
  }

  lemma {:induction false} ContainsAppend(s: string, t: string, sub: string)
    requires Contains(s, sub)
    ensures Contains(s + t, sub)
    decreases |s|
  {
    if StartsWith(s, sub) {
      assert (s + t)[..|sub|] == s[..|sub|];
    } else {
      assert (s + t)[1..] == s[1..] + t;
      ContainsAppend(s[1..], t, sub);
    }
  }

  /** Lower-casing keeps every substring, lower-cased. */
  lemma {:induction false} ContainsLower(s: string, sub: string)
    requires Contains(s, sub)
    ensures Contains(PyLower(s), PyLower(sub))
    decreases |s|
  {
    if StartsWith(s, sub) {
      assert PyLower(s)[..|sub|] == PyLower(sub);
    } else {
      ContainsLower(s[1..], sub);
      assert PyLower(s)[1..] == PyLower(s[1..]);
    }
  }

  /** A string in which the first character of `sub` never occurs does not contain `sub`. */
  lemma {:induction false} ContainsNeedsFirst(s: string, sub: string)
    requires |sub| > 0 && forall i :: 0 <= i < |s| ==> s[i] != sub[0]
    ensures !Contains(s, sub)
    decreases |s|
  {
    if |s| > 0 {
      assert s[1..][0..] == s[1..];
      ContainsNeedsFirst(s[1..], sub);
      if |sub| <= |s| {
        assert s[..|sub|][0] != sub[0];
      }
    }
  }

  function Count(s: string, c: char): (n: nat)
    ensures n <= |s|
  {
    if s == [] then 0 else (if s[0] == c then 1 else 0) + Count(s[1..], c)
  }

  /** `s.count(...)` for a predicate rather than one character. */
  function CountWhere(s: string, p: char -> bool): (n: nat)
    ensures n <= |s|
  {
    if s == [] then 0 else (if p(s[0]) then 1 else 0) + CountWhere(s[1..], p)
  }

  function RemoveWhere(s: string, p: char -> bool): (r: string)
    ensures |r| == |s| - CountWhere(s, p)
    ensures forall i :: 0 <= i < |r| ==> !p(r[i])
  {
    if s == [] then [] else (if p(s[0]) then [] else [s[0]]) + RemoveWhere(s[1..], p)
  }

  function IndexOf(s: string, c: char): (i: nat)
    requires c in s
    ensures i < |s| && s[i] == c && c !in s[..i]
  {
    if s[0] == c then 0 else 1 + IndexOf(s[1..], c)
  }

  /** Python `s.split(sep)` and JavaScript `s.split(sep)` for a one-character
      separator: always at least one piece, empty pieces kept. */
  function Split(s: string, sep: char): (parts: seq<string>)
    ensures |parts| >= 1
    ensures forall k :: 0 <= k < |parts| ==> sep !in parts[k]
    decreases |s|
  {
    if sep !in s then [s]
    else
      var i := IndexOf(s, sep);
      [s[..i]] + Split(s[i + 1..], sep)
  }

  /** `sep.join(parts)`. */
  function Join(parts: seq<string>, sep: string): string
  {
    if |parts| == 0 then ""
    else if |parts| == 1 then parts[0]
    else parts[0] + sep + Join(parts[1..], sep)
  }

  /** Splitting on a character and joining with it again gives back the string. */
  lemma {:induction false} JoinSplit(s: string, sep: char)
    ensures Join(Split(s, sep), [sep]) == s
    decreases |s|
  {
    if sep in s {
      var i := IndexOf(s, sep);
      var rest := Split(s[i + 1..], sep);
      JoinSplit(s[i + 1..], sep);
      assert Split(s, sep) == [s[..i]] + rest;
      assert s == s[..i] + [sep] + s[i + 1..];
    }
  }

  /** The first separator in `a + [sep] + b` is the one right after `a`. */
  lemma {:induction false} IndexOfAfter(a: string, sep: char, b: string)
    requires sep !in a
    ensures sep in a + [sep] + b && IndexOf(a + [sep] + b, sep) == |a|
    decreases |a|
  {
    var s := a + [sep] + b;
    assert s[|a|] == sep;
    if a != [] {
      assert s[1..] == a[1..] + [sep] + b;
      IndexOfAfter(a[1..], sep, b);
    }
  }

  /** Joining separator-free pieces and splitting again gives back the pieces. */
  lemma {:induction false} SplitJoin(parts: seq<string>, sep: char)
    requires |parts| >= 1
    requires forall k :: 0 <= k < |parts| ==> sep !in parts[k]
    ensures Split(Join(parts, [sep]), sep) == parts
    decreases |parts|
  {
    if |parts| > 1 {
      var rest := Join(parts[1..], [sep]);
      var s := parts[0] + [sep] + rest;
      assert Join(parts, [sep]) == s;
      IndexOfAfter(parts[0], sep, rest);
      assert s[..|parts[0]|] == parts[0];
      assert s[|parts[0]| + 1..] == rest;
      assert Split(s, sep) == [parts[0]] + Split(rest, sep);
      SplitJoin(parts[1..], sep);
      assert parts == [parts[0]] + parts[1..];
    }
  }

  /** The number of pieces is one more than the number of separators. */
  lemma {:induction false} SplitCount(s: string, sep: char)
    ensures |Split(s, sep)| == Count(s, sep) + 1
    decreases |s|
  {
    if sep !in s {
      CountAbsent(s, sep);
    } else {
      var i := IndexOf(s, sep);
      SplitCount(s[i + 1..], sep);
      CountConcat(s[..i], s[i..], sep);
      assert s == s[..i] + s[i..];
      CountAbsent(s[..i], sep);
      assert s[i..] == [sep] + s[i + 1..];
      CountConcat([sep], s[i + 1..], sep);
    }
  }

  lemma {:induction false} CountAbsent(s: string, c: char)
    requires c !in s
    ensures Count(s, c) == 0
    decreases |s|
  {
    if s != [] {
      CountAbsent(s[1..], c);
    }
  }

  lemma {:induction false} CountConcat(a: string, b: string, c: char)
    ensures Count(a + b, c) == Count(a, c) + Count(b, c)
    decreases |a|
  {
    if a == [] {
      assert a + b == b;
    } else {
      assert (a + b)[0] == a[0];
      assert (a + b)[1..] == a[1..] + b;
      CountConcat(a[1..], b, c);
    }
  }

  function TrimStart(s: string, ws: char -> bool): (r: string)
    ensures |r| <= |s| && r == s[|s| - |r|..]
    ensures |r| > 0 ==> !ws(r[0])
  {
    if |s| > 0 && ws(s[0]) then TrimStart(s[1..], ws) else s
  }

  /** What `TrimStart` removed was whitespace. */
  lemma {:induction false} TrimStartRemoved(s: string, ws: char -> bool)
    ensures AllSpace(s[..|s| - |TrimStart(s, ws)|], ws)
    decreases |s|
  {
    if |s| > 0 && ws(s[0]) {
      TrimStartRemoved(s[1..], ws);
      var k := |s| - |TrimStart(s, ws)|;
      forall i | 0 <= i < k ensures ws(s[..k][i]) {
        if i > 0 {
          assert s[..k][i] == s[1..][..k - 1][i - 1];
        }
      }
    }
  }

  function TrimEnd(s: string, ws: char -> bool): (r: string)
    ensures |r| <= |s| && r == s[..|r|]
    ensures |r| > 0 ==> !ws(r[|r| - 1])
  {
    if |s| > 0 && ws(s[|s| - 1]) then TrimEnd(s[..|s| - 1], ws) else s
  }

  /** What `TrimEnd` removed was whitespace. */
  lemma {:induction false} TrimEndRemoved(s: string, ws: char -> bool)
    ensures AllSpace(s[|TrimEnd(s, ws)|..], ws)
    decreases |s|
  {
    if |s| > 0 && ws(s[|s| - 1]) {
      var p := s[..|s| - 1];
      TrimEndRemoved(p, ws);
      var k := |TrimEnd(s, ws)|;
      forall i | 0 <= i < |s| - k ensures ws(s[k..][i]) {
        if k + i < |s| - 1 {
          assert s[k..][i] == p[k..][i];
        }
      }
    }
  }

  /** Python `str.strip()` / JavaScript `String.prototype.trim()` for the given whitespace. */
  function Strip(s: string, ws: char -> bool): string
  {
    TrimEnd(TrimStart(s, ws), ws)
  }

  predicate AllSpace(s: string, ws: char -> bool) {
    forall i :: 0 <= i < |s| ==> ws(s[i])
  }

  /** Stripping removes only whitespace from the two ends, and leaves
      nothing exactly when the string was all whitespace. */
  lemma StripShape(s: string, ws: char -> bool)
    ensures var r := Strip(s, ws);
            exists a: nat :: a + |r| <= |s| && r == s[a..a + |r|]
                             && AllSpace(s[..a], ws) && AllSpace(s[a + |r|..], ws)
    ensures Strip(s, ws) == "" <==> AllSpace(s, ws)
  {
    var t := TrimStart(s, ws);
    var r := TrimEnd(t, ws);
    var a := |s| - |t|;
    TrimStartRemoved(s, ws);
    TrimEndRemoved(t, ws);
    assert r == s[a..a + |r|];
    assert s[a + |r|..] == t[|r|..];
    if r != "" {
      assert s[a] == r[0];
    } else {
      assert t[|r|..] == t;
      assert s[..a] == s;
    }
  }

  /** Length of the leading run of non-whitespace characters. */
  function RunLength(s: string, ws: char -> bool): (n: nat)
    ensures n <= |s|
    ensures forall i :: 0 <= i < n ==> !ws(s[i])
    ensures n < |s| ==> ws(s[n])
  {
    if s == [] || ws(s[0]) then 0 else 1 + RunLength(s[1..], ws)
  }

  /** The maximal whitespace-free runs of `s`, in order: Python's `s.split()`. */
  function Words(s: string, ws: char -> bool): (words: seq<string>)
    ensures forall k :: 0 <= k < |words| ==> |words[k]| > 0
    ensures forall k, i :: 0 <= k < |words| && 0 <= i < |words[k]| ==> !ws(words[k][i])
    decreases |s|
  {
    if s == [] then []
    else if ws(s[0]) then Words(s[1..], ws)
    else
      var n := RunLength(s, ws);
      [s[..n]] + Words(s[n..], ws)
  }

  /** A string has no words exactly when it is all whitespace. */
  lemma {:induction false} WordsEmpty(s: string, ws: char -> bool)
    ensures Words(s, ws) == [] <==> AllSpace(s, ws)
    decreases |s|
  {
    if s != [] && ws(s[0]) {
      WordsEmpty(s[1..], ws);
      assert AllSpace(s, ws) <==> AllSpace(s[1..], ws) by {
        if AllSpace(s[1..], ws) {
          forall i | 0 <= i < |s| ensures ws(s[i]) {
            if i > 0 {
              assert s[i] == s[1..][i - 1];
            }
          }
        }
      }
    }
  }

  /** Stripping a stripped string changes nothing. */
  lemma StripIdempotent(s: string, ws: char -> bool)
    ensures Strip(Strip(s, ws), ws) == Strip(s, ws)
  {
    var t := TrimStart(s, ws);
    var r := TrimEnd(t, ws);
    if r != [] {
      assert r[0] == t[0];
      assert TrimStart(r, ws) == r;
    }
  }

  /** Leading and trailing whitespace does not change the words. */
  lemma {:induction false} WordsStrip(s: string, ws: char -> bool)
    ensures Words(Strip(s, ws), ws) == Words(s, ws)
  {
    var t := TrimStart(s, ws);
    TrimStartRemoved(s, ws);
    WordsSkip(s, |s| - |t|, ws);
    WordsTrimEnd(t, ws);
  }

  lemma {:induction false} WordsSkip(s: string, a: nat, ws: char -> bool)
    requires a <= |s| && AllSpace(s[..a], ws)
    ensures Words(s[a..], ws) == Words(s, ws)
    decreases a
  {
    if a > 0 {
      assert s[0] == s[..a][0];
      assert s[1..][..a - 1] == s[..a][1..];
      WordsSkip(s[1..], a - 1, ws);
      assert s[1..][a - 1..] == s[a..];
    }
  }

  /** Words of a string that ends in whitespace are the words without it. */
  lemma {:induction false} WordsDropLast(s: string, ws: char -> bool)
    requires |s| > 0 && ws(s[|s| - 1])
    ensures Words(s, ws) == Words(s[..|s| - 1], ws)
    decreases |s|
  {
    var p := s[..|s| - 1];
    if |s| == 1 {
      assert Words(s[1..], ws) == [];
    } else if ws(s[0]) {
      assert s[1..][..|s[1..]| - 1] == p[1..];
      WordsDropLast(s[1..], ws);
    } else {
      var n := RunLength(s, ws);
      assert n < |s|;
      RunLengthPrefix(s, p, ws);
      var m := RunLength(p, ws);
      assert m == n;
      assert s[..n] == p[..n];
      if n == |p| {
        assert Words(s[n..], ws) == [] by {
          assert s[n..] == [s[|s| - 1]];
          assert Words(s[n..][1..], ws) == [];
        }
        assert p[n..] == [];
      } else {
        assert s[n..][..|s[n..]| - 1] == p[n..];
        WordsDropLast(s[n..], ws);
      }
    }
  }

  lemma {:induction false} RunLengthPrefix(s: string, p: string, ws: char -> bool)
    requires |p| < |s| && p == s[..|p|] && RunLength(s, ws) <= |p|
    ensures RunLength(p, ws) == RunLength(s, ws)
    decreases |p|
  {
    if |p| > 0 && !ws(s[0]) {
      assert s[1..][..|p| - 1] == p[1..];
      RunLengthPrefix(s[1..], p[1..], ws);
    }
  }

  lemma {:induction false} WordsTrimEnd(s: string, ws: char -> bool)
    ensures Words(TrimEnd(s, ws), ws) == Words(s, ws)
    decreases |s|
  {
    if |s| > 0 && ws(s[|s| - 1]) {
      WordsDropLast(s, ws);
      WordsTrimEnd(s[..|s| - 1], ws);
    }
  }

  predicate NoSpace(s: string, ws: char -> bool) {
    forall i :: 0 <= i < |s| ==> !ws(s[i])
  }

  /** A whitespace-free run followed by whitespace or the end is read whole. */
  lemma {:induction false} RunLengthOf(w: string, t: string, ws: char -> bool)
    requires NoSpace(w, ws) && (t == [] || ws(t[0]))
    ensures RunLength(w + t, ws) == |w|
    decreases |w|
  {
    if w == [] {
      assert w + t == t;
    } else {
      assert (w + t)[1..] == w[1..] + t;
      RunLengthOf(w[1..], t, ws);
    }
  }

  /** Joining non-empty whitespace-free words with a space and splitting on
      whitespace gives back the words: `" ".join(ws).split() == ws`. */
  lemma {:induction false} WordsJoin(words: seq<string>, ws: char -> bool)
    requires ws(' ')
    requires forall k :: 0 <= k < |words| ==> |words[k]| > 0 && NoSpace(words[k], ws)
    ensures Words(Join(words, " "), ws) == words
    decreases |words|
  {
    if |words| == 1 {
      var w := words[0];
      RunLengthOf(w, [], ws);
      assert w + [] == w;
      assert w[|w|..] == [];
    } else if |words| > 1 {
      var w := words[0];
      var rest := Join(words[1..], " ");
      var s := w + (" " + rest);
      assert Join(words, " ") == s;
      RunLengthOf(w, " " + rest, ws);
      assert s[0] == w[0];
      assert s[..|w|] == w;
      assert s[|w|..] == " " + rest;
      assert (" " + rest)[1..] == rest;
      WordsJoin(words[1..], ws);
      assert words == [w] + words[1..];
    }
  }

  /** Concatenation of a sequence of strings. */
  function Concat(parts: seq<string>): string
  {
    if parts == [] then "" else parts[0] + Concat(parts[1..])
  }

  /** Decimal rendering of a natural number, as Python `str(n)` and JavaScript
      `String(n)` print it. */
  function NatToString(n: nat): (r: string)
    ensures |r| > 0
    ensures forall i :: 0 <= i < |r| ==> IsDigit(r[i])
    decreases n
  {
    if n < 10 then [('0' as int + n) as char]
    else NatToString(n / 10) + [('0' as int + n % 10) as char]
  }

  function IntToString(n: int): (r: string)
    ensures |r| > 0
  {
    if n < 0 then "-" + NatToString(-n) else NatToString(n)
  }

  function ParseNat(s: string): nat
    requires forall i :: 0 <= i < |s| ==> IsDigit(s[i])
    decreases |s|
  {
    if s == [] then 0
    else
      assert IsDigit(s[|s| - 1]);
      ParseNat(s[..|s| - 1]) * 10 + (s[|s| - 1] as int - '0' as int)
  }

  /** Reading the digits back gives the number that was printed. */
  lemma {:induction false} NatToStringRoundTrip(n: nat)
    ensures ParseNat(NatToString(n)) == n
    decreases n
  {
    if n >= 10 {
      var r := NatToString(n);
      assert r[..|r| - 1] == NatToString(n / 10);
      NatToStringRoundTrip(n / 10);
    }
  }
}

=== FILE: text_tool.dfy ===
/** The text-processing tool (`frontend/src/tools/text.ts`): the argument check,
    the statistics of `word_count`, `trim`, the two case conversions and the
    invalid-action answer. JavaScript's `\s` and `trim` use the same
    whitespace set, `JsIsSpace`. Unicode case mapping is the parameter pair
    `upper` / `lower`, and the paragraph count is the parameter `paragraphs`. */
module TextTool {
  import opened Wrappers
  import opened Strings
  import opened Json
  import opened JsValues

  const MissingText := "❌ 错误：需要提供text参数"
  const InvalidType := "❌ 错误：无效的处理类型"
  const FailurePrefix := "❌ 文本处理失败："

  /** The actions whose work is JSON, Base64, URL coding or title case. */
  const CodecActions: set<string> :=
    {"json_format", "json_minify", "base64_encode", "base64_decode", "url_encode", "url_decode", "title_case"}

  /** One of the eleven actions the tool declares. */
  predicate KnownAction(action: Option<Json>) {
    action.Some? && action.value.JStr?
    && (action.value.s in CodecActions || action.value.s in {"uppercase", "lowercase", "trim", "word_count"})
  }

  /** An answer, or one of the codec actions, which this model does not follow. */
  datatype TextResult = Answer(text: string) | NotModelled(action: string)

  datatype Stats = Stats(chars: nat, charsNoSpaces: nat, words: nat, lines: nat)

  /** `text.trim().split(/\s+/).filter(w => w.length > 0)`. */
  function WordList(text: string): seq<string> {
    Words(Strip(text, JsIsSpace), JsIsSpace)
  }

  /** The four counts of `word_count`. `chars` counts characters, not UTF-16 units. */
  function Statistics(text: string): (st: Stats)
    ensures st.chars == |text|
    ensures st.charsNoSpaces == |text| - CountWhere(text, JsIsSpace)
    ensures st.words == |Words(text, JsIsSpace)|
    ensures st.lines == Count(text, '\n') + 1
  {
    WordsStrip(text, JsIsSpace);
    SplitCount(text, '\n');
    Stats(|text|, |RemoveWhere(text, JsIsSpace)|, |WordList(text)|, |Split(text, '\n')|)
  }

  /** No words exactly when the text is blank; the empty text has one line and nothing else. */
  lemma StatisticsBlank(text: string)
    ensures Statistics(text).words == 0 <==> AllSpace(text, JsIsSpace)
    ensures Statistics("") == Stats(0, 0, 0, 1)
  {
    WordsEmpty(text, JsIsSpace);
  }

  /** The report of `word_count`. */
  function StatsText(st: Stats, paragraphs: nat): string {
    "📊 文本统计：\n🔤 字符数：" + NatToString(st.chars)
    + "\n🔤 字符数（不含空格）：" + NatToString(st.charsNoSpaces)
    + "\n📝 单词数：" + NatToString(st.words)
    + "\n📄 行数：" + NatToString(st.lines)
    + "\n🔗 段落数：" + NatToString(paragraphs)
  }

  const TrimPrefix := "✅ 去除首尾空格：\n\""

  /** `execute(parameters)`. A `text` that is falsy but not `''` is missing,
      whatever the action. A text that is not a string has no string
      methods: the `TypeError` is caught, with V8's wording. */
  function Execute(params: seq<(string, Json)>, upper: string -> string, lower: string -> string,
                   paragraphs: string -> nat): (r: TextResult)
    ensures !JsTruthy(Lookup(params, "text")) && Lookup(params, "text") != Some(JStr("")) ==> r == Answer(MissingText)
    ensures Lookup(params, "text") == Some(JStr("")) && Lookup(params, "action") == Some(JStr("word_count")) ==>
              r == Answer(StatsText(Stats(0, 0, 0, 1), paragraphs("")))
    ensures (Lookup(params, "text").Some? && Lookup(params, "text").value.JStr? && Lookup(params, "action") == Some(JStr("trim"))) ==>
              var t := Lookup(params, "text").value.s;
              r.Answer? && r.text == TrimPrefix + Strip(t, JsIsSpace) + "\""
    ensures ((JsTruthy(Lookup(params, "text")) || Lookup(params, "text") == Some(JStr("")))
             && !KnownAction(Lookup(params, "action"))) ==> r == Answer(InvalidType)
  {
    var action := Lookup(params, "action");
    var text := Lookup(params, "text");
    if !JsTruthy(text) && text != Some(JStr("")) then Answer(MissingText)
    else if action.Some? && action.value.JStr? && action.value.s in CodecActions then NotModelled(action.value.s)
    else if action == Some(JStr("uppercase")) then
      if text.value.JStr? then Answer("✅ 转换为大写：\n" + upper(text.value.s))
      else Answer(FailurePrefix + "text.toUpperCase is not a function")
    else if action == Some(JStr("lowercase")) then
      if text.value.JStr? then Answer("✅ 转换为小写：\n" + lower(text.value.s))
      else Answer(FailurePrefix + "text.toLowerCase is not a function")
    else if action == Some(JStr("trim")) then
      if text.value.JStr? then Answer(TrimPrefix + Strip(text.value.s, JsIsSpace) + "\"")
      else Answer(FailurePrefix + "text.trim is not a function")
    else if action == Some(JStr("word_count")) then
      if text.value.JStr? then Answer(StatsText(Statistics(text.value.s), paragraphs(text.value.s)))
      else Answer(FailurePrefix + "text.trim is not a function")
    else Answer(InvalidType)
  }

  /** The quoted part of a `trim` answer has no outer whitespace left:
      trimming it again gives it back. */
  lemma TrimAnswerIsTrimmed(text: string, upper: string -> string, lower: string -> string, paragraphs: string -> nat)
    ensures var r := Execute([("action", JStr("trim")), ("text", JStr(text))], upper, lower, paragraphs);
            && r.Answer?
            && |r.text| >= |TrimPrefix| + 1
            && var quoted := r.text[|TrimPrefix|..|r.text| - 1];
               quoted == Strip(text, JsIsSpace) && Strip(quoted, JsIsSpace) == quoted
  {
    var r := Execute([("action", JStr("trim")), ("text", JStr(text))], upper, lower, paragraphs);
    var st := Strip(text, JsIsSpace);
    assert Lookup([("action", JStr("trim")), ("text", JStr(text))], "text") == Some(JStr(text));
    assert r.text == TrimPrefix + st + "\"";
    assert r.text[|TrimPrefix|..|r.text| - 1] == st;
    StripIdempotent(text, JsIsSpace);
  }
}

=== FILE: tool_manager.dfy ===
/** The frontend tool manager (`frontend/src/tools/index.ts`): registering the
    six built-in executors into the global registry, the one-shot
    initialisation, and the queries over registered tools. */
module ToolManager {
  import opened Wrappers
  import opened Json
  import opened OrderedMap
  import opened ToolRegistry

  /** `{ type: 'object', properties: { <name>: { type, description } }, required }`. */
  function ObjectSchema(properties: seq<(string, Json)>, required: seq<Json>): Json {
    JObj([("type", JStr("object")), ("properties", JObj(properties))]
         + (if required == [] then [] else [("required", JArr(required))]))
  }

  function Property(typ: string, description: string): Json {
    JObj([("type", JStr(typ)), ("description", JStr(description))])
  }

  const WeatherTool := Executor(Some("get_weather"), Some("获取指定城市的天气信息"),
    Some(ObjectSchema([("city", Property("string", "城市名称，例如：北京、上海、广州"))], [JStr("city")])), Some(true))

  const CalculatorTool := Executor(Some("calculate"), Some("执行数学计算，支持基本的算术运算"),
    Some(ObjectSchema([("expression", Property("string", "要计算的数学表达式，例如：2+3*4、10/2、sqrt(16)、sin(30)"))], [JStr("expression")])),
    Some(true))

  /** The two datetime executors keep name, description and parameters under
      `definition`, so the object itself has none of the three. */
  const DatetimeTool := Executor(None, None, None, Some(true))
  const TimeCalculatorTool := Executor(None, None, None, Some(true))

  /** The `enum` entries of the random and uuid schemas are not modelled. */
  const RandomTool := Executor(Some("generate_random"), Some("生成指定范围内的随机数"),
    Some(ObjectSchema([("min", Property("number", "最小值（包含）")),
                       ("max", Property("number", "最大值（不包含）")),
                       ("count", Property("number", "生成的随机数数量，默认为1")),
                       ("type", Property("string", "随机数类型：integer（整数）或float（浮点数）"))], [JStr("min"), JStr("max")])),
    Some(true))

  const UuidTool := Executor(Some("generate_uuid"), Some("生成UUID（通用唯一标识符）"),
    Some(ObjectSchema([("version", Property("string", "UUID版本：v4（标准UUID）或simple（简化版）")),
                       ("count", Property("number", "生成的UUID数量，默认为1"))], [])),
    Some(true))

  /** The registration order of `registerAllTools`. */
  const BuiltinTools: seq<Executor> := [WeatherTool, CalculatorTool, DatetimeTool, TimeCalculatorTool, RandomTool, UuidTool]

  /** `registerAllTools`: the six `register` calls in order. */
  function RegisterAllTools(reg: Registry): (r: Registry)
    ensures Valid(reg) ==> Valid(r)
  {
    RegisterLastThree(RegisterFirstThree(reg))
  }

  function RegisterFirstThree(reg: Registry): (r: Registry)
    ensures Valid(reg) ==> Valid(r)
  {
    Register(Register(Register(reg, WeatherTool), CalculatorTool), DatetimeTool)
  }

  function RegisterLastThree(reg: Registry): (r: Registry)
    ensures Valid(reg) ==> Valid(r)
  {
    Register(Register(Register(reg, TimeCalculatorTool), RandomTool), UuidTool)
  }

  /** Into an empty registry the six executors make five entries: the two
      datetime executors share the key `undefined`, and the second one,
      the time calculator, is the one kept. This supposes the tool modules
      load, which needs `createParameterSchema` to exist. */
  lemma RegisterAllToolsFromEmpty()
    ensures var r := RegisterAllTools(Empty());
            && GetAllToolNames(r) == [Some("get_weather"), Some("calculate"), None, Some("generate_random"), Some("generate_uuid")]
            && GetToolCount(r) == 5
            && GetTool(r, None) == Some(TimeCalculatorTool)
            && GetTool(r, Some("get_weather")) == Some(WeatherTool)
  {
    FirstThreeFromEmpty();
    LastThreeAfterFirst(RegisterFirstThree(Empty()));
  }

  lemma FirstThreeFromEmpty()
    ensures var r := RegisterFirstThree(Empty());
            && Valid(r) && r.keys == [Some("get_weather"), Some("calculate"), None]
            && GetTool(r, Some("get_weather")) == Some(WeatherTool)
  {
    var r1 := Register(Empty(), WeatherTool);
    assert r1.keys == [Some("get_weather")];
    SecondAndThird(r1);
  }

  lemma SecondAndThird(reg: Registry)
    requires Valid(reg) && reg.keys == [Some("get_weather")]
    ensures var r := Register(Register(reg, CalculatorTool), DatetimeTool);
            && Valid(r) && r.keys == [Some("get_weather"), Some("calculate"), None]
            && GetTool(r, Some("get_weather")) == GetTool(reg, Some("get_weather"))
  {
    var r2 := Register(reg, CalculatorTool);
    assert r2.keys == [Some("get_weather"), Some("calculate")];
  }

  lemma LastThreeAfterFirst(reg: Registry)
    requires Valid(reg) && reg.keys == [Some("get_weather"), Some("calculate"), None]
    ensures var r := RegisterLastThree(reg);
            && r.keys == [Some("get_weather"), Some("calculate"), None, Some("generate_random"), Some("generate_uuid")]
            && GetTool(r, None) == Some(TimeCalculatorTool)
            && GetTool(r, Some("get_weather")) == GetTool(reg, Some("get_weather"))
  {
    var r4 := Register(reg, TimeCalculatorTool);
    var r5 := Register(r4, RandomTool);
    assert r4.keys == reg.keys;
    assert r5.keys == [Some("get_weather"), Some("calculate"), None, Some("generate_random")];
  }

  /** The module state: the global registry and the manager's `initialized` flag. */
  datatype Manager = Manager(initialized: bool, registry: Registry)

  /** `init`: registers the built-in tools once; later calls change nothing. */
  function Init(m: Manager): (r: Manager)
    ensures r.initialized
    ensures m.initialized ==> r == m
    ensures !m.initialized ==> r.registry == RegisterAllTools(m.registry)
  {
    if m.initialized then m else Manager(true, RegisterAllTools(m.registry))
  }

  lemma InitIdempotent(m: Manager)
    ensures Init(Init(m)) == Init(m)
  {
  }

  /** `ToolManager.getInstance`: the class slot holds the instance once one
      was made; `newId` is the identity a new instance would get. */
  function GetInstance(slot: Option<nat>, newId: nat): (r: (Option<nat>, nat))
    ensures r.0 == Some(r.1)
    ensures slot.Some? ==> r.1 == slot.value
  {
    match slot
    case Some(id) => (slot, id)
    case None => (Some(newId), newId)
  }

  /** Every call after the first returns the instance of the first. */
  lemma GetInstanceSame(slot: Option<nat>, id1: nat, id2: nat)
    ensures var (slot1, first) := GetInstance(slot, id1);
            GetInstance(slot1, id2) == (slot1, first)
  {
  }

  /** `hasToolEnabled`: registered and enabled. */
  function HasToolEnabled(reg: Registry, name: Option<string>): (b: bool)
    ensures b <==> GetTool(reg, name).Some? && Enabled(GetTool(reg, name).value)
  {
    match GetTool(reg, name)
    case Some(tool) => Enabled(tool)
    case None => false
  }

  datatype ToolInfo = ToolInfo(name: Option<string>, description: Option<string>, parameters: Option<Json>, enabled: bool)

  /** `getToolInfo`: `null` for an unknown name. */
  function GetToolInfo(reg: Registry, name: Option<string>): (r: Option<ToolInfo>)
    ensures r.None? <==> name !in reg.values
    ensures r.Some? ==> r.value.enabled == HasToolEnabled(reg, name)
    ensures r.Some? ==> var t := reg.values[name];
              r.value.name == t.name && r.value.description == t.description && r.value.parameters == t.parameters
  {
    match GetTool(reg, name)
    case None => None
    case Some(tool) => Some(ToolInfo(tool.name, tool.description, tool.parameters, Enabled(tool)))
  }

  /** `getAllToolsInfo`: one entry per registered name, in order, none of them `null`. */
  function GetAllToolsInfo(reg: Registry): (r: seq<Option<ToolInfo>>)
    requires Valid(reg)
    ensures |r| == GetToolCount(reg)
    ensures forall i :: 0 <= i < |r| ==> r[i] == GetToolInfo(reg, GetAllToolNames(reg)[i])
    ensures forall i :: 0 <= i < |r| ==> r[i].Some?
  {
    var names := GetAllToolNames(reg);
    seq(|names|, i requires 0 <= i < |names| => GetToolInfo(reg, names[i]))
  }

  /** `ToolManager.executeToolCall` repeats the body of the registry helper. */
  function ManagerExecuteToolCall(reg: Registry, name: Option<string>, arguments: string,
                                  parse: string -> Result<Json, string>,
                                  run: (Executor, Json) -> Result<string, Thrown>): string
  {
    match parse(arguments)
    case Err(m) => ToolErrorPrefix + m
    case Ok(args) =>
      match Execute(reg, name, args, run)
      case Ok(s) => s
      case Err(e) => ToolErrorPrefix + ErrorText(e)
  }

  lemma ManagerExecuteAgrees(reg: Registry, name: Option<string>, arguments: string,
                             parse: string -> Result<Json, string>,
                             run: (Executor, Json) -> Result<string, Thrown>)
    ensures ManagerExecuteToolCall(reg, name, arguments, parse, run) == ExecuteToolCall(reg, name, arguments, parse, run)
  {
  }
}

=== FILE: wrappers.dfy ===
/** Option and Result: the model's replacement for Python's None and for
    exceptions that cross a function boundary. */
module Wrappers {

  datatype Option<+T> = None | Some(value: T) {
    function GetOr(default: T): T {
      match this
      case Some(v) => v
      case None => default
    }
  }

  /** `Err` carries the text the source would put into the exception message. */
  datatype Result<+T, +E> = Ok(value: T) | Err(error: E) {
    predicate IsFailure() {
      Err?
    }

    function PropagateFailure<U>(): Result<U, E>
      requires Err?
    {
      Err(error)
    }

    function Extract(): T
      requires Ok?
    {
      value
    }
  }
}
